=== FILE: README.md ===
# linguarium core, modelled in Dafny

This project models the sequential logic of the linguarium language-learning
back end and proves properties of it. The Spring framework around that logic
(controllers, repositories, security wiring, mappers) is not modelled.

The model covers these parts:

- **Friendship lifecycle** (`friendship.dfy`, `friendship_service.dfy`):
  - the `Friendship` row with its status enum, its ordered composite key and its key-only equality;
  - `whoDeniesFriendship`;
  - the service operations request, approve, block, cancel and unblock, and the `editFriendship` dispatch.
  - The relationship table is a map from the ordered primary key to the row.
  - Each operation is a pure function returning `Result<Store, FriendshipError>`.
  - The dispatch returns an `Effect`: the store after the command together with the exception it threw, if any.
- **Tags on cards** (`tags.dfy`, `card_service.dfy`, `tag_rename.dfy`):
  - The Tag table is append-only, so it is a sequence indexed by tag id.
  - The CardTag association table is a map from `CardTagPK` to the learner.
  - Modelled on top of them: `createCardTags` with its normalised find-or-create, the two-loop `updateTags` reconciliation, `renameTagForUser`, and the `searchByEntry` pattern.
- **Translations and examples** (`line_items.dfy`, `card_service.dfy`):
  - `updateCardDetails` does a three-way reconcile: delete the listed ids, update the items that carry an id, and insert the items that do not.
  - A table is a row map plus the identity column's next id.
  - `updateCard` chains the line reconciliation, the tag reconciliation and the `updated` timestamp.
- **Entity helpers** (`entities.dfy`):
  - `Card.addExample` and `removeExample`, and `Card`'s id-only `equals` and `hashCode`.
  - `User.addCard`, `addCards`, `removeCard` and `usernameGenerator`.
- **Card suggestions** (`suggestions.dfy`) and **local authentication with verification tokens** (`local_auth.dfy`):
  - The implementations of these services are not part of this model.
  - Each operation does exactly what its unit tests require.
- **Small helpers**:
  - the OAuth2 attribute getters and the dotted nested lookup, the Facebook reader, and the provider factory (`oauth_user_info.dfy`);
  - the redirect-URI allow-list and target-URL decision of the login success handler (`redirect.dfy`);
  - `toSocialProvider` and `buildSimpleGrantedAuthorities` (`general_utils.dfy`);
  - the OTP digit loop (`otp.dfy`);
  - the init-once start-up seeding (`setup.dfy`).
- **Java platform behaviour the code relies on** (`java_lang.dfy`):
  - 32- and 64-bit integer ranges, with two's-complement narrowing written out;
  - `Long.hashCode` and the `Objects.hash` / Lombok hash folds;
  - `String.trim`, ASCII `toLowerCase` and `equalsIgnoreCase`;
  - `String.split` on one literal character, including its rule that trailing empty strings are dropped.
- `wrappers.dfy` holds the `Option` and `Result` types.

The model fixes these behaviours by decision, because the repository queries and entities involved are not modelled:

- **Pair lookup and delete.** `getFriendshipByUsersIds` and `deleteFriendshipByIds` are taken to work on the unordered pair, because either party may approve, block or cancel. The lookup finds the row stored under either key, and the delete removes both keys.
- **Java asserts.** The asserts at UserServiceImpl.java:254, 269, 301, 307, 318 and 324 become preconditions.
- **Tag normalisation.** `Tag.normalizeText` is a function parameter, so only its determinism is assumed. The normalised query `findByTextWithNormalization` is taken to compare normalised texts.
- **Tag text.** A new `Tag(text)` is taken to store `text` as given.
- **Moving a CardTag.** In `renameTagForUser`, `cardTag.setTag(proposedTag)` followed by `cardTagRepository.save(cardTag)` (UserServiceImpl.java:152-155) is taken to re-key the row from (card, old tag) to (card, proposed tag). A row already under the new key is merged into, and then belongs to the renaming user. The CardTag entity is not part of this model, and its key is the composite `CardTagPK`. If that key is derived from the tag, JPA does not move a managed row to a new primary key: the flush then fails on an altered identifier, or the row stays on the old tag. The model does not cover that reading.
- **One learner per card.** `createCardTags` gives every CardTag the card's owner, and `updateTags` gives it the learner editing the card. While only a card's owner edits its tags, all CardTags of a card belong to one learner (`TagRename.OneLearnerPerCard`). The rename's guarantee about other users' rows rests on this.
- **Iteration order.** The iteration order of a `HashSet` is left open: the loops pick an arbitrary remaining element.
- **Clock, randomness and external services.** The clock, the random source, the password encoder, the JWT provider and the authentication manager's verdict are all parameters.

## Model

| member | source | states |
|---|---|---|
| Friendship.Friendship.WhoDeniesFriendship | src/main/java/com/linguarium/friendship/model/Friendship.java:56-64 | the result is present exactly when the status is a blocked one; FST_BLOCKED_SND gives the requester, SND_BLOCKED_FST gives the requestee, and PENDING or FRIENDS give null; the denier is always one of the two parties |
| Friendship.HashCode | src/main/java/com/linguarium/friendship/model/Friendship.java:28 | the Lombok hash over (requesterId, requesteeId) is a Java int |
| Friendship.EqualityIsKeyEquality | src/main/java/com/linguarium/friendship/model/Friendship.java:28 | two rows are equal exactly when their keys are equal; equal rows hash alike; status and timestamps never affect equality |
| Friendship.ReversePairIsADifferentKey | src/main/java/com/linguarium/friendship/model/Friendship.java:22-37 | for distinct users, (A,B) and (B,A) are different keys, so neither the composite id nor the unique constraint rules out having both rows |
| FriendshipService.Lookup | src/main/java/com/linguatool/service/UserServiceImpl.java:272 | the pair lookup finds a row exactly when one is stored under either order; in a well-keyed store that row is stored under its own key and has both users as parties |
| FriendshipService.LookupIsSymmetric | src/main/java/com/linguatool/service/UserServiceImpl.java:303 | with at most one row per unordered pair, swapping the lookup's arguments gives the same answer |
| FriendshipService.DeletePair | src/main/java/com/linguatool/service/UserServiceImpl.java:258 | afterwards the pair has no row in either order; exactly the pair's two keys are removed and every other row is unchanged |
| FriendshipService.CreateFriendshipRequest | src/main/java/com/linguatool/service/UserServiceImpl.java:267-296 | an existing row always fails the request: NotAllowed("User limited…") when the acceptor is the row's denier, else AlreadyExists with the row's status; the existing-row check comes before the recipient's blocked flag, which gives NotAllowed("User doesn't accept…"); the request succeeds exactly when neither applies, and then adds one PENDING row (initiator→acceptor, created = updated = now) and leaves every other row unchanged |
| FriendshipService.ApproveFriendshipRequest | src/main/java/com/linguatool/service/UserServiceImpl.java:299-314 | fails with NotFound exactly when the pair has no row; otherwise that row becomes FRIENDS with updated = now, its parties and created are kept, and every other row is unchanged |
| FriendshipService.BlockUser | src/main/java/com/linguatool/service/UserServiceImpl.java:316-334 | fails with NotFound exactly when the pair has no row; otherwise the status becomes FST_BLOCKED_SND if the initiator is the stored requester, else SND_BLOCKED_FST; roles and created are kept, updated = now, other rows are unchanged, and the row's denier is then the initiator |
| FriendshipService.CancelFriendship | src/main/java/com/linguatool/service/UserServiceImpl.java:251-260 | fails with NotFound and changes nothing exactly when the pair has no row; otherwise the pair's row is gone and every other row is unchanged |
| FriendshipService.UnblockFriendship | src/main/java/com/linguatool/service/UserServiceImpl.java:262-265 | delegates to cancelFriendship: fails with NotFound exactly when the pair has no row; on success the pair has no row, exactly the pair's two keys are removed, and every other row is unchanged |
| FriendshipService.EditFriendshipAsWritten | src/main/java/com/linguatool/service/UserServiceImpl.java:336-355 | the dispatch as written: UNBLOCK always ends with NotFound thrown and the pair deleted; CANCEL, REJECT and UNFRIEND each behave as cancelFriendship; every other failing command leaves the store as it was; UNBLOCK leaves exactly the other rows, unchanged; every other command behaves as the corrected dispatch |
| FriendshipService.UnblockFallThroughReportsNotFound | src/main/java/com/linguatool/service/UserServiceImpl.java:347-352 | on a pair that has a row, UNBLOCK as written deletes the row and still reports NotFound; the corrected dispatch deletes the same row and throws nothing |
| FriendshipService.EditFriendship | src/main/java/com/linguatool/service/UserServiceImpl.java:336-355 | the dispatch with a `break` after UNBLOCK: a failure changes nothing; UNBLOCK, CANCEL, REJECT and UNFRIEND succeed exactly when the pair has a row and remove exactly its keys; REQUEST succeeds exactly when there is no row and requests are not blocked; ACCEPT and BLOCK succeed exactly when there is a row; removals keep every other row unchanged; a REQUEST adds exactly the new PENDING row stamped now; an ACCEPT turns exactly the pair's row FRIENDS stamped now; a BLOCK keeps the keys, makes the pair's row blocked by the initiator stamped now; every other row is unchanged |
| FriendshipService.CreatePreservesValid | src/main/java/com/linguatool/service/UserServiceImpl.java:272-294 | a successful request keeps "every row under its own key, at most one row per unordered pair": the symmetric lookup is what stops a reverse request from adding a second row |
| FriendshipService.ApprovePreservesValid | src/main/java/com/linguatool/service/UserServiceImpl.java:306-312 | approval keeps the store valid and its key set unchanged |
| FriendshipService.BlockPreservesValid | src/main/java/com/linguatool/service/UserServiceImpl.java:322-332 | blocking keeps the store valid and its key set unchanged |
| FriendshipService.CancelPreservesValid | src/main/java/com/linguatool/service/UserServiceImpl.java:253-258 | cancelling keeps the store valid |
| FriendshipService.EditFriendshipPreservesValid | src/main/java/com/linguatool/service/UserServiceImpl.java:336-355 | every command, whether it succeeds or throws, leaves a valid store, both as written and corrected |
| FriendshipService.ReverseRequestFails | src/main/java/com/linguatool/service/UserServiceImpl.java:272-281 | after A requests B, a request from B to A fails with AlreadyExists(PENDING) |
| FriendshipService.BlockedUserCannotRequest | src/main/java/com/linguatool/service/UserServiceImpl.java:276-278 | once X has blocked Y, whoever requested originally, a request from Y to X fails with NotAllowed("User limited…") |
| FriendshipService.RequestAfterCancelSucceeds | src/main/java/com/linguatool/service/UserServiceImpl.java:287-294 | after the pair's row is cancelled, a request in either direction (requests not blocked) succeeds and creates a fresh PENDING row |
| FriendshipService.UnblockLiftsBlock | src/main/java/com/linguatool/service/UserServiceImpl.java:262-296 | after X blocks Y, Y's request to X is refused; once X unblocks, the store is valid and Y's request succeeds |
| Tags.KeyHashCode | src/main/java/com/linguarium/card/model/CardTagPK.java:34-37 | `Objects.hash(cardId, tagId)` is a Java int |
| Tags.KeyEqualsContract | src/main/java/com/linguarium/card/model/CardTagPK.java:22-37 | equality is reflexive and symmetric; two keys are equal exactly when both ids are equal; null and other classes are unequal; equal keys hash alike |
| Tags.FindByText | src/main/java/com/linguarium/card/service/impl/CardServiceImpl.java:200 | a tag is found exactly when some row has this exact text; the row found has it, and in a table of distinct texts it is the only such row |
| Tags.FindByTextNormalized | src/main/java/com/linguarium/card/service/impl/CardServiceImpl.java:121 | a tag is found exactly when some row has the same normalised text, and the row found does; no later row matches; in a table of distinct normalised texts it is the only match |
| Tags.FindOrCreateTag | src/main/java/com/linguarium/card/service/impl/CardServiceImpl.java:199-206 | the id returned has exactly the text; the table only grows; it is unchanged when the text was known, and gains exactly one row for the text otherwise; distinct texts stay distinct |
| Tags.FindOrCreateTagNormalized | src/main/java/com/linguarium/card/service/impl/CardServiceImpl.java:120-127 | the id returned has the text's normalised form; the table is unchanged when a normalised match existed, and gains exactly one row for the raw text otherwise; distinct texts and distinct normalised texts stay distinct |
| CardService.DiffTags | src/main/java/com/linguarium/card/service/impl/CardServiceImpl.java:180-191 | added and deleted are disjoint; added lies in the desired texts and outside the current ones; deleted lies in the current texts and outside the desired ones; applying both to the current texts gives exactly the desired texts; both are empty exactly when desired equals current |
| CardService.DetachOne | src/main/java/com/linguarium/card/service/impl/CardServiceImpl.java:194-196 | one deletion step keeps the detach invariant, one more text detached |
| CardService.DetachTexts | src/main/java/com/linguarium/card/service/impl/CardServiceImpl.java:193-197 | the card's texts lose exactly the given texts; only rows of this card on those texts are deleted, and the Tag table is untouched |
| CardService.AttachText | src/main/java/com/linguarium/card/service/impl/CardServiceImpl.java:199-214 | one insertion step adds exactly this text to the card; the Tag table only grows, and only by this text when it was unknown; old rows are kept and the new row is the card's and the learner's |
| CardService.AttachOne | src/main/java/com/linguarium/card/service/impl/CardServiceImpl.java:199-214 | one insertion step keeps the attach invariant, one more text attached |
| CardService.AttachTexts | src/main/java/com/linguarium/card/service/impl/CardServiceImpl.java:199-215 | the card's texts gain exactly the given texts; new Tag rows hold only given texts the table lacked; old rows are kept; new rows belong to the card and the learner |
| CardService.UpdateTags | src/main/java/com/linguarium/card/service/impl/CardServiceImpl.java:179-216 | afterwards the card carries exactly the DTO's texts; Tag rows are never deleted and new ones hold only unknown DTO texts; other cards' rows and kept rows are untouched; only this card's rows on texts missing from the DTO are deleted; new rows belong to the learner; a DTO that matches the card changes nothing |
| CardService.UpdateTagsIsIdempotent | src/main/java/com/linguarium/card/service/impl/CardServiceImpl.java:190-191 | re-applying the same DTO finds empty added and deleted sets and leaves both tables exactly as the first application left them |
| CardService.CreateCardTags | src/main/java/com/linguarium/card/service/impl/CardServiceImpl.java:108-118 | one CardTag per DTO tag; the Tag table only grows |
| CardService.CreateCardTagsLinksEachText | src/main/java/com/linguarium/card/service/impl/CardServiceImpl.java:110-115 | the i-th CardTag belongs to the card and its owner and sits on an existing tag whose normalised text is that of the i-th DTO text |
| CardService.CreateCardTagsKeepsTextsDistinct | src/main/java/com/linguarium/card/service/impl/CardServiceImpl.java:120-127 | a table without duplicate texts, or without duplicate normalised texts, keeps none |
| CardService.CreateCardTagsCreatesOnlyUnknownTexts | src/main/java/com/linguarium/card/service/impl/CardServiceImpl.java:121-125 | every Tag created has a normalised text the original table lacked |
| CardService.CreateCardTagsCreatesOnlyDtoTexts | src/main/java/com/linguarium/card/service/impl/CardServiceImpl.java:123-124 | every Tag created holds one of the DTO's texts |
| CardService.CreateCardTagsKeepsTableWhenAllKnown | src/main/java/com/linguarium/card/service/impl/CardServiceImpl.java:120-127 | when every DTO text already has a normalised match, no Tag is created |
| CardService.DuplicateSpellingsShareOneTag | src/main/java/com/linguarium/card/service/impl/CardServiceImpl.java:108-127 | on an empty table, "Hello" and "hello " with one normalised form create one Tag, and both CardTags have the same key |
| CardService.UpdateCardDetails | src/main/java/com/linguarium/card/service/impl/CardServiceImpl.java:141-176 | every listed translation and example that existed is gone; the call succeeds whenever every item id names a row that survived the deletions; a failure names an item id with no surviving row; for ids the identity columns have handed out, it succeeds exactly when every item id names a surviving row; on success each table is reconciled with its items: old rows keep their card and take the last payload naming them, id-less items become new rows of this card in item order, and no other row appears; the result is valid |
| CardService.UpdatingADeletedTranslationFails | src/main/java/com/linguarium/card/service/impl/CardServiceImpl.java:141-152 | a translation item naming a row listed in `tr_del` fails the update |
| CardService.UpdateCard | src/main/java/com/linguarium/card/service/impl/CardServiceImpl.java:70-76 | a missing card fails with CardNotFound; a failing line update fails with its error; it succeeds exactly when the card exists and the line update succeeds, and then the lines are reconciled, the card carries exactly the DTO's tag texts, the Tag table only grows, other cards' tags are untouched, and the card's updated instant is now |
| CardService.SearchPattern | src/main/java/com/linguarium/card/service/impl/CardServiceImpl.java:81 | the pattern is '%', the trimmed entry character by character lowered, then '%'; it holds no upper-case ASCII letter |
| CardService.SearchPatternIgnoresCaseAndPadding | src/main/java/com/linguarium/card/service/impl/CardServiceImpl.java:81 | trimming or lowering the entry first gives the same pattern |
| LineItems.DeleteIds | src/main/java/com/linguarium/card/service/impl/CardServiceImpl.java:141 | exactly the listed ids are removed (a missing one is ignored); other rows and the identity column are unchanged |
| LineItems.ApplyItemsKeepsTableValid | src/main/java/com/linguarium/card/service/impl/CardServiceImpl.java:147-159 | on success the table stays valid, the identity column advances once per id-less item, and every row is an old one or a new one |
| LineItems.ApplyItemsSucceedsWhenIdsExist | src/main/java/com/linguarium/card/service/impl/CardServiceImpl.java:148-152 | if every item id names an existing row, the reconcile succeeds |
| LineItems.ApplyItemsFailsOnMissingOldId | src/main/java/com/linguarium/card/service/impl/CardServiceImpl.java:148-150 | an item naming an already handed-out id that has no row fails the reconcile |
| LineItems.ApplyItemsFailureNamesMissingId | src/main/java/com/linguarium/card/service/impl/CardServiceImpl.java:148-150 | a failure names the id of one of the items, and the table had no row with it |
| LineItems.ApplyItemsSucceedsIffIdsExist | src/main/java/com/linguarium/card/service/impl/CardServiceImpl.java:147-159 | for item ids the identity column has handed out, the reconcile succeeds exactly when they all name existing rows |
| LineItems.ApplyItemsReconciles | src/main/java/com/linguarium/card/service/impl/CardServiceImpl.java:147-157 | on success the old rows keep their card and take the last payload naming them, the id-less items become rows of this card holding their payloads in item order, and no other row appears |
| LineItems.ApplyItemsOutcome | src/main/java/com/linguarium/card/service/impl/CardServiceImpl.java:147-176 | the success, failure and validity facts of one reconcile together, with the reconciled contents on success and, for handed-out ids, success exactly when every id names a row |
| LineItems.ApplyItemsUpdatesExistingRows | src/main/java/com/linguarium/card/service/impl/CardServiceImpl.java:148-152 | every existing row is kept with its card and ends with the payload of the last item naming it, or its old payload |
| LineItems.ApplyItemsBindsNewRowsToCard | src/main/java/com/linguarium/card/service/impl/CardServiceImpl.java:153-157 | every id handed out during the reconcile is a row bound to this card |
| LineItems.ApplyItemsInsertsNewPayloadsInOrder | src/main/java/com/linguarium/card/service/impl/CardServiceImpl.java:153-157 | the new rows hold the id-less items' payloads in item order |
| LineItems.ApplyItemsIdempotentWithoutNewItems | src/main/java/com/linguarium/card/service/impl/CardServiceImpl.java:147-176 | when every item carries an existing id, a second application changes nothing |
| LineItems.ApplyItemsReinsertsNewItems | src/main/java/com/linguarium/card/service/impl/CardServiceImpl.java:153-157 | id-less items are inserted again on every application, so such a DTO never reaches a fixed point |
| TagRename.MovedRows | src/main/java/com/linguatool/service/UserServiceImpl.java:152-155 | after moving, every moved card is on the target for the user; the user has nothing left on the old tag; rows outside the move are unchanged; new keys are target keys of moved cards |
| TagRename.RenameTagForUser | src/main/java/com/linguatool/service/UserServiceImpl.java:133-156 | nothing changes when the tag's text already is the normalised proposal or the user has no CardTag on it; otherwise each of the user's cards on the tag moves to the tag with exactly the proposed text (reused, else created once), the user keeps nothing on the old tag, rows not on the old tag or the user's are unchanged except the target keys of the moved cards, new keys are only target keys of moved cards, and no Tag row is deleted |
| TagRename.RenameOntoItselfChangesNothing | src/main/java/com/linguatool/service/UserServiceImpl.java:144-155 | when the proposed text finds the tag itself, every row moves onto its own key and nothing changes |
| TagRename.RenameIsIdempotent | src/main/java/com/linguatool/service/UserServiceImpl.java:133-156 | renaming twice with the same arguments is renaming once |
| TagRename.RenameKeepsOtherUsersRows | src/main/java/com/linguatool/service/UserServiceImpl.java:152-155 | when every card's CardTags belong to one learner, another user's rows are kept exactly, no row of another user's is handed to the renaming user, and the table keeps one learner per card |
| Entities.AddExample | src/main/java/com/linguatool/model/entity/lang/Card.java:87-92 | null changes nothing; otherwise the example is appended at the end and its card is set to this card |
| Entities.RemoveExample | src/main/java/com/linguatool/model/entity/lang/Card.java:94-99 | null changes nothing; otherwise the first occurrence is removed and the example's card is cleared |
| Entities.RemoveFirstTakesOneOccurrence | src/main/java/com/linguatool/model/entity/lang/Card.java:96 | `List.remove` takes away exactly one occurrence when there is one, and nothing otherwise |
| Entities.AddThenRemoveExample | src/main/java/com/linguatool/model/entity/lang/Card.java:87-99 | removing an example just added restores the list and leaves the example detached |
| Entities.CardEquals | src/main/java/com/linguatool/model/entity/lang/Card.java:130-136 | the same object is equal; null and other classes are not; another card is equal exactly when it has the same id; a card whose own id is null throws |
| Entities.CardHashCode | src/main/java/com/linguatool/model/entity/lang/Card.java:138-141 | `Objects.hash(id)` is a Java int, and 31 for a null id |
| Entities.CardEqualityIsIdEquality | src/main/java/com/linguatool/model/entity/lang/Card.java:130-141 | for saved cards equality is id equality and symmetric, and equal cards hash alike |
| Entities.AddCard | src/main/java/com/linguatool/model/entity/user/User.java:126-131 | null changes nothing; otherwise the card joins the set and its owner is this user |
| Entities.RemoveCard | src/main/java/com/linguatool/model/entity/user/User.java:137-142 | null changes nothing; otherwise the card leaves the set and its owner is cleared |
| Entities.AddCardsAddsEachCard | src/main/java/com/linguatool/model/entity/user/User.java:133-135 | `addCard` on each element adds exactly the non-null cards and owns each of them; every other card keeps its owner |
| Entities.AddThenRemoveCard | src/main/java/com/linguatool/model/entity/user/User.java:126-142 | removing a card just added restores the user's set |
| Entities.UsernameGenerator | src/main/java/com/linguatool/model/entity/user/User.java:144-149 | a present username is kept and a missing one becomes the generated id |
| Entities.UsernameGeneratorIsIdempotent | src/main/java/com/linguatool/model/entity/user/User.java:144-149 | a second run keeps the first run's username |
| Suggestions.SuggestCard | src/test/java/com/linguarium/suggestion/service/impl/CardSuggestionServiceTest.java:165-214 | answers true and saves exactly the triple when it is new; answers false and saves nothing when it exists; no duplicates arise |
| Suggestions.SuggestTwiceSavesOnce | src/test/java/com/linguarium/suggestion/service/impl/CardSuggestionServiceTest.java:165-214 | suggesting twice answers true then false and leaves exactly one row |
| Suggestions.Without | src/test/java/com/linguarium/suggestion/service/impl/CardSuggestionServiceTest.java:76-91 | the table loses every row equal to the triple and keeps the others |
| Suggestions.DeclineSuggestion | src/test/java/com/linguarium/suggestion/service/impl/CardSuggestionServiceTest.java:76-91 | the triple (sender, the recipient's own id, card) is gone, every other row stays, nothing is added |
| Suggestions.DeclineUndoesSuggest | src/test/java/com/linguarium/suggestion/service/impl/CardSuggestionServiceTest.java:76-91 | declining what was just suggested restores the table |
| Suggestions.ForRecipient | src/test/java/com/linguarium/suggestion/service/impl/CardSuggestionServiceTest.java:55-74 | exactly the rows addressed to the user |
| Suggestions.GetSuggestedCards | src/test/java/com/linguarium/suggestion/service/impl/CardSuggestionServiceTest.java:55-74 | exactly the mapped cards of the user's suggestions, one per row, in order |
| Suggestions.SuggestedCardAppearsForRecipient | src/test/java/com/linguarium/suggestion/service/impl/CardSuggestionServiceTest.java:55-74 | a newly saved suggestion appears last in the recipient's list and in no one else's |
| Suggestions.CloneCard | src/test/java/com/linguarium/suggestion/service/impl/CardSuggestionServiceTest.java:121-163 | a copy with the same entry, examples and translations is saved under a fresh id, owned by and added to the recipient; nobody else's cards change |
| Suggestions.AcceptSuggestion | src/test/java/com/linguarium/suggestion/service/impl/CardSuggestionServiceTest.java:93-119 | a missing card or suggestion fails and changes nothing; otherwise the card is cloned for the recipient, existing cards are kept and the suggestion is deleted; the card keys are the old keys plus the clone's id; the recipient gains exactly the clone; every other user's cards are unchanged; the suggestions are exactly the old ones minus the accepted one |
| Suggestions.AcceptIsSingleUse | src/test/java/com/linguarium/suggestion/service/impl/CardSuggestionServiceTest.java:93-119 | a second acceptance of the same suggestion fails with SuggestionNotFound |
| LocalAuth.IssueToken | src/test/java/linguarium/auth/local/service/LocalAuthServiceImplTest.java:80-98 | the token is stored for the principal and mailed to it; nothing else changes |
| LocalAuth.Register | src/test/java/linguarium/auth/local/service/LocalAuthServiceImplTest.java:80-142 | an e-mail in use fails with UserAlreadyExists and saves nothing; otherwise the user, an unverified principal with the encoded password, and a mailed token are saved |
| LocalAuth.Login | src/test/java/linguarium/auth/local/service/LocalAuthServiceImplTest.java:100-163 | bad credentials fail; an unverified principal fails with EmailNotVerified and no streak update; login succeeds exactly for a verified principal, updating the streak and returning the provider's token |
| LocalAuth.VerifyEmail | src/test/java/linguarium/auth/local/service/LocalAuthServiceImplTest.java:165-215 | an unknown token fails and deletes nothing; an expired token is deleted, then the call fails, the principal unsaved; a valid token marks its principal verified and is deleted |
| LocalAuth.RequestPasswordReset | src/test/java/linguarium/auth/local/service/LocalAuthServiceImplTest.java:217-247 | an unknown e-mail fails with EmailNotFound("Invalid email") and sends nothing; a known one is sent a token |
| LocalAuth.ResetPassword | src/test/java/linguarium/auth/local/service/LocalAuthServiceImplTest.java:249-305 | an invalid token changes nothing; an expired token is deleted, then the call fails; a valid token sets the encoded new password and is deleted |
| LocalAuth.VerificationTokenIsSingleUse | src/test/java/linguarium/auth/local/service/LocalAuthServiceImplTest.java:199-215 | a token used once is then invalid, for verification and for reset alike |
| LocalAuth.RegisterVerifyLogin | src/test/java/linguarium/auth/local/service/LocalAuthServiceImplTest.java:80-215 | a new account cannot log in until its mailed token is used in time, and can afterwards |
| LocalAuth.ExpiredTokenLeavesAccountUnverified | src/test/java/linguarium/auth/local/service/LocalAuthServiceImplTest.java:180-197 | a token used after expiry fails and the account still cannot log in |
| LocalAuth.ResetRequestThenResetSetsPassword | src/test/java/linguarium/auth/local/service/LocalAuthServiceImplTest.java:217-268 | for a known e-mail, the reset token mailed by the request, used in time, sets the encoded new password, keeps the verification flag, and is then spent |
| Setup.FindRoleFrom | src/main/java/com/linguatool/configuration/SetupDataLoader.java:94-96 | the first role from the given position with that name, or one new row appended for it |
| Setup.CreateRoleIfNotFound | src/main/java/com/linguatool/configuration/SetupDataLoader.java:92-99 | the first role with the name is returned without saving; otherwise exactly one new role is saved |
| Setup.CreateRoleIsIdempotent | src/main/java/com/linguatool/configuration/SetupDataLoader.java:92-99 | a second lookup returns the same role and saves nothing |
| Setup.CreateUserIfNotFound | src/main/java/com/linguatool/configuration/SetupDataLoader.java:73-90 | an existing user is returned unchanged; otherwise a new enabled local user "Admin" is saved with the e-mail, the roles, the encoded default password, and created = modified = now; other users are kept |
| Setup.OnApplicationEvent | src/main/java/com/linguatool/configuration/SetupDataLoader.java:48-71 | nothing happens once the flag is set; afterwards the flag is set; a first run ensures both roles and the admin e-mail exist, appends exactly the missing role names, ROLE_USER before ROLE_ADMIN; leaves an existing admin account as it is; a newly created admin is the enabled LOCAL user "Admin" with the encoded default password, created and modified now, holding exactly the first ROLE_USER row and the first ROLE_ADMIN row; every existing user is kept |
| Setup.SeededAdminHasBothRoles | src/main/java/com/linguatool/configuration/SetupDataLoader.java:54-57 | on an empty database the seeded admin holds exactly the two new roles, ROLE_USER and ROLE_ADMIN |
| Setup.SeedingTwiceChangesNothing | src/main/java/com/linguatool/configuration/SetupDataLoader.java:48-99 | seeding an already seeded database again, with the flag cleared, changes nothing but the flag |
| OAuthUserInfo.GetStringAttribute | src/main/java/com/linguarium/config/security/oauth2/userinfo/OAuth2UserInfo.java:25-28 | the value is returned exactly when the key is present and holds a String; a missing key or another type gives null |
| OAuthUserInfo.Walk | src/main/java/com/linguarium/config/security/oauth2/userinfo/OAuth2UserInfo.java:32-39 | a segment met while the current value is not a map gives null; no segments left gives the current value |
| OAuthUserInfo.GetNestedStringAttribute | src/main/java/com/linguarium/config/security/oauth2/userinfo/OAuth2UserInfo.java:30-41 | the result is present exactly when the walk of the '.'-split segments ends on a String, and it is that String |
| OAuthUserInfo.WalkConcat | src/main/java/com/linguarium/config/security/oauth2/userinfo/OAuth2UserInfo.java:33-39 | segments are followed left to right: walking p then q is walking p + q |
| OAuthUserInfo.NestedWithoutDotIsPlain | src/main/java/com/linguarium/config/security/oauth2/userinfo/OAuth2UserInfo.java:30-41 | for a name without '.', the nested lookup equals getStringAttribute |
| OAuthUserInfo.NonMapIntermediateGivesNull | src/main/java/com/linguarium/config/security/oauth2/userinfo/OAuth2UserInfo.java:34-38 | reaching a non-map before the last segment gives null whatever follows |
| OAuthUserInfo.FacebookProfile | src/main/java/com/linguarium/config/security/oauth2/userinfo/FacebookOAuth2UserInfo.java:11-38 | each getter reads its own key ("id", "name", "first_name", "last_name", "email") as a String attribute; the image URL is the nested lookup of "picture.data.url" |
| OAuthUserInfo.FacebookImagePathPieces | src/main/java/com/linguarium/config/security/oauth2/userinfo/FacebookOAuth2UserInfo.java:37 | "picture.data.url" splits at '.' into the pieces picture, data, url |
| OAuthUserInfo.FacebookImagePathSegments | src/main/java/com/linguarium/config/security/oauth2/userinfo/OAuth2UserInfo.java:31 | `split("\\.")` of "picture.data.url" gives exactly picture, data, url |
| OAuthUserInfo.FacebookImageUrlIsNested | src/main/java/com/linguarium/config/security/oauth2/userinfo/FacebookOAuth2UserInfo.java:36-38 | the image URL is present exactly when picture and picture.data are maps and picture.data.url is a String, and it is that String |
| OAuthUserInfo.GetOAuth2UserInfo | src/main/java/linguarium/auth/oauth2/model/userinfo/OAuth2UserInfoFactory.java:11-21 | GOOGLE gives the Google reader and FACEBOOK the Facebook reader, each on the unchanged attribute map; any other provider fails with "Sorry! Login with <provider> is not supported yet."; the copy at src/main/java/com/almonium/auth/oauth2/model/userinfo/OAuth2UserInfoFactory.java:11-20 has the same table and message |
| OAuthUserInfo.FactoryFacebookReadsGivenAttributes | src/main/java/linguarium/auth/oauth2/model/userinfo/OAuth2UserInfoFactory.java:21 | the Facebook reader the factory builds reads exactly the attributes it was handed |
| Redirect.IsAuthorizedRedirectUri | src/main/java/com/almonium/auth/oauth2/handler/OAuth2AuthenticationSuccessHandler.java:79-87 | with hosts on all entries, the URI is authorized exactly when some entry has an equal host ignoring case and an equal port; a host-less entry reached before any accepting entry throws NullHost naming that entry |
| Redirect.OnlyHostAndPortMatter | src/main/java/com/almonium/auth/oauth2/handler/OAuth2AuthenticationSuccessHandler.java:84-85 | URIs that agree on host (up to case) and port get the same answer whatever their scheme, path or query |
| Redirect.DetermineTargetUrl | src/main/java/com/almonium/auth/oauth2/handler/OAuth2AuthenticationSuccessHandler.java:53-72 | an unauthorized cookie URI is a BAD_REQUEST with the handler's message; no cookie gives the default target; an authorized one is used as given; a throwing allow-list check propagates its NullHost error unchanged; the token always rides along |
| Redirect.OnAuthenticationSuccess | src/main/java/com/almonium/auth/oauth2/handler/OAuth2AuthenticationSuccessHandler.java:38-51 | fails exactly when the target cannot be determined; a committed response is not redirected; otherwise the browser goes to the target |
| Redirect.HostCaseIsIgnored | src/main/java/com/almonium/auth/oauth2/handler/OAuth2AuthenticationSuccessHandler.java:84 | an allow-listed LocalHost:4200 accepts http://localhost:4200/oauth2/redirect |
| Redirect.PortMustMatch | src/main/java/com/almonium/auth/oauth2/handler/OAuth2AuthenticationSuccessHandler.java:85 | a different port is refused, and the target URL is then a BAD_REQUEST |
| GeneralUtils.ToSocialProvider | src/main/java/com/linguatool/util/GeneralUtils.java:36-43 | a matching provider type gives the first match in declaration order; none gives LOCAL |
| GeneralUtils.BuildSimpleGrantedAuthorities | src/main/java/com/linguatool/util/GeneralUtils.java:28-34 | one authority per role, in an order visiting each role once, each named after its role; every role's authority is present |
| Otp.DigitChar | src/main/java/linguarium/auth/local/service/impl/SecureRandomTokenGeneratorImpl.java:15 | appending a value in [0, 10) appends its one decimal digit |
| Otp.GenerateOtp | src/main/java/linguarium/auth/local/service/impl/SecureRandomTokenGeneratorImpl.java:12-17 | the code has `length` characters (none for length ≤ 0), all decimal digits, the i-th being the i-th draw |
| Otp.GenerateOtpIsInjective | src/main/java/linguarium/auth/local/service/impl/SecureRandomTokenGeneratorImpl.java:12-17 | two runs give the same code exactly when their first `length` draws agree |
| JavaLang.Trim | src/main/java/com/linguarium/card/service/impl/CardServiceImpl.java:81 | `trim` keeps the longest middle part that neither starts nor ends with a character up to U+0020, and cuts only such characters |
| JavaLang.ToLowerCase | src/main/java/com/linguarium/card/service/impl/CardServiceImpl.java:81 | each character lowered, ASCII letters only, length kept |
| JavaLang.TrimCommutesWithLower | src/main/java/com/linguarium/card/service/impl/CardServiceImpl.java:81 | trimming and lowering can be done in either order |
| JavaLang.EqualsIgnoreCaseIsLowerEquality | src/main/java/com/almonium/auth/oauth2/handler/OAuth2AuthenticationSuccessHandler.java:84 | `equalsIgnoreCase` holds exactly when both strings lower to the same string |
| JavaLang.Split | src/main/java/com/linguarium/config/security/oauth2/userinfo/OAuth2UserInfo.java:31 | a string without the separator is one piece, even when empty; otherwise the pieces with trailing empty pieces dropped; no piece contains the separator |
| JavaLang.RawSplit | src/main/java/com/linguarium/config/security/oauth2/userinfo/OAuth2UserInfo.java:31 | the separator-free pieces joined back with the separator give the string |

## Left out

- Controllers, Spring Security wiring, MapStruct mappers, external dictionary clients and the frontend are not part of this model.
- Spring Data repositories become maps or sequences, and their queries become lookups. The JPQL of `getFriendshipByUsersIds`, `deleteFriendshipByIds`, `getByCardAndText`, `getByUserAndTag`, `findByTextWithNormalization` and `findByName` is not part of this model. The decisions above say what each is taken to do.
- Transactions, concurrency and the persistence context are not modelled: each service call is one atomic step.
  - `editFriendship` opens no transaction of its own, so a write made before a later exception stays. This is what `Effect` records.
  - `updateCard` is transactional, so a failure leaves the database as it was.
- Exception messages that carry ids are not modelled. FriendshipNotFound, the generic "already exists" exception and EntityNotFound carry only their kind, or the status or id the model needs. The message at UserServiceImpl.java:256 names the initiator twice.
- `userRepository.getById` of a missing user in `createFriendshipRequest` is not modelled. The recipient's `friendshipRequestsBlocked` flag is a parameter.
- `cardMapper.update` copies the DTO's scalar fields (UserServiceImpl and CardServiceImpl mappers are generated code). `entity.removeCardTag` only mirrors the database delete in memory. Neither is modelled.
- `UserServiceImpl.createCard` (177-216) is an older copy of card creation. Its tag step is the same find-or-create by normalised text that `CardService.CreateCardTags` models.
- `JavaLang.ToLowerCase`: only ASCII letters are lowered. Java's full Unicode case mapping is not modelled.
- `JavaLang.EqualsIgnoreCaseIsLowerEquality`: `equalsIgnoreCase` is modelled on ASCII letters only.
- `JavaLang.Split`: only a regular expression matching exactly one literal character is modelled. That is the only form the source uses.
- `Tags.KeyHashCode`: the contract states only the int range. That equal keys hash alike is in `Tags.KeyEqualsContract`.
- `Friendship.HashCode`: the contract states only the int range. That equal rows hash alike is in `Friendship.EqualityIsKeyEquality`.
- `Entities.CardHashCode`: the contract states the int range and the null-id value. That equal cards hash alike is in `Entities.CardEqualityIsIdEquality`.
- `CardService.CreateCardTags`: its own contract states only the count and that the table only grows. The per-item facts are the `CreateCardTags…` lemmas.
- `Entities.User`: `HashSet` membership is by `Card.equals`, that is by id. The model uses object identity, which agrees with it for saved cards with distinct ids.
- `Entities.RemoveExample`: `List.remove` compares with `Example.equals`. `com.linguarium.card.model.Example` (Example.java:8-15) declares no `equals`, and the model takes the same of the `Example` that Card.java uses, so identity is used.
- `Entities.AddExample`: a Card's `examples` list (Card.java:81) has no initialiser, so on a Card made by the no-args constructor whose list was never set, the call throws NullPointerException. The model's Card always holds a list.
- `Entities.RemoveExample`: on a Card whose `examples` list was never set, the call throws NullPointerException. The model does not cover that case.
- `Entities.AddCard`: a User's `cards` set (User.java:97) has no initialiser, so on a User whose set was never set, the call throws NullPointerException. The model's User always holds a set.
- `Entities.RemoveCard`: on a User whose `cards` set was never set, the call throws NullPointerException. The model does not cover that case.
- `Entities.AddCardsAddsEachCard`: inherits the `Entities.AddCard` gap for a User whose set was never set.
- `Redirect.DetermineTargetUrl`: the URL's rendering by `UriComponentsBuilder` (query-string encoding) is not modelled. The target is a base and the `token` parameter. `URI.create` parsing is not modelled: URIs arrive parsed, with a missing host absent and a missing port -1.
- `Redirect.IsAuthorizedRedirectUri`: a cookie URI without a host compares as `equalsIgnoreCase(null)`, which is false. An allow-listed URI without a host throws, modelled as `NullHost`.
- `OAuthUserInfo.GetOAuth2UserInfo`: the Google reader (`GoogleOAuth2UserInfo`) is not part of this model; only its selection is. The `AuthProviderType` enum is not part of this model either. It is modelled as GOOGLE, FACEBOOK and any other constant by name.
- `GeneralUtils.ToSocialProvider`: the `SocialProvider` enum is not part of this model. Its constants are given as their provider-type strings in declaration order, with the position of LOCAL.
- `GeneralUtils.BuildSimpleGrantedAuthorities`: the `HashSet` iteration order is left open.
- `GeneralUtils.BuildSimpleGrantedAuthorities`: `new SimpleGrantedAuthority(name)` rejects an empty or blank role name with IllegalArgumentException. The model builds an authority for any name.
- `Tags.KeyEqualsContract`: `cardId.equals(that.cardId)` (CardTagPK.java:31) throws NullPointerException on a key whose ids are not yet set. The model's ids are always present.
- `Tags.FindByTextNormalized`: when several rows share a normalised text (possible because `updateTags` and the rename create tags by raw text), the model returns the most recently created one. The query text is not part of this model. If it is an unrestricted Optional-returning query, Spring Data throws IncorrectResultSizeDataAccessException instead. With distinct normalised texts the match is unique and both readings agree.
- `Setup.OnApplicationEvent`: the `Role` entity is not part of this model. `Role.ROLE_USER` and `Role.ROLE_ADMIN` are taken to be spelled "ROLE_USER" and "ROLE_ADMIN". Users are keyed by e-mail, as `findByEmail` looks them up.
- `LocalAuth`: the service implementation is not part of this model. Its operations do what `LocalAuthServiceImplTest` asserts, and these choices are the model's own:
  - login checks the credentials before the verification flag;
  - the streak update is recorded as a log entry;
  - the mail outbox is a log.
- `LocalAuth.VerifyEmail` and `LocalAuth.ResetPassword`: the expired-token delete is kept even though the call throws, as the tests expect. A transactional rollback of that delete is not modelled.
- `Suggestions`: the service implementation is not part of this model. Its operations do what `CardSuggestionServiceTest` asserts.
  - `declineSuggestion` of a missing triple is not an error.
  - `acceptSuggestion` checks the card before the suggestion.
  - `getByRecipient` returns rows in insertion order.
  - The cloned card's tags and the `Card` fields other than entry, examples, translations and owner are not modelled.
- `LineItems.DeleteIds`: `deleteById` of an id with no row is ignored, as in current Spring Data. Older Spring Data versions throw there.
- `LineItems`: the identity column is modelled as a counter. `getById` of a missing id fails with `EntityNotFound` when the row is written.

### Behaviour of the code that is easy to misread

The model follows the code in each case.

- **Block encoding.** Blocking by the requester stores FST_BLOCKED_SND, and `whoDeniesFriendship` then returns the requester, the user who blocked (UserServiceImpl.java:328-331, Friendship.java:57-59). It does not return the blocked user.
- **Unique pair.** Uniqueness is declared on the ordered (requester_id, requestee_id) pair, not on the unordered pair (Friendship.java:22). It is the symmetric lookup in `createFriendshipRequest` that keeps one row per unordered pair.
- **Illegal states.** Accepting a non-PENDING row, or blocking a row that is neither FRIENDS nor PENDING, is an `assert` in the code, not an InvalidState error. These are preconditions here.
- **Tag matching.** `updateTags` compares raw texts and reuses a tag only on an exact text match. `renameTagForUser` does the same. Only `createCardTags` matches normalised texts.
- **Duplicate spellings.** For "Hello" and "hello ", `createCardTags` creates one Tag holding the first raw text, "Hello", and two CardTags with one key.
- **Line-item deletes.** `updateCardDetails` deletes only the ids listed in `tr_del`/`ex_del`, not every row missing from the DTO.
- **Re-inserted items.** Items without an id are inserted again on every application, so reapplying a DTO that has new items is not idempotent (`LineItems.ApplyItemsReinsertsNewItems`).
- **Declining a missing suggestion.** `declineSuggestion` deletes by (sender, recipient, card) and does not report a missing suggestion.
- **UNBLOCK.** UNBLOCK does not reduce to a plain delete: it falls through (see Findings).

## Findings

| source | as written | input that shows it | evidently intended | confidence | as-written member | corrected member |
|---|---|---|---|---|---|---|
| src/main/java/com/linguatool/service/UserServiceImpl.java:347-352 | the UNBLOCK case has no `break`, so after `unblockFriendship` deletes the pair's row, control falls into the CANCEL case and `cancelFriendship` runs on the deleted row and throws FriendshipNotFoundException | an UNBLOCK command from either party on a pair that has a row (typically a blocked one) | UNBLOCK deletes the row and returns normally, as CANCEL does | not executed | FriendshipService.EditFriendshipAsWritten, with FriendshipService.UnblockFallThroughReportsNotFound | FriendshipService.EditFriendship |

=== FILE: card_service.dfy ===
/** The card service's reconciliation logic: creating a card's tags,
    reconciling a card's tags with an update DTO, reconciling its
    translations and examples, and the search pattern for entry lookups. */
module CardService {
  import opened Wrappers
  import JavaLang
  import opened Tags
  import LineItems

  // ---------------------------------------------------------------- tag diff

  /** The texts to attach and the texts to detach. */
  datatype TagDiff = TagDiff(added: set<string>, deleted: set<string>)

  /** `Sets.difference` both ways on raw, un-normalised texts. Applying the
      diff to the current texts yields exactly the desired texts, and the diff
      is empty exactly when there is nothing to reconcile. */
  function DiffTags(desired: set<string>, current: set<string>): (d: TagDiff)
    ensures d.added !! d.deleted
    ensures d.added <= desired && d.added !! current
    ensures d.deleted <= current && d.deleted !! desired
    ensures (current - d.deleted) + d.added == desired
    ensures d.added == {} && d.deleted == {} <==> desired == current
  {
    TagDiff(desired - current, current - desired)
  }

  function TextSet(texts: seq<string>): set<string> {
    set t | t in texts
  }

  // -------------------------------------------------------------- updateTags

  /** What holds after the texts `done` have been detached from `card`,
      starting from `ct`. */
  predicate Detached(tags: TagTable, ct: CardTagTable, card: CardId, done: set<string>, ctOut: CardTagTable)
    requires RefsValid(tags, ct)
  {
    && RefsValid(tags, ctOut)
    && TextsOf(tags, ctOut, card) == TextsOf(tags, ct, card) - done
    && (forall k :: k in ctOut ==> k in ct && ctOut[k] == ct[k])
    && (forall k :: k in ct && (k.cardId != card || tags[k.tagId] !in done) ==> k in ctOut)
    && (forall k :: k in ct && k !in ctOut ==> k.cardId == card && tags[k.tagId] in done)
  }

  /** One iteration of the first loop of `updateTags`: delete the one CardTag
      row of `card` on the tag with this text. */
  method DetachOne(tags: TagTable, ghost ct: CardTagTable, card: CardId, ghost done: set<string>,
                   ctOut: CardTagTable, text: string)
    returns (ctNext: CardTagTable)
    requires Valid(tags, ct) && Detached(tags, ct, card, done, ctOut)
    requires text in TextsOf(tags, ct, card) && text !in done
    ensures Detached(tags, ct, card, done + {text}, ctNext)
  {
    TextOfCardHasRow(tags, ctOut, card, text);
    var id := FindByText(tags, text).value;
    TextsOfRemove(tags, ctOut, card, id);
    ctNext := ctOut - {CardTagPK(card, id)};
  }

  /** The first loop of `updateTags`: for each text, delete the one CardTag
      row of `card` on the tag with that text. */
  method DetachTexts(tags: TagTable, ct: CardTagTable, card: CardId, texts: set<string>)
    returns (ctOut: CardTagTable)
    requires Valid(tags, ct)
    requires texts <= TextsOf(tags, ct, card)
    ensures RefsValid(tags, ctOut)
    ensures TextsOf(tags, ctOut, card) == TextsOf(tags, ct, card) - texts
    ensures forall k :: k in ctOut ==> k in ct && ctOut[k] == ct[k]
    ensures forall k :: k in ct && (k.cardId != card || tags[k.tagId] !in texts) ==> k in ctOut
    ensures forall k :: k in ct && k !in ctOut ==> k.cardId == card && tags[k.tagId] in texts
    ensures texts == {} ==> ctOut == ct
  {
    ctOut := ct;
    if texts == {} {
      return;
    }
    var todo := texts;
    ghost var done: set<string> := {};
    while todo != {}
      invariant todo + done == texts && todo !! done
      invariant Detached(tags, ct, card, done, ctOut)
      decreases todo
    {
      var text :| text in todo;
      ctOut := DetachOne(tags, ct, card, done, ctOut, text);
      todo := todo - {text};
      done := done + {text};
    }
    assert done == texts;
  }

  /** One iteration of the second loop of `updateTags`: find the tag with
      exactly this text or save a new one, and save a CardTag of `card` on it
      for `learner`. */
  function AttachText(tags: TagTable, ct: CardTagTable, card: CardId, text: string, learner: UserId): (r: TagState)
    requires Valid(tags, ct)
    requires text !in TextsOf(tags, ct, card)
    ensures Valid(r.tags, r.cardTags)
    ensures TextsOf(r.tags, r.cardTags, card) == TextsOf(tags, ct, card) + {text}
    ensures |tags| <= |r.tags| && r.tags[..|tags|] == tags
    ensures forall i :: |tags| <= i < |r.tags| ==> r.tags[i] == text && text !in tags
    ensures forall k :: k in ct ==> k in r.cardTags && r.cardTags[k] == ct[k]
    ensures forall k :: k in r.cardTags && k !in ct ==> k.cardId == card && r.cardTags[k] == learner
  {
    var found := FindOrCreateTag(tags, text);
    assert CardTagPK(card, found.id) !in ct by {
      forall k | k in ct && k.cardId == card
        ensures found.tags[k.tagId] != text
      {
        assert tags[k.tagId] in TextsOf(tags, ct, card);
      }
    }
    TextsOfGrowTable(tags, found.tags, ct, card);
    TextsOfInsert(found.tags, ct, card, found.id, learner);
    TagState(found.tags, ct[CardTagPK(card, found.id) := learner])
  }

  /** `more` keeps every row of `ct` unchanged; its other rows belong to
      `card` and `learner`. */
  predicate AddsRowsOf(ct: CardTagTable, more: CardTagTable, card: CardId, learner: UserId) {
    && (forall k :: k in ct ==> k in more && more[k] == ct[k])
    && (forall k :: k in more && k !in ct ==> k.cardId == card && more[k] == learner)
  }

  lemma ExtendsIsTransitive(a: TagTable, b: TagTable, c: TagTable)
    requires Extends(a, b) && Extends(b, c)
    ensures Extends(a, c)
  {
    assert c[..|b|][..|a|] == c[..|a|];
  }

  /** What holds after the texts `done` have been attached to `card`, starting
      from `tags` and `ct`. */
  predicate Attached(tags: TagTable, ct: CardTagTable, card: CardId, learner: UserId,
                     done: set<string>, tagsOut: TagTable, ctOut: CardTagTable)
  {
    && Extends(tags, tagsOut)
    && Valid(tagsOut, ctOut)
    && TextsOf(tagsOut, ctOut, card) == TextsOf(tags, ct, card) + done
    && (forall i :: |tags| <= i < |tagsOut| ==> tagsOut[i] in done && tagsOut[i] !in tags)
    && AddsRowsOf(ct, ctOut, card, learner)
  }

  lemma AttachStep(tags: TagTable, ct: CardTagTable, card: CardId, learner: UserId,
                   done: set<string>, tagsOut: TagTable, ctOut: CardTagTable, text: string)
    requires Attached(tags, ct, card, learner, done, tagsOut, ctOut)
    requires text !in TextsOf(tags, ct, card) && text !in done
    ensures text !in TextsOf(tagsOut, ctOut, card)
    ensures Attached(tags, ct, card, learner, done + {text},
                     AttachText(tagsOut, ctOut, card, text, learner).tags,
                     AttachText(tagsOut, ctOut, card, text, learner).cardTags)
  {
    var next := AttachText(tagsOut, ctOut, card, text, learner);
    ExtendsIsTransitive(tags, tagsOut, next.tags);
  }

  /** One iteration of the second loop, as a step from one `Attached` state
      to the next. */
  method AttachOne(ghost tags: TagTable, ghost ct: CardTagTable, card: CardId, learner: UserId,
                   ghost done: set<string>, tagsOut: TagTable, ctOut: CardTagTable, text: string)
    returns (tagsNext: TagTable, ctNext: CardTagTable)
    requires Attached(tags, ct, card, learner, done, tagsOut, ctOut)
    requires text !in TextsOf(tags, ct, card) && text !in done
    ensures Attached(tags, ct, card, learner, done + {text}, tagsNext, ctNext)
  {
    AttachStep(tags, ct, card, learner, done, tagsOut, ctOut, text);
    var next := AttachText(tagsOut, ctOut, card, text, learner);
    tagsNext, ctNext := next.tags, next.cardTags;
  }

  lemma AttachedAtStart(tags: TagTable, ct: CardTagTable, card: CardId, learner: UserId)
    requires Valid(tags, ct)
    ensures Attached(tags, ct, card, learner, {}, tags, ct)
  {
    assert tags[..|tags|] == tags;
  }

  /** The second loop of `updateTags`: `AttachText` for each text. */
  method AttachTexts(tags: TagTable, ct: CardTagTable, card: CardId, texts: set<string>, learner: UserId)
    returns (tagsOut: TagTable, ctOut: CardTagTable)
    requires Valid(tags, ct)
    requires texts !! TextsOf(tags, ct, card)
    ensures Valid(tagsOut, ctOut)
    ensures TextsOf(tagsOut, ctOut, card) == TextsOf(tags, ct, card) + texts
    ensures |tags| <= |tagsOut| && tagsOut[..|tags|] == tags
    ensures forall i :: |tags| <= i < |tagsOut| ==> tagsOut[i] in texts && tagsOut[i] !in tags
    ensures forall k :: k in ct ==> k in ctOut && ctOut[k] == ct[k]
    ensures forall k :: k in ctOut && k !in ct ==> k.cardId == card && ctOut[k] == learner
    ensures texts == {} ==> tagsOut == tags && ctOut == ct
  {
    tagsOut := tags;
    ctOut := ct;
    if texts == {} {
      return;
    }
    var todo := texts;
    ghost var done: set<string> := {};
    AttachedAtStart(tags, ct, card, learner);
    while todo != {}
      invariant todo + done == texts && todo !! done
      invariant Attached(tags, ct, card, learner, done, tagsOut, ctOut)
      decreases todo
    {
      var text :| text in todo;
      tagsOut, ctOut := AttachOne(tags, ct, card, learner, done, tagsOut, ctOut, text);
      todo := todo - {text};
      done := done + {text};
    }
    assert done == texts;
    AttachedUnfolds(tags, ct, card, learner, texts, tagsOut, ctOut);
  }

  /** The facts `Attached` bundles, one by one. */
  lemma AttachedUnfolds(tags: TagTable, ct: CardTagTable, card: CardId, learner: UserId,
                        done: set<string>, tagsOut: TagTable, ctOut: CardTagTable)
    requires Attached(tags, ct, card, learner, done, tagsOut, ctOut)
    ensures Valid(tagsOut, ctOut)
    ensures TextsOf(tagsOut, ctOut, card) == TextsOf(tags, ct, card) + done
    ensures |tags| <= |tagsOut| && tagsOut[..|tags|] == tags
    ensures forall i :: |tags| <= i < |tagsOut| ==> tagsOut[i] in done && tagsOut[i] !in tags
    ensures forall k :: k in ct ==> k in ctOut && ctOut[k] == ct[k]
    ensures forall k :: k in ctOut && k !in ct ==> k.cardId == card && ctOut[k] == learner
  {
  }

  /** `updateTags`: detach every current text missing from the DTO, then
      attach every DTO text the card lacks. The HashSet iteration order is
      left open.

      Afterwards the card carries exactly the DTO's texts; the Tag table only
      grows, and only by DTO texts it lacked; other cards' rows and every kept
      row are untouched; new rows belong to `learner`; and a DTO that already
      matches the card changes nothing. */
  method UpdateTags(tags: TagTable, ct: CardTagTable, card: CardId, dtoTexts: seq<string>, learner: UserId)
    returns (tagsOut: TagTable, ctOut: CardTagTable)
    requires Valid(tags, ct)
    ensures Valid(tagsOut, ctOut)
    ensures TextsOf(tagsOut, ctOut, card) == TextSet(dtoTexts)
    ensures |tags| <= |tagsOut| && tagsOut[..|tags|] == tags
    ensures forall i :: |tags| <= i < |tagsOut| ==> tagsOut[i] in dtoTexts && tagsOut[i] !in tags
    ensures forall k :: k in ct && (k.cardId != card || tags[k.tagId] in dtoTexts) ==> k in ctOut
    ensures forall k :: k in ct && k !in ctOut ==> k.cardId == card && tags[k.tagId] !in dtoTexts
    ensures forall k :: k in ctOut && k in ct ==> ctOut[k] == ct[k]
    ensures forall k :: k in ctOut && k !in ct ==> k.cardId == card && ctOut[k] == learner
    ensures TextSet(dtoTexts) == TextsOf(tags, ct, card) ==> tagsOut == tags && ctOut == ct
  {
    var diff := DiffTags(TextSet(dtoTexts), TextsOf(tags, ct, card));
    var ctKept := DetachTexts(tags, ct, card, diff.deleted);
    tagsOut, ctOut := AttachTexts(tags, ctKept, card, diff.added, learner);
  }

  /** Re-applying the same DTO: the second `updateTags` finds nothing to
      attach or detach and leaves both tables as the first one left them. */
  method UpdateTagsIsIdempotent(tags: TagTable, ct: CardTagTable, card: CardId, dtoTexts: seq<string>, learner: UserId)
    returns (once: TagState, twice: TagState)
    requires Valid(tags, ct)
    ensures Valid(once.tags, once.cardTags)
    ensures DiffTags(TextSet(dtoTexts), TextsOf(once.tags, once.cardTags, card)) == TagDiff({}, {})
    ensures twice == once
  {
    var tags1, ct1 := UpdateTags(tags, ct, card, dtoTexts, learner);
    var tags2, ct2 := UpdateTags(tags1, ct1, card, dtoTexts, learner);
    once, twice := TagState(tags1, ct1), TagState(tags2, ct2);
  }

  // ---------------------------------------------------------- createCardTags

  /** The tag table after `createCardTags` and the CardTag rows it built. */
  datatype CreatedTags = CreatedTags(tags: TagTable, cardTags: seq<CardTag>)

  /** `createCardTags`: one CardTag per DTO tag, in order, owned by the card's
      owner, each on the tag found by normalised text or newly created. A new
      tag is created only for a text whose normalised form the table lacked,
      so a table without normalised duplicates keeps none. */
  function CreateCardTags(tags: TagTable, normalize: string -> string, card: CardId, owner: UserId, texts: seq<string>): (r: CreatedTags)
    ensures |r.cardTags| == |texts|
    ensures |tags| <= |r.tags| && r.tags[..|tags|] == tags
    decreases |texts|
  {
    if |texts| == 0 then CreatedTags(tags, [])
    else
      var first := FindOrCreateTagNormalized(tags, normalize, texts[0]);
      var rest := CreateCardTags(first.tags, normalize, card, owner, texts[1..]);
      assert rest.tags[..|tags|] == rest.tags[..|first.tags|][..|tags|];
      CreatedTags(rest.tags, [CardTag(CardTagPK(card, first.id), owner)] + rest.cardTags)
  }

  /** The `i`-th CardTag belongs to the card and its owner and sits on a tag
      whose normalised text is that of the `i`-th DTO text. */
  lemma {:induction false} CreateCardTagsLinksEachText(tags: TagTable, normalize: string -> string, card: CardId, owner: UserId, texts: seq<string>)
    ensures forall i :: 0 <= i < |texts| ==>
              && CreateCardTags(tags, normalize, card, owner, texts).cardTags[i].id.cardId == card
              && CreateCardTags(tags, normalize, card, owner, texts).cardTags[i].learner == owner
              && CreateCardTags(tags, normalize, card, owner, texts).cardTags[i].id.tagId
                 < |CreateCardTags(tags, normalize, card, owner, texts).tags|
              && normalize(CreateCardTags(tags, normalize, card, owner, texts).tags[
                   CreateCardTags(tags, normalize, card, owner, texts).cardTags[i].id.tagId]) == normalize(texts[i])
    decreases |texts|
  {
    if |texts| > 0 {
      var first := FindOrCreateTagNormalized(tags, normalize, texts[0]);
      var rest := CreateCardTags(first.tags, normalize, card, owner, texts[1..]);
      var r := CreateCardTags(tags, normalize, card, owner, texts);
      assert r.tags == rest.tags;
      assert r.cardTags == [CardTag(CardTagPK(card, first.id), owner)] + rest.cardTags;
      CreateCardTagsLinksEachText(first.tags, normalize, card, owner, texts[1..]);
      forall i | 0 <= i < |texts|
        ensures && r.cardTags[i].id.cardId == card && r.cardTags[i].learner == owner
                && r.cardTags[i].id.tagId < |r.tags|
                && normalize(r.tags[r.cardTags[i].id.tagId]) == normalize(texts[i])
      {
        if i == 0 {
          assert rest.tags[..|first.tags|][first.id] == rest.tags[first.id];
        } else {
          assert r.cardTags[i] == rest.cardTags[i - 1];
          assert texts[i] == texts[1..][i - 1];
        }
      }
    }
  }

  /** A table without duplicate texts, or without duplicate normalised texts,
      keeps none. */
  lemma {:induction false} CreateCardTagsKeepsTextsDistinct(tags: TagTable, normalize: string -> string, card: CardId, owner: UserId, texts: seq<string>)
    ensures DistinctTexts(tags) ==> DistinctTexts(CreateCardTags(tags, normalize, card, owner, texts).tags)
    ensures DistinctNormalized(tags, normalize) ==>
      DistinctNormalized(CreateCardTags(tags, normalize, card, owner, texts).tags, normalize)
    decreases |texts|
  {
    if |texts| > 0 {
      var first := FindOrCreateTagNormalized(tags, normalize, texts[0]);
      CreateCardTagsKeepsTextsDistinct(first.tags, normalize, card, owner, texts[1..]);
    }
  }

  /** A tag is created only for a DTO text whose normalised form the table
      lacked. */
  lemma {:induction false} CreateCardTagsCreatesOnlyUnknownTexts(tags: TagTable, normalize: string -> string, card: CardId, owner: UserId, texts: seq<string>)
    ensures forall j :: |tags| <= j < |CreateCardTags(tags, normalize, card, owner, texts).tags| ==>
      !HasNormalized(tags, normalize, CreateCardTags(tags, normalize, card, owner, texts).tags[j])
    decreases |texts|
  {
    if |texts| > 0 {
      var first := FindOrCreateTagNormalized(tags, normalize, texts[0]);
      var rest := CreateCardTags(first.tags, normalize, card, owner, texts[1..]);
      CreateCardTagsCreatesOnlyUnknownTexts(first.tags, normalize, card, owner, texts[1..]);
      forall j | |tags| <= j < |rest.tags|
        ensures !HasNormalized(tags, normalize, rest.tags[j])
      {
        if j < |first.tags| {
          assert rest.tags[..|first.tags|][j] == rest.tags[j];
        } else {
          LacksNormalizedInPrefix(tags, first.tags, normalize, rest.tags[j]);
        }
      }
    }
  }

  /** Every tag created holds one of the DTO's texts. */
  lemma {:induction false} CreateCardTagsCreatesOnlyDtoTexts(tags: TagTable, normalize: string -> string, card: CardId, owner: UserId, texts: seq<string>)
    ensures forall j :: |tags| <= j < |CreateCardTags(tags, normalize, card, owner, texts).tags| ==>
      CreateCardTags(tags, normalize, card, owner, texts).tags[j] in texts
    decreases |texts|
  {
    if |texts| > 0 {
      var first := FindOrCreateTagNormalized(tags, normalize, texts[0]);
      var rest := CreateCardTags(first.tags, normalize, card, owner, texts[1..]);
      CreateCardTagsCreatesOnlyDtoTexts(first.tags, normalize, card, owner, texts[1..]);
      forall j | |tags| <= j < |rest.tags|
        ensures rest.tags[j] in texts
      {
        if j < |first.tags| {
          assert rest.tags[..|first.tags|][j] == rest.tags[j];
          assert first.tags[j] == texts[0];
        } else {
          assert rest.tags[j] in texts[1..];
        }
      }
    }
  }

  /** When the table already knows every DTO text, nothing is created. */
  lemma {:induction false} CreateCardTagsKeepsTableWhenAllKnown(tags: TagTable, normalize: string -> string, card: CardId, owner: UserId, texts: seq<string>)
    requires forall i :: 0 <= i < |texts| ==> HasNormalized(tags, normalize, texts[i])
    ensures CreateCardTags(tags, normalize, card, owner, texts).tags == tags
    decreases |texts|
  {
    if |texts| > 0 {
      assert HasNormalized(tags, normalize, texts[0]);
      assert forall i :: 0 <= i < |texts[1..]| ==> texts[1..][i] == texts[i + 1];
      CreateCardTagsKeepsTableWhenAllKnown(tags, normalize, card, owner, texts[1..]);
    }
  }

  /** Two spellings with the same normalised text end up on one shared tag. */
  lemma DuplicateSpellingsShareOneTag(normalize: string -> string, card: CardId, owner: UserId)
    requires normalize("Hello") == normalize("hello ")
    ensures |CreateCardTags([], normalize, card, owner, ["Hello", "hello "]).tags| == 1
    ensures CreateCardTags([], normalize, card, owner, ["Hello", "hello "]).cardTags[0].id
         == CreateCardTags([], normalize, card, owner, ["Hello", "hello "]).cardTags[1].id
  {
    var first := FindOrCreateTagNormalized([], normalize, "Hello");
    assert first.tags == ["Hello"];
    assert HasNormalized(first.tags, normalize, "hello ") by {
      assert normalize(first.tags[0]) == normalize("hello ");
    }
  }

  // --------------------------------------------------- updateCardDetails

  /** An example row's payload: the example sentence and its translation. */
  datatype ExampleText = ExampleText(example: string, translation: string)

  /** The deletion lists and line items of a `CardUpdateDto`. */
  datatype CardUpdate = CardUpdate(
    trDel: seq<LineItems.ItemId>,
    exDel: seq<LineItems.ItemId>,
    translations: seq<LineItems.LineItem<string>>,
    examples: seq<LineItems.LineItem<ExampleText>>)

  datatype CardLines = CardLines(
    translations: LineItems.LineStore<string>,
    examples: LineItems.LineStore<ExampleText>)

  predicate LinesValid(lines: CardLines) {
    LineItems.Valid(lines.translations) && LineItems.Valid(lines.examples)
  }

  /** `updateCardDetails`: delete the listed translation ids, then the listed
      example ids, then reconcile the translation items, then the example
      items. Every listed row that existed is gone afterwards, and the call
      fails with the missing id when an item names a row that the deletions
      removed or that never existed. */
  function UpdateCardDetails(lines: CardLines, card: LineItems.CardId, dto: CardUpdate): (r: Result<CardLines, LineItems.LineError>)
    requires LinesValid(lines)
    ensures r.Success? ==> LinesValid(r.value)
    ensures r.Success? ==> forall id :: id in dto.trDel && id in lines.translations.rows ==> id !in r.value.translations.rows
    ensures r.Success? ==> forall id :: id in dto.exDel && id in lines.examples.rows ==> id !in r.value.examples.rows
    ensures (&& LineItems.IdsExist(LineItems.DeleteIds(lines.translations, dto.trDel), dto.translations)
             && LineItems.IdsExist(LineItems.DeleteIds(lines.examples, dto.exDel), dto.examples))
            ==> r.Success?
    ensures r.Failure? ==>
              || (exists i :: 0 <= i < |dto.translations| && dto.translations[i].id == Some(r.error.id)
                    && r.error.id !in LineItems.DeleteIds(lines.translations, dto.trDel).rows)
              || (exists i :: 0 <= i < |dto.examples| && dto.examples[i].id == Some(r.error.id)
                    && r.error.id !in LineItems.DeleteIds(lines.examples, dto.exDel).rows)
    // for item ids the identity columns have handed out, the call succeeds
    // exactly when each names a row that survived the deletions
    ensures (&& LineItems.IdsBelow(dto.translations, lines.translations.nextId)
             && LineItems.IdsBelow(dto.examples, lines.examples.nextId))
            ==> (r.Success? <==>
                   && LineItems.IdsExist(LineItems.DeleteIds(lines.translations, dto.trDel), dto.translations)
                   && LineItems.IdsExist(LineItems.DeleteIds(lines.examples, dto.exDel), dto.examples))
    // the surviving rows are updated in place and the id-less items inserted
    ensures r.Success? ==>
              && LineItems.Reconciled(LineItems.DeleteIds(lines.translations, dto.trDel), card, dto.translations,
                                      r.value.translations)
              && LineItems.Reconciled(LineItems.DeleteIds(lines.examples, dto.exDel), card, dto.examples,
                                      r.value.examples)
  {
    var tr := LineItems.DeleteIds(lines.translations, dto.trDel);
    var ex := LineItems.DeleteIds(lines.examples, dto.exDel);
    LineItems.ApplyItemsOutcome(tr, card, dto.translations);
    LineItems.ApplyItemsOutcome(ex, card, dto.examples);
    var tr' :- LineItems.ApplyItems(tr, card, dto.translations);
    var ex' :- LineItems.ApplyItems(ex, card, dto.examples);
    Success(CardLines(tr', ex'))
  }

  /** A translation item that names a just-deleted row fails the update. */
  lemma UpdatingADeletedTranslationFails(lines: CardLines, card: LineItems.CardId, id: LineItems.ItemId, text: string)
    requires LinesValid(lines)
    ensures UpdateCardDetails(lines, card, CardUpdate([id], [], [LineItems.LineItem(Some(id), text)], [])).Failure?
  {
    var tr := LineItems.DeleteIds(lines.translations, [id]);
    assert !LineItems.IdsExist(tr, [LineItems.LineItem(Some(id), text)]) by {
      assert [LineItems.LineItem(Some(id), text)][0].id.value !in tr.rows;
    }
  }

  // -------------------------------------------------------------- updateCard

  /** The part of the database `updateCard` touches. `cards` holds each card's
      `updated` instant; the scalar fields the mapper copies are not part of
      this model. */
  datatype CardDb = CardDb(
    cards: map<CardId, int>,
    tags: TagTable,
    cardTags: CardTagTable,
    lines: CardLines)

  predicate DbValid(db: CardDb) {
    Valid(db.tags, db.cardTags) && LinesValid(db.lines)
  }

  datatype CardError = CardNotFound(card: CardId) | LineNotFound(error: LineItems.LineError)

  /** `updateCard`: the card must exist; then its lines are reconciled, its
      tags are reconciled, and its `updated` instant is set to `now`. The
      method is transactional, so a failure leaves the database as it was. */
  method UpdateCard(db: CardDb, card: CardId, dto: CardUpdate, dtoTexts: seq<string>, learner: UserId, now: int)
    returns (r: Result<CardDb, CardError>)
    requires DbValid(db)
    ensures card !in db.cards ==> r == Failure(CardNotFound(card))
    ensures card in db.cards && UpdateCardDetails(db.lines, card, dto).Failure? ==>
              r == Failure(LineNotFound(UpdateCardDetails(db.lines, card, dto).error))
    ensures r.Success? <==> card in db.cards && UpdateCardDetails(db.lines, card, dto).Success?
    ensures r.Success? ==>
              && DbValid(r.value)
              && r.value.cards == db.cards[card := now]
              && r.value.lines == UpdateCardDetails(db.lines, card, dto).value
              && TextsOf(r.value.tags, r.value.cardTags, card) == TextSet(dtoTexts)
              && |db.tags| <= |r.value.tags| && r.value.tags[..|db.tags|] == db.tags
              && forall k :: k in db.cardTags && k.cardId != card ==> k in r.value.cardTags && r.value.cardTags[k] == db.cardTags[k]
  {
    if card !in db.cards {
      return Failure(CardNotFound(card));
    }
    var details := UpdateCardDetails(db.lines, card, dto);
    if details.Failure? {
      return Failure(LineNotFound(details.error));
    }
    var tags', ct' := UpdateTags(db.tags, db.cardTags, card, dtoTexts, learner);
    r := Success(CardDb(db.cards[card := now], tags', ct', details.value));
  }

  // ----------------------------------------------------------- searchByEntry

  /** The LIKE pattern of `searchByEntry`: the trimmed, lower-cased entry
      between two `%` wildcards. */
  function SearchPattern(entry: string): (r: string)
    ensures var t := JavaLang.Trim(entry);
      && |r| == |t| + 2
      && r[0] == '%' && r[|r| - 1] == '%'
      && forall i :: 0 <= i < |t| ==> r[i + 1] == JavaLang.LowerChar(t[i])
    ensures forall i :: 0 <= i < |r| ==> !JavaLang.IsAsciiUpper(r[i])
  {
    var t := JavaLang.Trim(entry);
    LoweredInPercent(t);
    "%" + JavaLang.ToLowerCase(t) + "%"
  }

  lemma LoweredInPercent(t: string)
    ensures var r := "%" + JavaLang.ToLowerCase(t) + "%";
      && |r| == |t| + 2 && r[0] == '%' && r[|r| - 1] == '%'
      && (forall i :: 0 <= i < |t| ==> r[i + 1] == JavaLang.LowerChar(t[i]))
      && (forall i :: 0 <= i < |r| ==> !JavaLang.IsAsciiUpper(r[i]))
  {
    var m := JavaLang.ToLowerCase(t);
    var r := "%" + m + "%";
    forall i | 0 <= i < |t|
      ensures r[i + 1] == JavaLang.LowerChar(t[i])
    {
      assert r[i + 1] == m[i];
    }
    forall i | 0 <= i < |r|
      ensures !JavaLang.IsAsciiUpper(r[i])
    {
      if 0 < i < |r| - 1 {
        assert r[i] == m[i - 1];
      }
    }
  }

  /** The pattern ignores the entry's letter case and its surrounding
      whitespace: entries that agree after trimming and lowering search alike. */
  lemma SearchPatternIgnoresCaseAndPadding(entry: string)
    ensures SearchPattern(JavaLang.Trim(entry)) == SearchPattern(entry)
    ensures SearchPattern(JavaLang.ToLowerCase(entry)) == SearchPattern(entry)
  {
    JavaLang.TrimIsIdempotent(entry);
    JavaLang.TrimCommutesWithLower(entry);
    JavaLang.LowerIsIdempotent(JavaLang.Trim(entry));
  }
}

=== FILE: entities.dfy ===
/** The `Card` and `User` entities' collection helpers and identity.

    Java objects are modelled by reference: a `CardRef`, `ExampleRef` or
    `UserRef` is an object's identity, and the back-reference fields
    (`Example.card`, `Card.owner`) are maps from the referring object to the
    object referred to, `None` standing for `null`. */
module Entities {
  import opened Wrappers
  import JavaLang

  type CardRef = nat
  type ExampleRef = nat
  type UserRef = nat

  // -------------------------------------------------------------------- Card

  /** The part of a card the helpers touch: its identity, its database id
      (`null` until saved) and its ordered list of examples. */
  datatype Card = Card(self: CardRef, id: Option<JavaLang.Long>, examples: seq<ExampleRef>)

  /** The `card` field of every Example object. */
  type ExampleLinks = map<ExampleRef, Option<CardRef>>

  datatype CardWithLinks = CardWithLinks(card: Card, links: ExampleLinks)

  /** `addExample`: a null example is ignored; otherwise it is appended and
      pointed back at this card. */
  function AddExample(c: Card, links: ExampleLinks, e: Option<ExampleRef>): (r: CardWithLinks)
    ensures e.None? ==> r == CardWithLinks(c, links)
    ensures e.Some? ==>
              && r.card.examples == c.examples + [e.value]
              && r.card.self == c.self && r.card.id == c.id
              && r.links == links[e.value := Some(c.self)]
  {
    match e
    case None => CardWithLinks(c, links)
    case Some(x) => CardWithLinks(c.(examples := c.examples + [x]), links[x := Some(c.self)])
  }

  /** The position of the first occurrence of `x`. */
  function FirstIndex<T(==)>(s: seq<T>, x: T): (i: nat)
    requires x in s
    ensures i < |s| && s[i] == x && x !in s[..i]
  {
    if s[0] == x then 0
    else
      var j := FirstIndex(s[1..], x);
      assert s[..j + 1] == [s[0]] + s[1..][..j];
      j + 1
  }

  lemma FirstIndexIsUnique<T>(s: seq<T>, x: T, i: nat)
    requires i < |s| && s[i] == x && x !in s[..i]
    ensures FirstIndex(s, x) == i
  {
    var j := FirstIndex(s, x);
    forall k | 0 <= k < i
      ensures s[k] != x
    {
      assert s[k] == s[..i][k];
    }
    forall k | 0 <= k < j
      ensures s[k] != x
    {
      assert s[k] == s[..j][k];
    }
  }

  /** `List.remove(Object)`: drop the first occurrence, if any. Examples do not
      override `equals`, so an occurrence is the same object. */
  function RemoveFirst<T(==)>(s: seq<T>, x: T): seq<T> {
    if x in s then s[..FirstIndex(s, x)] + s[FirstIndex(s, x) + 1..] else s
  }

  /** Removal takes away exactly one occurrence, when there is one. */
  lemma RemoveFirstTakesOneOccurrence<T>(s: seq<T>, x: T)
    ensures multiset(RemoveFirst(s, x)) == multiset(s) - multiset{x}
    ensures |RemoveFirst(s, x)| == if x in s then |s| - 1 else |s|
  {
    if x in s {
      RemovePresent(s, x);
    } else {
      assert multiset(s)[x] == 0;
      assert multiset(s) - multiset{x} == multiset(s);
    }
  }

  lemma RemovePresent<T>(s: seq<T>, x: T)
    requires x in s
    ensures multiset(RemoveFirst(s, x)) == multiset(s) - multiset{x}
    ensures |RemoveFirst(s, x)| == |s| - 1
  {
    var i := FirstIndex(s, x);
    var before, after := s[..i], s[i + 1..];
    assert s == before + [x] + after;
    assert multiset(s) == multiset(before) + multiset{x} + multiset(after);
    assert RemoveFirst(s, x) == before + after;
  }

  /** `removeExample`: a null example is ignored; otherwise its first
      occurrence is removed and its `card` is cleared. */
  function RemoveExample(c: Card, links: ExampleLinks, e: Option<ExampleRef>): (r: CardWithLinks)
    ensures e.None? ==> r == CardWithLinks(c, links)
    ensures e.Some? ==>
              && r.card.self == c.self && r.card.id == c.id
              && r.card.examples == RemoveFirst(c.examples, e.value)
              && r.links == links[e.value := None]
  {
    match e
    case None => CardWithLinks(c, links)
    case Some(x) => CardWithLinks(c.(examples := RemoveFirst(c.examples, x)), links[x := None])
  }

  /** Removing an example just added restores the list; the example is left
      detached rather than pointing where it pointed before. */
  lemma AddThenRemoveExample(c: Card, links: ExampleLinks, e: ExampleRef)
    requires e !in c.examples
    ensures var added := AddExample(c, links, Some(e));
      RemoveExample(added.card, added.links, Some(e)) == CardWithLinks(c, links[e := None])
  {
    RemoveJustAppended(c.examples, e);
    var added := AddExample(c, links, Some(e));
    assert added.links[e := None] == links[e := None];
  }

  lemma RemoveJustAppended<T>(s: seq<T>, x: T)
    requires x !in s
    ensures RemoveFirst(s + [x], x) == s
  {
    var t := s + [x];
    assert t[..|s|] == s;
    FirstIndexIsUnique(t, x, |s|);
    assert t[|s| + 1..] == [];
  }

  /** What `Card.equals` may be handed. */
  datatype CardArg = NullArg | SameObject | OtherCard(id: Option<JavaLang.Long>) | OtherClass

  /** `Card.equals` dereferences its own id without a null check. */
  datatype NullPointerException = NullPointerException

  /** `Card.equals`: the same object is equal; null and other classes are
      not; another card is equal exactly when it has the same id, and a card
      whose own id is null throws when compared with a different card. */
  function CardEquals(selfId: Option<JavaLang.Long>, o: CardArg): (r: Result<bool, NullPointerException>)
    ensures o.SameObject? ==> r == Success(true)
    ensures o.NullArg? || o.OtherClass? ==> r == Success(false)
    ensures o.OtherCard? && selfId.None? ==> r.Failure?
    ensures o.OtherCard? && selfId.Some? ==> r == Success(o.id == selfId)
  {
    match o
    case SameObject => Success(true)
    case NullArg => Success(false)
    case OtherClass => Success(false)
    case OtherCard(oid) =>
      match selfId
      case None => Failure(NullPointerException)
      case Some(x) => Success(oid == Some(x))
  }

  /** `Card.hashCode`: `Objects.hash(id)`, where a null id hashes as 0. */
  function CardHashCode(id: Option<JavaLang.Long>): (h: int)
    ensures JavaLang.IsInt(h)
    ensures id.None? ==> h == 31
  {
    var field := if id.Some? then JavaLang.LongHashCode(id.value) else 0;
    assert JavaLang.HashFold(31, 1, [field]) == JavaLang.ToInt(31 + field);
    JavaLang.HashFold(31, 1, [field])
  }

  /** Equality is the id alone, it is symmetric between saved cards, and
      equal cards hash alike. */
  lemma CardEqualityIsIdEquality(a: JavaLang.Long, b: Option<JavaLang.Long>)
    ensures CardEquals(Some(a), OtherCard(b)) == Success(b == Some(a))
    ensures b.Some? ==> CardEquals(Some(a), OtherCard(b)) == CardEquals(b, OtherCard(Some(a)))
    ensures CardEquals(Some(a), OtherCard(b)) == Success(true) ==> CardHashCode(Some(a)) == CardHashCode(b)
  {
  }

  // -------------------------------------------------------------------- User

  /** The `cards` set of a user. HashSet membership is by `Card.equals`, that
      is by id; it is modelled by object identity, which agrees with it for
      saved cards with distinct ids. */
  datatype User = User(self: UserRef, cards: set<CardRef>, username: Option<string>)

  /** The `owner` field of every Card object. */
  type Owners = map<CardRef, Option<UserRef>>

  datatype UserWithOwners = UserWithOwners(user: User, owners: Owners)

  /** `addCard`: a null card is ignored; otherwise it joins the set and is
      owned by this user. */
  function AddCard(u: User, owners: Owners, c: Option<CardRef>): (r: UserWithOwners)
    ensures c.None? ==> r == UserWithOwners(u, owners)
    ensures c.Some? ==>
              && r.user == u.(cards := u.cards + {c.value})
              && r.owners == owners[c.value := Some(u.self)]
  {
    match c
    case None => UserWithOwners(u, owners)
    case Some(x) => UserWithOwners(u.(cards := u.cards + {x}), owners[x := Some(u.self)])
  }

  /** `removeCard`: a null card is ignored; otherwise it leaves the set and
      loses its owner. */
  function RemoveCard(u: User, owners: Owners, c: Option<CardRef>): (r: UserWithOwners)
    ensures c.None? ==> r == UserWithOwners(u, owners)
    ensures c.Some? ==>
              && r.user == u.(cards := u.cards - {c.value})
              && r.owners == owners[c.value := None]
  {
    match c
    case None => UserWithOwners(u, owners)
    case Some(x) => UserWithOwners(u.(cards := u.cards - {x}), owners[x := None])
  }

  function PresentCards(cs: seq<Option<CardRef>>): set<CardRef> {
    set i | 0 <= i < |cs| && cs[i].Some? :: cs[i].value
  }

  /** `addCards`: `addCard` on each element, in order. */
  function AddCards(u: User, owners: Owners, cs: seq<Option<CardRef>>): UserWithOwners
    decreases |cs|
  {
    if |cs| == 0 then UserWithOwners(u, owners)
    else
      var first := AddCard(u, owners, cs[0]);
      AddCards(first.user, first.owners, cs[1..])
  }

  /** `addCards` adds exactly the non-null cards and makes this user the owner
      of each of them; every other card keeps its owner. */
  lemma {:induction false} AddCardsAddsEachCard(u: User, owners: Owners, cs: seq<Option<CardRef>>)
    ensures var r := AddCards(u, owners, cs);
      && r.user == u.(cards := u.cards + PresentCards(cs))
      && r.owners.Keys == owners.Keys + PresentCards(cs)
      && (forall c :: c in PresentCards(cs) ==> r.owners[c] == Some(u.self))
      && (forall c :: c in owners && c !in PresentCards(cs) ==> r.owners[c] == owners[c])
    decreases |cs|
  {
    if |cs| > 0 {
      var first := AddCard(u, owners, cs[0]);
      AddCardsAddsEachCard(first.user, first.owners, cs[1..]);
      assert PresentCards(cs) == (if cs[0].Some? then {cs[0].value} else {}) + PresentCards(cs[1..]) by {
        forall c | c in PresentCards(cs)
          ensures c in (if cs[0].Some? then {cs[0].value} else {}) + PresentCards(cs[1..])
        {
          var i :| 0 <= i < |cs| && cs[i].Some? && cs[i].value == c;
          if i > 0 {
            assert cs[1..][i - 1] == cs[i];
          }
        }
        forall c | c in PresentCards(cs[1..])
          ensures c in PresentCards(cs)
        {
          var i :| 0 <= i < |cs[1..]| && cs[1..][i].Some? && cs[1..][i].value == c;
          assert cs[i + 1] == cs[1..][i];
        }
      }
    }
  }

  /** Removing a card just added leaves the user's set as it was, when the
      card was not in it before. */
  lemma AddThenRemoveCard(u: User, owners: Owners, c: CardRef)
    requires c !in u.cards
    ensures var added := AddCard(u, owners, Some(c));
      RemoveCard(added.user, added.owners, Some(c)) == UserWithOwners(u, owners[c := None])
  {
    var added := AddCard(u, owners, Some(c));
    assert added.user.cards - {c} == u.cards;
  }

  /** `usernameGenerator`, run before the first save: a missing username
      becomes `generated` (the value `generateId()` returns). */
  function UsernameGenerator(username: Option<string>, generated: string): (r: string)
    ensures username.Some? ==> r == username.value
    ensures username.None? ==> r == generated
  {
    username.GetOr(generated)
  }

  /** The generator is idempotent: a second run keeps the first run's
      username, whatever the second `generateId()` yields. */
  lemma UsernameGeneratorIsIdempotent(username: Option<string>, first: string, second: string)
    ensures UsernameGenerator(Some(UsernameGenerator(username, first)), second) == UsernameGenerator(username, first)
  {
  }
}

=== FILE: friendship.dfy ===
/** The Friendship entity: one row of the relationship table, its status enum,
    its composite primary key and its key-only equality. */
module Friendship {
  import opened Wrappers
  import JavaLang

  type UserId = JavaLang.Long

  /** `LocalDateTime`, abstracted to an ordered instant. */
  type Timestamp = int

  /** `FST` is the requester and `SND` the requestee, so the two blocked
      variants say which of the two parties blocked the other. */
  datatype FriendshipStatus = Pending | Friends | FstBlockedSnd | SndBlockedFst {
    predicate IsBlocked() {
      FstBlockedSnd? || SndBlockedFst?
    }
  }

  /** The composite identity `(requester_id, requestee_id)`, which also
      carries the table's unique constraint: both are on the ORDERED pair. */
  datatype FriendshipPK = FriendshipPK(requesterId: UserId, requesteeId: UserId) {
    /** The key of the same two users in the opposite roles. */
    function Swapped(): (k: FriendshipPK)
      ensures k.requesterId == requesteeId && k.requesteeId == requesterId
    {
      FriendshipPK(requesteeId, requesterId)
    }
  }

  datatype Friendship = Friendship(
    requesterId: UserId,
    requesteeId: UserId,
    created: Timestamp,
    updated: Timestamp,
    status: FriendshipStatus)
  {
    function Key(): FriendshipPK {
      FriendshipPK(requesterId, requesteeId)
    }

    predicate HasParty(u: UserId) {
      u == requesterId || u == requesteeId
    }

    /** The user who blocked the other one, if the row is in a blocked state. */
    function WhoDeniesFriendship(): (r: Option<UserId>)
      ensures r.Some? <==> status.IsBlocked()
      ensures r.Some? ==> HasParty(r.value)
      ensures status == FstBlockedSnd ==> r == Some(requesterId)
      ensures status == SndBlockedFst ==> r == Some(requesteeId)
    {
      if status == FstBlockedSnd then Some(requesterId)
      else if status == SndBlockedFst then Some(requesteeId)
      else None
    }
  }

  /** Lombok `equals` generated from `of = {"requesterId", "requesteeId"}`. */
  predicate EqualRows(f: Friendship, g: Friendship) {
    f.requesterId == g.requesterId && f.requesteeId == g.requesteeId
  }

  /** Lombok `hashCode` over the same two fields. */
  function HashCode(f: Friendship): (h: int)
    ensures JavaLang.IsInt(h)
  {
    JavaLang.LombokHash([f.requesterId, f.requesteeId])
  }

  /** Equality is the key, so rows that differ only in status or timestamps are
      equal, and equal rows hash alike. */
  lemma EqualityIsKeyEquality(f: Friendship, g: Friendship)
    ensures EqualRows(f, g) <==> f.Key() == g.Key()
    ensures EqualRows(f, g) ==> HashCode(f) == HashCode(g)
    ensures EqualRows(f, f.(status := g.status, created := g.created, updated := g.updated))
  {
  }

  /** The schema admits the reverse pair: a row for (A,B) and one for (B,A)
      have different keys, so neither the primary key nor the unique
      constraint excludes having both. */
  lemma ReversePairIsADifferentKey(a: UserId, b: UserId)
    requires a != b
    ensures FriendshipPK(a, b) != FriendshipPK(b, a)
    ensures FriendshipPK(a, b).Swapped() == FriendshipPK(b, a)
  {
  }
}

=== FILE: friendship_service.dfy ===
/** The friendship operations of the user service: request, approve, block,
    cancel (also reached by reject, unfriend and unblock) and the command
    dispatch that routes an action to them.

    The relationship table is a map from the ordered primary key to the row.
    The repository's `getFriendshipByUsersIds` and `deleteFriendshipByIds`
    queries are not part of this model; since either party may approve, block
    or cancel, both are modelled as working on the UNORDERED pair: the lookup
    finds the row stored under either key, the delete removes both keys. */
module FriendshipService {
  import opened Wrappers
  import opened Friendship

  type Store = map<FriendshipPK, Friendship>

  // ------------------------------------------------------------- invariants

  /** Every row is stored under its own primary key. */
  predicate WellKeyed(s: Store) {
    forall k :: k in s ==> s[k].Key() == k
  }

  /** At most one row per unordered pair of users. Because the swap of
      `(a, a)` is itself, this also rules out a row whose requester is its
      requestee. */
  predicate OnePerPair(s: Store) {
    forall k :: k in s ==> k.Swapped() !in s
  }

  predicate Valid(s: Store) {
    WellKeyed(s) && OnePerPair(s)
  }

  // -------------------------------------------------------- repository view

  predicate HasRow(s: Store, a: UserId, b: UserId) {
    FriendshipPK(a, b) in s || FriendshipPK(b, a) in s
  }

  /** `getFriendshipByUsersIds(a, b)`, symmetric in its two arguments. */
  function Lookup(s: Store, a: UserId, b: UserId): (r: Option<Friendship>)
    ensures r.Some? <==> HasRow(s, a, b)
    ensures r.Some? ==> r.value in s.Values
    ensures r.Some? && WellKeyed(s) ==> r.value.Key() in s && s[r.value.Key()] == r.value
    ensures r.Some? && WellKeyed(s) ==> r.value.HasParty(a) && r.value.HasParty(b)
  {
    if FriendshipPK(a, b) in s then Some(s[FriendshipPK(a, b)])
    else if FriendshipPK(b, a) in s then Some(s[FriendshipPK(b, a)])
    else None
  }

  /** With at most one row per pair, the argument order of the lookup does
      not matter. */
  lemma LookupIsSymmetric(s: Store, a: UserId, b: UserId)
    requires OnePerPair(s)
    ensures Lookup(s, a, b) == Lookup(s, b, a)
  {
    if FriendshipPK(a, b) in s {
      assert FriendshipPK(a, b).Swapped() == FriendshipPK(b, a);
    }
  }

  /** `deleteFriendshipByIds(a, b)`: removes the pair's row whichever way round
      it is stored. */
  function DeletePair(s: Store, a: UserId, b: UserId): (r: Store)
    ensures !HasRow(r, a, b)
    ensures r.Keys == s.Keys - {FriendshipPK(a, b), FriendshipPK(b, a)}
    ensures forall k :: k in r ==> r[k] == s[k]
  {
    s - {FriendshipPK(a, b), FriendshipPK(b, a)}
  }

  // ----------------------------------------------------------------- errors

  datatype FriendshipError =
    | FriendshipNotFound
      /** The generic `Exception` raised for a pair that already has a row. */
    | FriendshipAlreadyExists(status: FriendshipStatus)
    | FriendshipNotAllowed(message: string)

  const LIMITED_MESSAGE: string := "User limited your ability to send requests!"
  const REQUESTS_BLOCKED_MESSAGE: string := "User doesn't accept friendship requests!"

  // ------------------------------------------------------------- operations

  /** `createFriendshipRequest(initiator, acceptor)`. `acceptorBlocksRequests`
      is the recipient's `friendshipRequestsBlocked` flag and `now` the clock. */
  function CreateFriendshipRequest(s: Store, initiator: UserId, acceptor: UserId,
                                   acceptorBlocksRequests: bool, now: Timestamp)
    : (r: Result<Store, FriendshipError>)
    requires initiator != acceptor
    ensures HasRow(s, initiator, acceptor) ==> r.Failure?
    ensures (HasRow(s, initiator, acceptor) && Lookup(s, initiator, acceptor).value.WhoDeniesFriendship() == Some(acceptor))
              ==> r.error == FriendshipNotAllowed(LIMITED_MESSAGE)
    ensures (HasRow(s, initiator, acceptor) && Lookup(s, initiator, acceptor).value.WhoDeniesFriendship() != Some(acceptor))
              ==> r.error == FriendshipAlreadyExists(Lookup(s, initiator, acceptor).value.status)
    ensures (!HasRow(s, initiator, acceptor) && acceptorBlocksRequests)
              ==> r == Failure(FriendshipNotAllowed(REQUESTS_BLOCKED_MESSAGE))
    ensures r.Success? <==> !HasRow(s, initiator, acceptor) && !acceptorBlocksRequests
    ensures r.Success? ==>
              && FriendshipPK(initiator, acceptor) !in s
              && r.value.Keys == s.Keys + {FriendshipPK(initiator, acceptor)}
              && r.value[FriendshipPK(initiator, acceptor)] == Friendship(initiator, acceptor, now, now, Pending)
              && forall k :: k in s ==> r.value[k] == s[k]
  {
    match Lookup(s, initiator, acceptor)
    case Some(existing) =>
      if existing.WhoDeniesFriendship() == Some(acceptor) then Failure(FriendshipNotAllowed(LIMITED_MESSAGE))
      else Failure(FriendshipAlreadyExists(existing.status))
    case None =>
      if acceptorBlocksRequests then Failure(FriendshipNotAllowed(REQUESTS_BLOCKED_MESSAGE))
      else
        var row := Friendship(initiator, acceptor, now, now, Pending);
        Success(s[row.Key() := row])
  }

  /** `approveFriendshipRequest(initiator, acceptor)`; the source asserts that
      the row found is PENDING. */
  function ApproveFriendshipRequest(s: Store, initiator: UserId, acceptor: UserId, now: Timestamp)
    : (r: Result<Store, FriendshipError>)
    requires initiator != acceptor
    requires HasRow(s, initiator, acceptor) ==> Lookup(s, initiator, acceptor).value.status == Pending
    ensures r.Failure? <==> !HasRow(s, initiator, acceptor)
    ensures r.Failure? ==> r.error == FriendshipNotFound
    ensures r.Success? ==>
              var f := Lookup(s, initiator, acceptor).value;
              && r.value.Keys == s.Keys + {f.Key()}
              && r.value[f.Key()].status == Friends
              && r.value[f.Key()].updated == now
              && r.value[f.Key()].requesterId == f.requesterId
              && r.value[f.Key()].requesteeId == f.requesteeId
              && r.value[f.Key()].created == f.created
              && forall k :: k in s && k != f.Key() ==> r.value[k] == s[k]
  {
    match Lookup(s, initiator, acceptor)
    case None => Failure(FriendshipNotFound)
    case Some(f) =>
      var approved := f.(status := Friends, updated := now);
      Success(s[approved.Key() := approved])
  }

  /** `blockUser(initiator, acceptor)`; the source asserts that the row found
      is FRIENDS or PENDING. */
  function BlockUser(s: Store, initiator: UserId, acceptor: UserId, now: Timestamp)
    : (r: Result<Store, FriendshipError>)
    requires initiator != acceptor
    requires HasRow(s, initiator, acceptor) ==> Lookup(s, initiator, acceptor).value.status in {Friends, Pending}
    ensures r.Failure? <==> !HasRow(s, initiator, acceptor)
    ensures r.Failure? ==> r.error == FriendshipNotFound
    ensures r.Success? ==>
              var f := Lookup(s, initiator, acceptor).value;
              && r.value.Keys == s.Keys + {f.Key()}
              && r.value[f.Key()].status == (if f.requesterId == initiator then FstBlockedSnd else SndBlockedFst)
              && r.value[f.Key()].updated == now
              && r.value[f.Key()].requesterId == f.requesterId
              && r.value[f.Key()].requesteeId == f.requesteeId
              && r.value[f.Key()].created == f.created
              && forall k :: k in s && k != f.Key() ==> r.value[k] == s[k]
    // the status encodes the blocker: it is the user who performed the block
    ensures r.Success? && WellKeyed(s) ==>
              r.value[Lookup(s, initiator, acceptor).value.Key()].WhoDeniesFriendship() == Some(initiator)
  {
    match Lookup(s, initiator, acceptor)
    case None => Failure(FriendshipNotFound)
    case Some(f) =>
      var blocked := f.(updated := now, status := if f.requesterId == initiator then FstBlockedSnd else SndBlockedFst);
      Success(s[blocked.Key() := blocked])
  }

  /** `cancelFriendship(initiator, acceptor)`: deletes the pair's row. */
  function CancelFriendship(s: Store, initiator: UserId, acceptor: UserId)
    : (r: Result<Store, FriendshipError>)
    requires initiator != acceptor
    ensures r.Failure? <==> !HasRow(s, initiator, acceptor)
    ensures r.Failure? ==> r.error == FriendshipNotFound
    ensures r.Success? ==>
              && !HasRow(r.value, initiator, acceptor)
              && r.value.Keys == s.Keys - {FriendshipPK(initiator, acceptor), FriendshipPK(acceptor, initiator)}
              && forall k :: k in r.value ==> r.value[k] == s[k]
  {
    if Lookup(s, initiator, acceptor).None? then Failure(FriendshipNotFound)
    else Success(DeletePair(s, initiator, acceptor))
  }

  /** `unblockFriendship` simply delegates to `cancelFriendship`. */
  function UnblockFriendship(s: Store, requester: UserId, requestee: UserId)
    : (r: Result<Store, FriendshipError>)
    requires requester != requestee
    ensures r.Failure? <==> !HasRow(s, requester, requestee)
    ensures r.Failure? ==> r.error == FriendshipNotFound
    ensures r.Success? ==>
              && !HasRow(r.value, requester, requestee)
              && r.value.Keys == s.Keys - {FriendshipPK(requester, requestee), FriendshipPK(requestee, requester)}
              && forall k :: k in r.value ==> r.value[k] == s[k]
  {
    CancelFriendship(s, requester, requestee)
  }

  // ------------------------------------------------------------- dispatch

  datatype FriendshipAction = Request | Accept | Block | Unblock | Cancel | Reject | Unfriend

  datatype FriendshipCommand = FriendshipCommand(initiator: UserId, acceptor: UserId, action: FriendshipAction)

  /** The state after a command together with the exception it threw, if any.
      `editFriendship` opens no transaction of its own, so a write made before
      a later exception stays. */
  datatype Effect = Effect(store: Store, thrown: Option<FriendshipError>)

  function ToEffect(before: Store, r: Result<Store, FriendshipError>): (e: Effect)
    ensures r.Success? ==> e == Effect(r.value, None)
    ensures r.Failure? ==> e == Effect(before, Some(r.error))
  {
    match r
    case Success(after) => Effect(after, None)
    case Failure(err) => Effect(before, Some(err))
  }

  /** What the source asserts before acting on a command. */
  predicate CommandAllowed(s: Store, c: FriendshipCommand) {
    && c.initiator != c.acceptor
    && (c.action == Accept && HasRow(s, c.initiator, c.acceptor) ==>
          Lookup(s, c.initiator, c.acceptor).value.status == Pending)
    && (c.action == Block && HasRow(s, c.initiator, c.acceptor) ==>
          Lookup(s, c.initiator, c.acceptor).value.status in {Friends, Pending})
  }

  predicate IsRemoval(a: FriendshipAction) {
    a == Cancel || a == Reject || a == Unfriend
  }

  /** `editFriendship` AS WRITTEN: the UNBLOCK case has no `break`, so after
      `unblockFriendship` control falls through into the CANCEL case and
      `cancelFriendship` runs again on the row it has just deleted. */
  function EditFriendshipAsWritten(s: Store, c: FriendshipCommand, acceptorBlocksRequests: bool, now: Timestamp)
    : (e: Effect)
    requires CommandAllowed(s, c)
    ensures c.action == Unblock ==> e.thrown == Some(FriendshipNotFound)
    ensures c.action == Unblock ==> !HasRow(e.store, c.initiator, c.acceptor)
    ensures c.action != Unblock && e.thrown.Some? ==> e.store == s
    ensures IsRemoval(c.action) ==> e == ToEffect(s, CancelFriendship(s, c.initiator, c.acceptor))
    // UNBLOCK still removes exactly the pair's keys and leaves the other rows
    ensures c.action == Unblock ==>
              && e.store.Keys == s.Keys - {FriendshipPK(c.initiator, c.acceptor), FriendshipPK(c.acceptor, c.initiator)}
              && forall k :: k in e.store ==> e.store[k] == s[k]
    // every other command behaves as in the corrected dispatch
    ensures c.action != Unblock ==> e == EditFriendship(s, c, acceptorBlocksRequests, now)
  {
    match c.action
    case Request => ToEffect(s, CreateFriendshipRequest(s, c.initiator, c.acceptor, acceptorBlocksRequests, now))
    case Accept => ToEffect(s, ApproveFriendshipRequest(s, c.initiator, c.acceptor, now))
    case Block => ToEffect(s, BlockUser(s, c.initiator, c.acceptor, now))
    case Unblock =>
      var afterUnblock := ToEffect(s, UnblockFriendship(s, c.initiator, c.acceptor));
      if afterUnblock.thrown.Some? then afterUnblock
      else ToEffect(afterUnblock.store, CancelFriendship(afterUnblock.store, c.initiator, c.acceptor))
    case _ => ToEffect(s, CancelFriendship(s, c.initiator, c.acceptor))
  }

  /** `editFriendship` with the evidently intended `break` after UNBLOCK. */
  function EditFriendship(s: Store, c: FriendshipCommand, acceptorBlocksRequests: bool, now: Timestamp)
    : (e: Effect)
    requires CommandAllowed(s, c)
    ensures e.thrown.Some? ==> e.store == s
    ensures (c.action == Unblock || IsRemoval(c.action)) ==>
              && (e.thrown.None? <==> HasRow(s, c.initiator, c.acceptor))
              && !HasRow(e.store, c.initiator, c.acceptor)
              && e.store.Keys == s.Keys - {FriendshipPK(c.initiator, c.acceptor), FriendshipPK(c.acceptor, c.initiator)}
    ensures (c.action == Unblock || IsRemoval(c.action)) ==> forall k :: k in e.store ==> e.store[k] == s[k]
    ensures c.action == Request ==> (e.thrown.None? <==> !HasRow(s, c.initiator, c.acceptor) && !acceptorBlocksRequests)
    ensures (c.action == Accept || c.action == Block) ==> (e.thrown.None? <==> HasRow(s, c.initiator, c.acceptor))
    // REQUEST adds one PENDING row from the initiator to the acceptor
    ensures c.action == Request && e.thrown.None? ==>
              && e.store.Keys == s.Keys + {FriendshipPK(c.initiator, c.acceptor)}
              && e.store[FriendshipPK(c.initiator, c.acceptor)] == Friendship(c.initiator, c.acceptor, now, now, Pending)
              && forall k :: k in s ==> e.store[k] == s[k]
    // ACCEPT turns the pair's row into a friendship
    ensures c.action == Accept && HasRow(s, c.initiator, c.acceptor) ==>
              var f := Lookup(s, c.initiator, c.acceptor).value;
              && e.store.Keys == s.Keys + {f.Key()}
              && e.store[f.Key()] == f.(status := Friends, updated := now)
              && forall k :: k in s && k != f.Key() ==> e.store[k] == s[k]
    // BLOCK keeps the row's parties and makes the initiator its denier
    ensures c.action == Block && HasRow(s, c.initiator, c.acceptor) ==>
              var f := Lookup(s, c.initiator, c.acceptor).value;
              && e.store.Keys == s.Keys + {f.Key()}
              && e.store[f.Key()].status.IsBlocked()
              && e.store[f.Key()] == f.(status := e.store[f.Key()].status, updated := now)
              && (WellKeyed(s) ==> e.store[f.Key()].WhoDeniesFriendship() == Some(c.initiator))
              && forall k :: k in s && k != f.Key() ==> e.store[k] == s[k]
  {
    match c.action
    case Request => ToEffect(s, CreateFriendshipRequest(s, c.initiator, c.acceptor, acceptorBlocksRequests, now))
    case Accept => ToEffect(s, ApproveFriendshipRequest(s, c.initiator, c.acceptor, now))
    case Block => ToEffect(s, BlockUser(s, c.initiator, c.acceptor, now))
    case Unblock => ToEffect(s, UnblockFriendship(s, c.initiator, c.acceptor))
    case _ => ToEffect(s, CancelFriendship(s, c.initiator, c.acceptor))
  }

  // --------------------------------------------------------------- lemmas

  /** The fall-through makes UNBLOCK report "not found" even when the row
      existed and was deleted; with the `break` the same command succeeds. */
  lemma UnblockFallThroughReportsNotFound(s: Store, c: FriendshipCommand, blocked: bool, now: Timestamp)
    requires CommandAllowed(s, c) && c.action == Unblock
    requires HasRow(s, c.initiator, c.acceptor)
    ensures EditFriendshipAsWritten(s, c, blocked, now).thrown == Some(FriendshipNotFound)
    ensures EditFriendshipAsWritten(s, c, blocked, now).store == EditFriendship(s, c, blocked, now).store
    ensures EditFriendship(s, c, blocked, now).thrown == None
  {
  }

  /** A request keeps "at most one row per unordered pair": the schema only
      constrains the ordered pair, and it is the symmetric lookup that stops a
      reverse request from adding a second row. */
  lemma CreatePreservesValid(s: Store, initiator: UserId, acceptor: UserId, blocked: bool, now: Timestamp)
    requires Valid(s) && initiator != acceptor
    requires CreateFriendshipRequest(s, initiator, acceptor, blocked, now).Success?
    ensures Valid(CreateFriendshipRequest(s, initiator, acceptor, blocked, now).value)
  {
    var s' := CreateFriendshipRequest(s, initiator, acceptor, blocked, now).value;
    var nk := FriendshipPK(initiator, acceptor);
    forall k | k in s'
      ensures s'[k].Key() == k && k.Swapped() !in s'
    {
      if k != nk {
        assert k in s;
        assert k.Swapped() != nk;
      }
    }
  }

  lemma ApprovePreservesValid(s: Store, initiator: UserId, acceptor: UserId, now: Timestamp)
    requires Valid(s) && initiator != acceptor
    requires HasRow(s, initiator, acceptor) ==> Lookup(s, initiator, acceptor).value.status == Pending
    ensures ApproveFriendshipRequest(s, initiator, acceptor, now).Success? ==>
              && Valid(ApproveFriendshipRequest(s, initiator, acceptor, now).value)
              && ApproveFriendshipRequest(s, initiator, acceptor, now).value.Keys == s.Keys
  {
  }

  lemma BlockPreservesValid(s: Store, initiator: UserId, acceptor: UserId, now: Timestamp)
    requires Valid(s) && initiator != acceptor
    requires HasRow(s, initiator, acceptor) ==> Lookup(s, initiator, acceptor).value.status in {Friends, Pending}
    ensures BlockUser(s, initiator, acceptor, now).Success? ==>
              && Valid(BlockUser(s, initiator, acceptor, now).value)
              && BlockUser(s, initiator, acceptor, now).value.Keys == s.Keys
  {
  }

  lemma CancelPreservesValid(s: Store, initiator: UserId, acceptor: UserId)
    requires Valid(s) && initiator != acceptor
    ensures CancelFriendship(s, initiator, acceptor).Success? ==> Valid(CancelFriendship(s, initiator, acceptor).value)
  {
  }

  /** Every command, whether it succeeds or throws, leaves a valid store. */
  lemma EditFriendshipPreservesValid(s: Store, c: FriendshipCommand, blocked: bool, now: Timestamp)
    requires Valid(s) && CommandAllowed(s, c)
    ensures Valid(EditFriendship(s, c, blocked, now).store)
    ensures Valid(EditFriendshipAsWritten(s, c, blocked, now).store)
  {
    match c.action
    case Request =>
      if CreateFriendshipRequest(s, c.initiator, c.acceptor, blocked, now).Success? {
        CreatePreservesValid(s, c.initiator, c.acceptor, blocked, now);
      }
    case Accept => ApprovePreservesValid(s, c.initiator, c.acceptor, now);
    case Block => BlockPreservesValid(s, c.initiator, c.acceptor, now);
    case _ => CancelPreservesValid(s, c.initiator, c.acceptor);
  }

  /** After A requests B and before anything else, B's request to A fails with
      "already exists" (a PENDING row denies nobody). */
  lemma ReverseRequestFails(s: Store, a: UserId, b: UserId, blockedA: bool, blockedB: bool, t1: Timestamp, t2: Timestamp)
    requires Valid(s) && a != b
    requires CreateFriendshipRequest(s, a, b, blockedB, t1).Success?
    ensures CreateFriendshipRequest(CreateFriendshipRequest(s, a, b, blockedB, t1).value, b, a, blockedA, t2)
            == Failure(FriendshipAlreadyExists(Pending))
  {
    var s' := CreateFriendshipRequest(s, a, b, blockedB, t1).value;
    assert FriendshipPK(b, a) !in s' by {
      assert FriendshipPK(b, a) != FriendshipPK(a, b);
    }
  }

  /** Once X has blocked Y, a request from Y to X is refused as not allowed,
      whoever requested the friendship originally. */
  lemma BlockedUserCannotRequest(s: Store, x: UserId, y: UserId, t: Timestamp, blocked: bool, t2: Timestamp)
    requires Valid(s) && x != y
    requires HasRow(s, x, y) && Lookup(s, x, y).value.status in {Friends, Pending}
    ensures BlockUser(s, x, y, t).Success?
    ensures CreateFriendshipRequest(BlockUser(s, x, y, t).value, y, x, blocked, t2)
            == Failure(FriendshipNotAllowed(LIMITED_MESSAGE))
  {
    BlockPreservesValid(s, x, y, t);
    var s' := BlockUser(s, x, y, t).value;
    var f := Lookup(s, x, y).value;
    LookupIsSymmetric(s', x, y);
    assert Lookup(s', x, y).value == s'[f.Key()];
  }

  /** After the pair's row is cancelled, a fresh request between them creates
      a new PENDING row, in either direction. */
  lemma RequestAfterCancelSucceeds(s: Store, a: UserId, b: UserId, x: UserId, y: UserId, now: Timestamp)
    requires a != b && {x, y} == {a, b}
    requires CancelFriendship(s, a, b).Success?
    ensures CreateFriendshipRequest(CancelFriendship(s, a, b).value, x, y, false, now).Success?
    ensures CreateFriendshipRequest(CancelFriendship(s, a, b).value, x, y, false, now).value[FriendshipPK(x, y)]
            == Friendship(x, y, now, now, Pending)
  {
    assert x != y;
    assert !HasRow(CancelFriendship(s, a, b).value, x, y);
  }

  /** Unblocking lifts a block: the blocked user, refused while the block
      stands, may request again once the blocker unblocks, and the store stays
      valid throughout. */
  lemma UnblockLiftsBlock(s: Store, x: UserId, y: UserId, t: Timestamp, t2: Timestamp)
    requires Valid(s) && x != y
    requires HasRow(s, x, y) && Lookup(s, x, y).value.status in {Friends, Pending}
    ensures BlockUser(s, x, y, t).Success?
    ensures CreateFriendshipRequest(BlockUser(s, x, y, t).value, y, x, false, t2).Failure?
    ensures UnblockFriendship(BlockUser(s, x, y, t).value, x, y).Success?
    ensures Valid(UnblockFriendship(BlockUser(s, x, y, t).value, x, y).value)
    ensures CreateFriendshipRequest(UnblockFriendship(BlockUser(s, x, y, t).value, x, y).value, y, x, false, t2).Success?
  {
    BlockedUserCannotRequest(s, x, y, t, false, t2);
    BlockPreservesValid(s, x, y, t);
    var b := BlockUser(s, x, y, t).value;
    CancelPreservesValid(b, x, y);
    RequestAfterCancelSucceeds(b, x, y, y, x, t2);
  }
}

=== FILE: general_utils.dfy ===
/** `GeneralUtils`: provider lookup by provider-type string, and the
    authorities built from a user's roles.

    The `SocialProvider` enum is not part of this model: its constants are
    given as their provider-type strings in declaration order, and a
    provider is its position in that list. */
module GeneralUtils {

  /** A role row; its name is the authority string. */
  datatype Role = Role(id: nat, name: string)

  datatype SimpleGrantedAuthority = SimpleGrantedAuthority(authority: string)

  /** `toSocialProvider`: the first constant, in declaration order, whose
      provider type equals `providerId`; `LOCAL` (at position `local`) when
      none does. */
  method ToSocialProvider(providerTypes: seq<string>, local: nat, providerId: string) returns (r: nat)
    requires local < |providerTypes|
    ensures r < |providerTypes|
    ensures providerId in providerTypes ==> providerTypes[r] == providerId
    ensures providerId in providerTypes ==> forall j :: 0 <= j < r ==> providerTypes[j] != providerId
    ensures providerId !in providerTypes ==> r == local
  {
    var i := 0;
    while i < |providerTypes|
      invariant 0 <= i <= |providerTypes|
      invariant forall j :: 0 <= j < i ==> providerTypes[j] != providerId
    {
      if providerTypes[i] == providerId {
        return i;
      }
      i := i + 1;
    }
    return local;
  }

  /** `buildSimpleGrantedAuthorities`: one authority per role, named after
      it, in the set's iteration order (chosen arbitrarily here). The ghost
      `order` is that iteration order. */
  method BuildSimpleGrantedAuthorities(roles: set<Role>) returns (authorities: seq<SimpleGrantedAuthority>, ghost order: seq<Role>)
    ensures |authorities| == |roles|
    ensures |order| == |authorities|
    ensures forall i :: 0 <= i < |order| ==> order[i] in roles && authorities[i] == SimpleGrantedAuthority(order[i].name)
    ensures forall i, j :: 0 <= i < j < |order| ==> order[i] != order[j]
    ensures forall role :: role in roles ==> SimpleGrantedAuthority(role.name) in authorities
    ensures forall a :: a in authorities ==> exists role :: role in roles && a.authority == role.name
  {
    authorities := [];
    order := [];
    var todo := roles;
    while todo != {}
      invariant todo <= roles
      invariant |order| == |authorities|
      invariant |order| + |todo| == |roles|
      invariant forall i :: 0 <= i < |order| ==> order[i] in roles && order[i] !in todo
      invariant forall i :: 0 <= i < |order| ==> authorities[i] == SimpleGrantedAuthority(order[i].name)
      invariant forall i, j :: 0 <= i < j < |order| ==> order[i] != order[j]
      invariant forall role :: role in roles && role !in todo ==> role in order
      decreases |todo|
    {
      var role :| role in todo;
      authorities := authorities + [SimpleGrantedAuthority(role.name)];
      order := order + [role];
      todo := todo - {role};
    }
    forall role | role in roles
      ensures SimpleGrantedAuthority(role.name) in authorities
    {
      var i :| 0 <= i < |order| && order[i] == role;
      assert authorities[i] == SimpleGrantedAuthority(role.name);
    }
    forall a | a in authorities
      ensures exists role :: role in roles && a.authority == role.name
    {
      var i :| 0 <= i < |authorities| && authorities[i] == a;
      assert order[i] in roles && a.authority == order[i].name;
    }
  }
}

=== FILE: java_lang.dfy ===
/** The few pieces of the Java platform whose exact behaviour the modelled code
    depends on: 32- and 64-bit integer ranges, `Long.hashCode`, the
    `Objects.hash`/Lombok hash fold, `String.trim`, ASCII case folding and
    `String.split` on a single literal character. */
module JavaLang {

  const INT_MIN: int := -0x8000_0000
  const INT_MAX: int := 0x7FFF_FFFF
  const TWO_32: int := 0x1_0000_0000
  const TWO_64: int := 0x1_0000_0000_0000_0000

  predicate IsLong(x: int) {
    -0x8000_0000_0000_0000 <= x < 0x8000_0000_0000_0000
  }

  /** A Java `long` (and the non-null value of a `java.lang.Long`). */
  type Long = x: int | IsLong(x)

  predicate IsInt(x: int) {
    INT_MIN <= x <= INT_MAX
  }

  /** Narrowing of an arbitrary integer to a Java `int` (two's complement wrap-around). */
  function ToInt(x: int): (r: int)
    ensures IsInt(r)
    ensures (r - x) % TWO_32 == 0
    ensures IsInt(x) ==> r == x
  {
    (x - INT_MIN) % TWO_32 + INT_MIN
  }

  /** `Long.hashCode(v)`: `(int)(v ^ (v >>> 32))`. */
  function LongHashCode(v: Long): (h: int)
    ensures IsInt(h)
  {
    var u := (v % TWO_64) as bv64;
    var x := (u ^ (u >> 32)) & 0xFFFF_FFFF;
    ToInt(x as int)
  }

  /** The hash fold shared by `Arrays.hashCode`/`Objects.hash` (prime 31) and
      Lombok's generated `hashCode` (prime 59): start from 1 and, for each
      field hash `h`, replace `result` by `(int)(result * prime + h)`. */
  function HashFold(prime: int, seed: int, hashes: seq<int>): (r: int)
    requires IsInt(seed)
    ensures IsInt(r)
    decreases |hashes|
  {
    if |hashes| == 0 then seed
    else HashFold(prime, ToInt(seed * prime + hashes[0]), hashes[1..])
  }

  /** `Objects.hash(a, b, ...)` over non-null `Long` fields. */
  function ObjectsHash(fields: seq<Long>): (r: int)
    ensures IsInt(r)
  {
    HashFold(31, 1, LongHashes(fields))
  }

  /** Lombok `@EqualsAndHashCode` over non-null `Long` fields. */
  function LombokHash(fields: seq<Long>): (r: int)
    ensures IsInt(r)
  {
    HashFold(59, 1, LongHashes(fields))
  }

  function LongHashes(fields: seq<Long>): (r: seq<int>)
    ensures |r| == |fields|
    ensures forall i :: 0 <= i < |fields| ==> r[i] == LongHashCode(fields[i])
  {
    seq(|fields|, i requires 0 <= i < |fields| => LongHashCode(fields[i]))
  }

  // ---------------------------------------------------------------- strings

  predicate IsAsciiUpper(c: char) {
    'A' <= c <= 'Z'
  }

  /** `Character.toLowerCase` restricted to ASCII letters. */
  function LowerChar(c: char): (r: char)
    ensures !IsAsciiUpper(r)
    ensures IsAsciiUpper(c) ==> r as int == c as int + 32
    ensures !IsAsciiUpper(c) ==> r == c
  {
    if IsAsciiUpper(c) then (c as int + 32) as char else c
  }

  /** `String.toLowerCase`, ASCII letters only. */
  function ToLowerCase(s: string): (r: string)
    ensures |r| == |s|
    ensures forall i :: 0 <= i < |s| ==> r[i] == LowerChar(s[i])
  {
    seq(|s|, i requires 0 <= i < |s| => LowerChar(s[i]))
  }

  /** `String.equalsIgnoreCase`, ASCII letters only: equal lengths and every
      pair of characters equal after lowering. */
  predicate EqualsIgnoreCase(a: string, b: string) {
    |a| == |b| && forall i :: 0 <= i < |a| ==> LowerChar(a[i]) == LowerChar(b[i])
  }

  lemma EqualsIgnoreCaseIsLowerEquality(a: string, b: string)
    ensures EqualsIgnoreCase(a, b) <==> ToLowerCase(a) == ToLowerCase(b)
  {
    if ToLowerCase(a) == ToLowerCase(b) {
      assert |a| == |ToLowerCase(a)|;
      forall i | 0 <= i < |a|
        ensures LowerChar(a[i]) == LowerChar(b[i])
      {
        assert ToLowerCase(a)[i] == ToLowerCase(b)[i];
      }
    }
  }

  /** The characters `String.trim` removes: every code point up to U+0020. */
  predicate IsTrimmable(c: char) {
    c <= ' '
  }

  function TrimStart(s: string): (r: string)
    ensures |r| <= |s| && r == s[|s| - |r|..]
    ensures |r| > 0 ==> !IsTrimmable(r[0])
    ensures forall i :: 0 <= i < |s| - |r| ==> IsTrimmable(s[i])
  {
    if |s| > 0 && IsTrimmable(s[0]) then TrimStart(s[1..]) else s
  }

  function TrimEnd(s: string): (r: string)
    ensures |r| <= |s| && r == s[..|r|]
    ensures |r| > 0 ==> !IsTrimmable(r[|r| - 1])
    ensures forall i :: |r| <= i < |s| ==> IsTrimmable(s[i])
  {
    if |s| > 0 && IsTrimmable(s[|s| - 1]) then TrimEnd(s[..|s| - 1]) else s
  }

  /** How many leading characters `String.trim` removes. */
  function TrimOffset(s: string): (k: nat)
    ensures k <= |s|
    ensures forall i :: 0 <= i < k ==> IsTrimmable(s[i])
  {
    |s| - |TrimStart(s)|
  }

  /** `String.trim`: the longest middle part of `s` that neither starts nor
      ends with a character up to U+0020; everything cut off on either side
      is such a character. */
  function Trim(s: string): (r: string)
    ensures TrimOffset(s) + |r| <= |s|
    ensures r == s[TrimOffset(s)..TrimOffset(s) + |r|]
    ensures |r| > 0 ==> !IsTrimmable(r[0]) && !IsTrimmable(r[|r| - 1])
    ensures forall i :: 0 <= i < TrimOffset(s) ==> IsTrimmable(s[i])
    ensures forall i :: TrimOffset(s) + |r| <= i < |s| ==> IsTrimmable(s[i])
  {
    TrimEnd(TrimStart(s))
  }

  /** Lowering never touches a character `trim` removes, and never produces one. */
  lemma LowerCharKeepsTrimmability(c: char)
    ensures IsTrimmable(LowerChar(c)) <==> IsTrimmable(c)
  {
  }

  lemma {:induction false} TrimStartCommutesWithLower(s: string)
    ensures TrimStart(ToLowerCase(s)) == ToLowerCase(TrimStart(s))
    decreases |s|
  {
    if |s| > 0 {
      LowerCharKeepsTrimmability(s[0]);
      if IsTrimmable(s[0]) {
        assert ToLowerCase(s)[1..] == ToLowerCase(s[1..]);
        TrimStartCommutesWithLower(s[1..]);
      }
    }
  }

  lemma {:induction false} TrimEndCommutesWithLower(s: string)
    ensures TrimEnd(ToLowerCase(s)) == ToLowerCase(TrimEnd(s))
    decreases |s|
  {
    if |s| > 0 {
      LowerCharKeepsTrimmability(s[|s| - 1]);
      if IsTrimmable(s[|s| - 1]) {
        assert ToLowerCase(s)[..|s| - 1] == ToLowerCase(s[..|s| - 1]);
        TrimEndCommutesWithLower(s[..|s| - 1]);
      }
    }
  }

  /** Trimming and ASCII lowering can be done in either order. */
  lemma TrimCommutesWithLower(s: string)
    ensures Trim(ToLowerCase(s)) == ToLowerCase(Trim(s))
  {
    TrimStartCommutesWithLower(s);
    TrimEndCommutesWithLower(TrimStart(s));
  }

  lemma TrimIsIdempotent(s: string)
    ensures Trim(Trim(s)) == Trim(s)
  {
  }

  lemma LowerIsIdempotent(s: string)
    ensures ToLowerCase(ToLowerCase(s)) == ToLowerCase(s)
  {
  }

  /** Separator-delimited pieces of `s`, empty pieces included; there is one
      more piece than there are separators. */
  function RawSplit(s: string, sep: char): (r: seq<string>)
    ensures |r| >= 1
    ensures forall i :: 0 <= i < |r| ==> sep !in r[i]
    ensures Join(r, sep) == s
    decreases |s|
  {
    if |s| == 0 then [""]
    else if s[0] == sep then [""] + RawSplit(s[1..], sep)
    else
      var rest := RawSplit(s[1..], sep);
      [[s[0]] + rest[0]] + rest[1..]
  }

  /** A separator-free string is a single piece. */
  lemma {:induction false} RawSplitWithoutSeparator(a: string, sep: char)
    requires sep !in a
    ensures RawSplit(a, sep) == [a]
    decreases |a|
  {
    if |a| > 0 {
      RawSplitWithoutSeparator(a[1..], sep);
      assert [a[0]] + a[1..] == a;
    }
  }

  /** The first piece ends at the first separator. */
  lemma {:induction false} RawSplitAtFirstSeparator(a: string, b: string, sep: char)
    requires sep !in a
    ensures RawSplit(a + [sep] + b, sep) == [a] + RawSplit(b, sep)
    decreases |a|
  {
    var s := a + [sep] + b;
    if |a| == 0 {
      assert s[1..] == b;
    } else {
      assert s[1..] == a[1..] + [sep] + b;
      RawSplitAtFirstSeparator(a[1..], b, sep);
      assert [a[0]] + a[1..] == a;
    }
  }

  /** The pieces joined back together with the separator between them. */
  function Join(pieces: seq<string>, sep: char): string
    requires |pieces| >= 1
    decreases |pieces|
  {
    if |pieces| == 1 then pieces[0] else pieces[0] + [sep] + Join(pieces[1..], sep)
  }

  function DropTrailingEmpty(pieces: seq<string>): (r: seq<string>)
    ensures |r| <= |pieces| && r == pieces[..|r|]
    ensures |r| > 0 ==> r[|r| - 1] != ""
    ensures forall i :: |r| <= i < |pieces| ==> pieces[i] == ""
  {
    if |pieces| > 0 && pieces[|pieces| - 1] == "" then DropTrailingEmpty(pieces[..|pieces| - 1])
    else pieces
  }

  /** `s.split(regex)` where the regex matches exactly the one character `sep`:
      with no match the result is `[s]` (even for the empty string); otherwise
      the pieces with trailing empty pieces discarded. */
  function Split(s: string, sep: char): (r: seq<string>)
    ensures sep !in s ==> r == [s]
    ensures sep in s ==> r == DropTrailingEmpty(RawSplit(s, sep))
    ensures forall i :: 0 <= i < |r| ==> sep !in r[i]
  {
    if sep !in s then [s] else DropTrailingEmpty(RawSplit(s, sep))
  }
}

=== FILE: line_items.dfy ===
/** The three-way reconciliation `updateCardDetails` applies to a card's
    translations and examples: delete the listed ids, update in place every
    DTO item that carries an id, insert every item that does not.

    A table of line items is a map from id to row plus the next id the
    database's identity column will hand out. */
module LineItems {
  import opened Wrappers

  type ItemId = nat
  type CardId = nat

  /** A translation or example row: the card it belongs to and its payload
      (the translation text, or the example with its translation). */
  datatype Row<T> = Row(card: CardId, payload: T)

  datatype LineStore<T> = LineStore(rows: map<ItemId, Row<T>>, nextId: ItemId)

  /** Every stored id was handed out by the identity column. */
  predicate Valid<T>(s: LineStore<T>) {
    forall k :: k in s.rows ==> k < s.nextId
  }

  /** One DTO item: a persisted identity or none, and the desired payload. */
  datatype LineItem<T> = LineItem(id: Option<ItemId>, payload: T)

  /** `getById` of an id with no row: the `EntityNotFoundException` the proxy
      raises once its fields are written. */
  datatype LineError = EntityNotFound(id: ItemId)

  /** `deleteById` for every listed id; an id with no row is ignored. */
  function DeleteIds<T>(s: LineStore<T>, ids: seq<ItemId>): (r: LineStore<T>)
    ensures r.nextId == s.nextId
    ensures r.rows.Keys == s.rows.Keys - (set i | i in ids)
    ensures forall k :: k in r.rows ==> r.rows[k] == s.rows[k]
    ensures Valid(s) ==> Valid(r)
  {
    s.(rows := s.rows - (set i | i in ids))
  }

  /** The payload of the LAST item carrying id `k`, if any. */
  function LastPayload<T>(items: seq<LineItem<T>>, k: ItemId): Option<T>
    decreases |items|
  {
    if |items| == 0 then None
    else
      var later := LastPayload(items[1..], k);
      if later.Some? then later
      else if items[0].id == Some(k) then Some(items[0].payload)
      else None
  }

  /** The payloads of the items without an id, in order. */
  function NewPayloads<T>(items: seq<LineItem<T>>): seq<T>
    decreases |items|
  {
    if |items| == 0 then []
    else if items[0].id.None? then [items[0].payload] + NewPayloads(items[1..])
    else NewPayloads(items[1..])
  }

  predicate IdsExist<T>(s: LineStore<T>, items: seq<LineItem<T>>) {
    forall i :: 0 <= i < |items| && items[i].id.Some? ==> items[i].id.value in s.rows
  }

  predicate IdsBelow<T>(items: seq<LineItem<T>>, bound: ItemId) {
    forall i :: 0 <= i < |items| && items[i].id.Some? ==> items[i].id.value < bound
  }

  /** `save` of an item that carries the id of an existing row: that row's
      payload is rewritten. */
  function UpdateRow<T>(s: LineStore<T>, id: ItemId, payload: T): LineStore<T>
    requires id in s.rows
  {
    s.(rows := s.rows[id := s.rows[id].(payload := payload)])
  }

  /** `save` of an item without an id: a new row of `card` under the next id
      the identity column hands out. */
  function InsertRow<T>(s: LineStore<T>, card: CardId, payload: T): LineStore<T> {
    LineStore(s.rows[s.nextId := Row(card, payload)], s.nextId + 1)
  }

  /** The DTO items processed in order: an item with an id rewrites that row's
      payload (failing if there is no such row), an item without one is saved
      as a new row of `card`. Its properties are the lemmas below. */
  function ApplyItems<T>(s: LineStore<T>, card: CardId, items: seq<LineItem<T>>): Result<LineStore<T>, LineError>
    decreases |items|
  {
    if |items| == 0 then Success(s)
    else
      match items[0].id
      case Some(id) =>
        if id !in s.rows then Failure(EntityNotFound(id))
        else ApplyItems(UpdateRow(s, id, items[0].payload), card, items[1..])
      case None =>
        ApplyItems(InsertRow(s, card, items[0].payload), card, items[1..])
  }

  lemma TailItems<T>(items: seq<LineItem<T>>)
    requires |items| > 0
    ensures forall i :: 0 <= i < |items[1..]| ==> items[1..][i] == items[i + 1]
  {
  }

  /** On success the table is still valid, the identity column has advanced
      by one per id-less item, and every row is an old one or a new one. */
  lemma {:induction false} ApplyItemsKeepsTableValid<T>(s: LineStore<T>, card: CardId, items: seq<LineItem<T>>)
    requires Valid(s) && ApplyItems(s, card, items).Success?
    ensures var r := ApplyItems(s, card, items).value;
      && Valid(r)
      && r.nextId == s.nextId + |NewPayloads(items)|
      && forall k :: k in r.rows ==> k in s.rows || s.nextId <= k
    decreases |items|
  {
    if |items| > 0 {
      match items[0].id
      case Some(id) =>
        ApplyItemsKeepsTableValid(UpdateRow(s, id, items[0].payload), card, items[1..]);
      case None =>
        ApplyItemsKeepsTableValid(InsertRow(s, card, items[0].payload), card, items[1..]);
    }
  }

  /** When every item's id names an existing row the call succeeds: rows
      are never removed, so later items still find theirs. */
  lemma {:induction false} ApplyItemsSucceedsWhenIdsExist<T>(s: LineStore<T>, card: CardId, items: seq<LineItem<T>>)
    requires IdsExist(s, items)
    ensures ApplyItems(s, card, items).Success?
    decreases |items|
  {
    if |items| > 0 {
      TailItems(items);
      match items[0].id
      case Some(id) =>
        ApplyItemsSucceedsWhenIdsExist(UpdateRow(s, id, items[0].payload), card, items[1..]);
      case None =>
        ApplyItemsSucceedsWhenIdsExist(InsertRow(s, card, items[0].payload), card, items[1..]);
    }
  }

  /** An item naming an id below the identity column's counter that has no
      row fails the call: no insertion can create that id. */
  lemma {:induction false} ApplyItemsFailsOnMissingOldId<T>(s: LineStore<T>, card: CardId, items: seq<LineItem<T>>)
    requires Valid(s) && IdsBelow(items, s.nextId) && !IdsExist(s, items)
    ensures ApplyItems(s, card, items).Failure?
    decreases |items|
  {
    TailItems(items);
    var i :| 0 <= i < |items| && items[i].id.Some? && items[i].id.value !in s.rows;
    match items[0].id
    case Some(id) =>
      if id in s.rows {
        assert !IdsExist(UpdateRow(s, id, items[0].payload), items[1..]) by {
          assert items[1..][i - 1] == items[i];
        }
        ApplyItemsFailsOnMissingOldId(UpdateRow(s, id, items[0].payload), card, items[1..]);
      }
    case None =>
      assert !IdsExist(InsertRow(s, card, items[0].payload), items[1..]) by {
        assert items[1..][i - 1] == items[i];
      }
      ApplyItemsFailsOnMissingOldId(InsertRow(s, card, items[0].payload), card, items[1..]);
  }

  /** A failure names the id of one of the items, and the table had no row
      with that id. */
  lemma {:induction false} ApplyItemsFailureNamesMissingId<T>(s: LineStore<T>, card: CardId, items: seq<LineItem<T>>)
    requires Valid(s) && ApplyItems(s, card, items).Failure?
    ensures var e := ApplyItems(s, card, items).error;
      exists i :: 0 <= i < |items| && items[i].id == Some(e.id) && e.id !in s.rows
    decreases |items|
  {
    TailItems(items);
    var e := ApplyItems(s, card, items).error;
    match items[0].id
    case Some(id) =>
      if id in s.rows {
        ApplyItemsFailureNamesMissingId(UpdateRow(s, id, items[0].payload), card, items[1..]);
        var i :| 0 <= i < |items[1..]| && items[1..][i].id == Some(e.id) && e.id !in s.rows;
        assert items[i + 1].id == Some(e.id);
      } else {
        assert items[0].id == Some(e.id);
      }
    case None =>
      var s' := InsertRow(s, card, items[0].payload);
      ApplyItemsFailureNamesMissingId(s', card, items[1..]);
      var i :| 0 <= i < |items[1..]| && items[1..][i].id == Some(e.id) && e.id !in s'.rows;
      assert items[i + 1].id == Some(e.id);
  }

  /** The call succeeds exactly when every item's id names an existing row,
      for items that name only ids the identity column has handed out. */
  lemma ApplyItemsSucceedsIffIdsExist<T>(s: LineStore<T>, card: CardId, items: seq<LineItem<T>>)
    requires Valid(s) && IdsBelow(items, s.nextId)
    ensures ApplyItems(s, card, items).Success? <==> IdsExist(s, items)
  {
    if IdsExist(s, items) {
      ApplyItemsSucceedsWhenIdsExist(s, card, items);
    } else {
      ApplyItemsFailsOnMissingOldId(s, card, items);
    }
  }

  /** What a successful reconcile of `items` into `s` leaves in `r`: every
      old row keeps its card and ends with the payload of the last item
      naming it (its old payload if none does); the identity column hands out
      one new row of `card` per id-less item, holding those items' payloads
      in order when no item names a fresh id; and there is no other row. */
  ghost predicate Reconciled<T>(s: LineStore<T>, card: CardId, items: seq<LineItem<T>>, r: LineStore<T>) {
    && (forall k :: k in s.rows ==>
          && k in r.rows
          && r.rows[k].card == s.rows[k].card
          && r.rows[k].payload == LastPayload(items, k).GetOr(s.rows[k].payload))
    && r.nextId == s.nextId + |NewPayloads(items)|
    && (forall k :: s.nextId <= k < r.nextId ==> k in r.rows && r.rows[k].card == card)
    && (IdsBelow(items, s.nextId) ==>
          forall k :: s.nextId <= k < r.nextId ==> k in r.rows && r.rows[k].payload == NewPayloads(items)[k - s.nextId])
    && (forall k :: k in r.rows ==> k in s.rows || s.nextId <= k < r.nextId)
  }

  /** A successful call updates, inserts and keeps rows as `Reconciled` says. */
  lemma ApplyItemsReconciles<T>(s: LineStore<T>, card: CardId, items: seq<LineItem<T>>)
    requires Valid(s) && ApplyItems(s, card, items).Success?
    ensures Reconciled(s, card, items, ApplyItems(s, card, items).value)
  {
    ApplyItemsKeepsTableValid(s, card, items);
    ApplyItemsUpdatesExistingRows(s, card, items);
    ApplyItemsBindsNewRowsToCard(s, card, items);
    if IdsBelow(items, s.nextId) {
      ApplyItemsInsertsNewPayloadsInOrder(s, card, items);
    }
  }

  /** The outcome of one call in one place: success when every id exists,
      a missing id named on failure, and on success a valid table whose
      rows are old ones or new ones. */
  lemma ApplyItemsOutcome<T>(s: LineStore<T>, card: CardId, items: seq<LineItem<T>>)
    requires Valid(s)
    ensures IdsExist(s, items) ==> ApplyItems(s, card, items).Success?
    ensures ApplyItems(s, card, items).Failure? ==>
              exists i :: 0 <= i < |items| && items[i].id == Some(ApplyItems(s, card, items).error.id)
                          && ApplyItems(s, card, items).error.id !in s.rows
    ensures ApplyItems(s, card, items).Success? ==> Valid(ApplyItems(s, card, items).value)
    ensures ApplyItems(s, card, items).Success? ==>
              forall k :: k in ApplyItems(s, card, items).value.rows ==> k in s.rows || s.nextId <= k
    ensures ApplyItems(s, card, items).Success? ==> Reconciled(s, card, items, ApplyItems(s, card, items).value)
    ensures IdsBelow(items, s.nextId) ==> (ApplyItems(s, card, items).Success? <==> IdsExist(s, items))
  {
    if IdsBelow(items, s.nextId) {
      ApplyItemsSucceedsIffIdsExist(s, card, items);
    }
    if IdsExist(s, items) {
      ApplyItemsSucceedsWhenIdsExist(s, card, items);
    }
    if ApplyItems(s, card, items).Failure? {
      ApplyItemsFailureNamesMissingId(s, card, items);
    } else {
      ApplyItemsKeepsTableValid(s, card, items);
      ApplyItemsReconciles(s, card, items);
    }
  }

  /** Every row that existed keeps its card and ends with the payload of the
      last item naming it, or its old payload if none does; nothing is deleted. */
  lemma {:induction false} ApplyItemsUpdatesExistingRows<T>(s: LineStore<T>, card: CardId, items: seq<LineItem<T>>)
    requires Valid(s) && ApplyItems(s, card, items).Success?
    ensures forall k :: k in s.rows ==>
              && k in ApplyItems(s, card, items).value.rows
              && ApplyItems(s, card, items).value.rows[k].card == s.rows[k].card
              && ApplyItems(s, card, items).value.rows[k].payload == LastPayload(items, k).GetOr(s.rows[k].payload)
    decreases |items|
  {
    if |items| > 0 {
      var item := items[0];
      match item.id
      case Some(id) =>
        ApplyItemsUpdatesExistingRows(UpdateRow(s, id, item.payload), card, items[1..]);
      case None =>
        ApplyItemsUpdatesExistingRows(InsertRow(s, card, item.payload), card, items[1..]);
    }
  }

  /** Every id the identity column handed out during the call is a row of
      `card`. */
  lemma {:induction false} ApplyItemsBindsNewRowsToCard<T>(s: LineStore<T>, card: CardId, items: seq<LineItem<T>>)
    requires Valid(s) && ApplyItems(s, card, items).Success?
    ensures forall k :: s.nextId <= k < ApplyItems(s, card, items).value.nextId ==>
              k in ApplyItems(s, card, items).value.rows && ApplyItems(s, card, items).value.rows[k].card == card
    decreases |items|
  {
    if |items| > 0 {
      var item := items[0];
      match item.id
      case Some(id) =>
        ApplyItemsBindsNewRowsToCard(UpdateRow(s, id, item.payload), card, items[1..]);
      case None =>
        var s' := InsertRow(s, card, item.payload);
        ApplyItemsBindsNewRowsToCard(s', card, items[1..]);
        ApplyItemsUpdatesExistingRows(s', card, items[1..]);
    }
  }

  /** When no item names a fresh id, the new rows hold the id-less items'
      payloads in item order: the row with id `nextId + j` holds the `j`-th. */
  lemma {:induction false} ApplyItemsInsertsNewPayloadsInOrder<T>(s: LineStore<T>, card: CardId, items: seq<LineItem<T>>)
    requires Valid(s) && ApplyItems(s, card, items).Success? && IdsBelow(items, s.nextId)
    ensures var r := ApplyItems(s, card, items).value;
      forall k :: s.nextId <= k < s.nextId + |NewPayloads(items)| ==>
        k in r.rows && r.rows[k].payload == NewPayloads(items)[k - s.nextId]
    decreases |items|
  {
    if |items| > 0 {
      var item := items[0];
      var rest := items[1..];
      TailItems(items);
      var r := ApplyItems(s, card, items).value;
      match item.id
      case Some(id) =>
        var s' := UpdateRow(s, id, item.payload);
        ApplyItemsInsertsNewPayloadsInOrder(s', card, rest);
        assert NewPayloads(items) == NewPayloads(rest);
      case None =>
        var s' := InsertRow(s, card, item.payload);
        assert IdsBelow(rest, s.nextId);
        ApplyItemsInsertsNewPayloadsInOrder(s', card, rest);
        ApplyItemsUpdatesExistingRows(s', card, rest);
        LastPayloadOfUnnamedId(rest, s.nextId);
        assert NewPayloads(items) == [item.payload] + NewPayloads(rest);
        forall k | s.nextId <= k < s.nextId + |NewPayloads(items)|
          ensures k in r.rows && r.rows[k].payload == NewPayloads(items)[k - s.nextId]
        {
          if k == s.nextId {
            assert s'.rows[k].payload == item.payload;
          } else {
            assert NewPayloads(items)[k - s.nextId] == NewPayloads(rest)[k - s'.nextId];
          }
        }
    }
  }

  /** No item names `k`, so no payload is recorded for it. */
  lemma {:induction false} LastPayloadOfUnnamedId<T>(items: seq<LineItem<T>>, k: ItemId)
    requires forall i :: 0 <= i < |items| && items[i].id.Some? ==> items[i].id.value != k
    ensures LastPayload(items, k).None?
    decreases |items|
  {
    if |items| > 0 {
      TailItems(items);
      LastPayloadOfUnnamedId(items[1..], k);
    }
  }

  /** A DTO in which every item carries the id of an existing row reaches a
      fixed point in one application: applying it again changes nothing. */
  lemma ApplyItemsIdempotentWithoutNewItems<T>(s: LineStore<T>, card: CardId, items: seq<LineItem<T>>)
    requires Valid(s) && IdsExist(s, items) && |NewPayloads(items)| == 0
    ensures ApplyItems(s, card, items).Success?
    ensures IdsExist(ApplyItems(s, card, items).value, items)
    ensures ApplyItems(ApplyItems(s, card, items).value, card, items) == ApplyItems(s, card, items)
  {
    ApplyItemsSucceedsWhenIdsExist(s, card, items);
    ApplyItemsKeepsTableValid(s, card, items);
    var once := ApplyItems(s, card, items).value;
    ApplyItemsUpdatesExistingRows(s, card, items);
    assert once.rows.Keys == s.rows.Keys;
    ApplyItemsSucceedsWhenIdsExist(once, card, items);
    ApplyItemsKeepsTableValid(once, card, items);
    var twice := ApplyItems(once, card, items).value;
    ApplyItemsUpdatesExistingRows(once, card, items);
    assert twice.rows.Keys == once.rows.Keys;
    forall k | k in twice.rows
      ensures twice.rows[k] == once.rows[k]
    {
      assert k in s.rows;
    }
    assert twice.rows == once.rows;
  }

  /** Items without an id are inserted again on every application, so a DTO
      with a new item does NOT reach a fixed point. */
  lemma ApplyItemsReinsertsNewItems<T>(s: LineStore<T>, card: CardId, items: seq<LineItem<T>>)
    requires Valid(s) && IdsExist(s, items) && |NewPayloads(items)| > 0
    ensures ApplyItems(s, card, items).Success?
    ensures IdsExist(ApplyItems(s, card, items).value, items)
    ensures ApplyItems(ApplyItems(s, card, items).value, card, items).Success?
    ensures ApplyItems(ApplyItems(s, card, items).value, card, items).value.nextId
            == ApplyItems(s, card, items).value.nextId + |NewPayloads(items)|
    ensures ApplyItems(ApplyItems(s, card, items).value, card, items) != ApplyItems(s, card, items)
  {
    ApplyItemsSucceedsWhenIdsExist(s, card, items);
    ApplyItemsKeepsTableValid(s, card, items);
    var once := ApplyItems(s, card, items).value;
    ApplyItemsUpdatesExistingRows(s, card, items);
    assert IdsExist(once, items);
    ApplyItemsSucceedsWhenIdsExist(once, card, items);
    ApplyItemsKeepsTableValid(once, card, items);
  }
}

=== FILE: local_auth.dfy ===
/** Local (email and password) accounts: registration, login, e-mail
    verification and password reset through single-use verification tokens.

    The service implementation is not part of this model; each operation
    does what its unit tests require of it, and the collaborators the tests
    mock are parameters: the password encoder (`encode`), the outcome of the
    authentication manager (`credentialsOk`), the JWT provider's token
    (`jwt`), the generated token text (`newToken`) and its expiry instant. */
module LocalAuth {
  import opened Wrappers

  type Email = string
  type Instant = int

  datatype Principal = Principal(email: Email, password: string, verified: bool)

  /** A verification token names the principal it was issued for. */
  datatype VerificationToken = VerificationToken(principal: Email, expiry: Instant)

  datatype Mail = Mail(to: Email, token: string)

  datatype AuthDb = AuthDb(
    users: set<Email>,
    principals: map<Email, Principal>,
    tokens: map<string, VerificationToken>,
    outbox: seq<Mail>,
    streakUpdates: seq<Email>)

  /** Every principal belongs to a user and is stored under its own email,
      and every token names a stored principal. */
  predicate Valid(db: AuthDb) {
    && (forall e :: e in db.principals ==> e in db.users && db.principals[e].email == e)
    && (forall t :: t in db.tokens ==> db.tokens[t].principal in db.principals)
  }

  const INVALID_TOKEN_MESSAGE := "Invalid verification token"
  const EXPIRED_TOKEN_MESSAGE := "Verification token has expired"
  const EMAIL_NOT_VERIFIED_MESSAGE := "Email needs to be verified before logging in."
  const INVALID_EMAIL_MESSAGE := "Invalid email"

  datatype AuthError =
    | UserAlreadyExists
    | BadCredentials
    | EmailNotVerified(message: string)
    | InvalidToken(message: string)
    | EmailNotFound(message: string)

  /** The database after a call and what the call returned or threw: an
      expired token is deleted even though the call throws. */
  datatype Step<T> = Step(db: AuthDb, result: Result<T, AuthError>)

  predicate Expired(t: VerificationToken, now: Instant) {
    t.expiry < now
  }

  /** `createAndSendVerificationToken`: store the token and mail it. */
  function IssueToken(db: AuthDb, email: Email, newToken: string, expiry: Instant): (r: AuthDb)
    requires email in db.principals
    ensures r.tokens == db.tokens[newToken := VerificationToken(email, expiry)]
    ensures r.outbox == db.outbox + [Mail(email, newToken)]
    ensures r.users == db.users && r.principals == db.principals && r.streakUpdates == db.streakUpdates
    ensures Valid(db) ==> Valid(r)
  {
    db.(tokens := db.tokens[newToken := VerificationToken(email, expiry)],
        outbox := db.outbox + [Mail(email, newToken)])
  }

  // ---------------------------------------------------------------- register

  /** `register`: an e-mail already in use is refused before anything is
      saved; otherwise the user and an unverified local principal with the
      encoded password are saved and a verification token is sent. */
  function Register(db: AuthDb, email: Email, password: string, encode: string -> string,
                    newToken: string, expiry: Instant): (r: Step<()>)
    ensures email in db.users ==> r == Step(db, Failure(UserAlreadyExists))
    ensures email !in db.users ==>
              && r.result.Success?
              && r.db.users == db.users + {email}
              && r.db.principals == db.principals[email := Principal(email, encode(password), false)]
              && r.db.tokens == db.tokens[newToken := VerificationToken(email, expiry)]
              && r.db.outbox == db.outbox + [Mail(email, newToken)]
              && r.db.streakUpdates == db.streakUpdates
    ensures Valid(db) ==> Valid(r.db)
  {
    if email in db.users then Step(db, Failure(UserAlreadyExists))
    else
      var saved := db.(users := db.users + {email},
                       principals := db.principals[email := Principal(email, encode(password), false)]);
      Step(IssueToken(saved, email, newToken, expiry), Success(()))
  }

  // ------------------------------------------------------------------- login

  /** `login`: failed authentication throws; an unverified principal throws
      without touching the streak; otherwise the login streak is updated and
      the provider's JWT is returned. */
  function Login(db: AuthDb, email: Email, credentialsOk: bool, jwt: string): (r: Step<string>)
    ensures !credentialsOk || email !in db.principals ==> r == Step(db, Failure(BadCredentials))
    ensures credentialsOk && email in db.principals && !db.principals[email].verified ==>
              r == Step(db, Failure(EmailNotVerified(EMAIL_NOT_VERIFIED_MESSAGE)))
    ensures r.result.Success? <==> credentialsOk && email in db.principals && db.principals[email].verified
    ensures r.result.Success? ==> r.result.value == jwt && r.db == db.(streakUpdates := db.streakUpdates + [email])
    ensures r.result.Failure? ==> r.db == db
  {
    if !credentialsOk || email !in db.principals then Step(db, Failure(BadCredentials))
    else if !db.principals[email].verified then Step(db, Failure(EmailNotVerified(EMAIL_NOT_VERIFIED_MESSAGE)))
    else Step(db.(streakUpdates := db.streakUpdates + [email]), Success(jwt))
  }

  // ------------------------------------------------------------- verifyEmail

  /** `verifyEmail`: an unknown token throws and deletes nothing; an expired
      token is deleted and then throws, the principal unsaved; a valid token
      marks its principal verified and is deleted. */
  function VerifyEmail(db: AuthDb, token: string, now: Instant): (r: Step<()>)
    requires Valid(db)
    ensures Valid(r.db)
    ensures token !in db.tokens ==> r == Step(db, Failure(InvalidToken(INVALID_TOKEN_MESSAGE)))
    ensures token in db.tokens && Expired(db.tokens[token], now) ==>
              r == Step(db.(tokens := db.tokens - {token}), Failure(InvalidToken(EXPIRED_TOKEN_MESSAGE)))
    ensures r.result.Success? <==> token in db.tokens && !Expired(db.tokens[token], now)
    ensures r.result.Success? ==>
              var e := db.tokens[token].principal;
              && r.db.principals == db.principals[e := db.principals[e].(verified := true)]
              && r.db.tokens == db.tokens - {token}
              && r.db.users == db.users && r.db.outbox == db.outbox && r.db.streakUpdates == db.streakUpdates
    ensures token !in r.db.tokens
  {
    if token !in db.tokens then Step(db, Failure(InvalidToken(INVALID_TOKEN_MESSAGE)))
    else
      var t := db.tokens[token];
      if Expired(t, now) then Step(db.(tokens := db.tokens - {token}), Failure(InvalidToken(EXPIRED_TOKEN_MESSAGE)))
      else
        var p := db.principals[t.principal];
        Step(db.(principals := db.principals[t.principal := p.(verified := true)],
                 tokens := db.tokens - {token}), Success(()))
  }

  // ---------------------------------------------------- requestPasswordReset

  /** `requestPasswordReset`: an unknown e-mail throws and sends nothing; a
      known one is sent a fresh token. */
  function RequestPasswordReset(db: AuthDb, email: Email, newToken: string, expiry: Instant): (r: Step<()>)
    requires Valid(db)
    ensures Valid(r.db)
    ensures email !in db.principals ==> r == Step(db, Failure(EmailNotFound(INVALID_EMAIL_MESSAGE)))
    ensures email in db.principals ==> r == Step(IssueToken(db, email, newToken, expiry), Success(()))
  {
    if email !in db.principals then Step(db, Failure(EmailNotFound(INVALID_EMAIL_MESSAGE)))
    else Step(IssueToken(db, email, newToken, expiry), Success(()))
  }

  // ----------------------------------------------------------- resetPassword

  /** `resetPassword`: an unknown token changes nothing; an expired token is
      deleted and then throws; a valid token sets its principal's password to
      the encoded new password and is deleted. */
  function ResetPassword(db: AuthDb, token: string, newPassword: string, encode: string -> string, now: Instant): (r: Step<()>)
    requires Valid(db)
    ensures Valid(r.db)
    ensures token !in db.tokens ==> r == Step(db, Failure(InvalidToken(INVALID_TOKEN_MESSAGE)))
    ensures token in db.tokens && Expired(db.tokens[token], now) ==>
              r == Step(db.(tokens := db.tokens - {token}), Failure(InvalidToken(EXPIRED_TOKEN_MESSAGE)))
    ensures r.result.Success? <==> token in db.tokens && !Expired(db.tokens[token], now)
    ensures r.result.Success? ==>
              var e := db.tokens[token].principal;
              && r.db.principals == db.principals[e := db.principals[e].(password := encode(newPassword))]
              && r.db.tokens == db.tokens - {token}
              && r.db.users == db.users && r.db.outbox == db.outbox && r.db.streakUpdates == db.streakUpdates
    ensures token !in r.db.tokens
  {
    if token !in db.tokens then Step(db, Failure(InvalidToken(INVALID_TOKEN_MESSAGE)))
    else
      var t := db.tokens[token];
      if Expired(t, now) then Step(db.(tokens := db.tokens - {token}), Failure(InvalidToken(EXPIRED_TOKEN_MESSAGE)))
      else
        var p := db.principals[t.principal];
        Step(db.(principals := db.principals[t.principal := p.(password := encode(newPassword))],
                 tokens := db.tokens - {token}), Success(()))
  }

  // --------------------------------------------------------- across calls

  /** A token works once: verifying with it again reports an invalid token. */
  lemma VerificationTokenIsSingleUse(db: AuthDb, token: string, now: Instant, later: Instant)
    requires Valid(db)
    ensures VerifyEmail(VerifyEmail(db, token, now).db, token, later).result
         == Failure(InvalidToken(INVALID_TOKEN_MESSAGE))
    ensures ResetPassword(VerifyEmail(db, token, now).db, token, "", (s: string) => s, later).result
         == Failure(InvalidToken(INVALID_TOKEN_MESSAGE))
  {
  }

  /** A freshly registered account cannot log in until the mailed token has
      been used in time; after that the same credentials log in. */
  lemma RegisterVerifyLogin(db: AuthDb, email: Email, password: string, encode: string -> string,
                            newToken: string, expiry: Instant, now: Instant, jwt: string)
    requires Valid(db) && email !in db.users && now <= expiry
    ensures var registered := Register(db, email, password, encode, newToken, expiry).db;
      && Login(registered, email, true, jwt).result == Failure(EmailNotVerified(EMAIL_NOT_VERIFIED_MESSAGE))
      && VerifyEmail(registered, newToken, now).result.Success?
      && Login(VerifyEmail(registered, newToken, now).db, email, true, jwt).result == Success(jwt)
  {
  }

  /** A token used after its expiry leaves the account unverified. */
  lemma ExpiredTokenLeavesAccountUnverified(db: AuthDb, email: Email, password: string, encode: string -> string,
                                            newToken: string, expiry: Instant, now: Instant, jwt: string)
    requires Valid(db) && email !in db.users && expiry < now
    ensures var registered := Register(db, email, password, encode, newToken, expiry).db;
      && VerifyEmail(registered, newToken, now).result == Failure(InvalidToken(EXPIRED_TOKEN_MESSAGE))
      && Login(VerifyEmail(registered, newToken, now).db, email, true, jwt).result
         == Failure(EmailNotVerified(EMAIL_NOT_VERIFIED_MESSAGE))
  {
  }

  /** The mailed reset token completes the reset: used in time, it sets the
      account's password to the encoded new one and is then spent. */
  lemma ResetRequestThenResetSetsPassword(db: AuthDb, email: Email, newToken: string, expiry: Instant,
                                          newPassword: string, encode: string -> string, now: Instant)
    requires Valid(db) && email in db.principals && now <= expiry
    ensures RequestPasswordReset(db, email, newToken, expiry).result.Success?
    ensures var reset := ResetPassword(RequestPasswordReset(db, email, newToken, expiry).db, newToken, newPassword, encode, now);
      && reset.result.Success?
      && email in reset.db.principals
      && reset.db.principals[email].password == encode(newPassword)
      && reset.db.principals[email].verified == db.principals[email].verified
      && ResetPassword(reset.db, newToken, newPassword, encode, now).result == Failure(InvalidToken(INVALID_TOKEN_MESSAGE))
  {
  }
}

=== FILE: oauth_user_info.dfy ===
/** The attribute map an OAuth2 provider returns, the getters that read it
    and the factory that picks the provider's reader. */
module OAuthUserInfo {
  import opened Wrappers
  import JavaLang

  /** A JSON-like attribute value: a string, a nested map, Java's `null`, or
      anything else (numbers, booleans, lists). */
  datatype Value = Str(s: string) | Obj(fields: map<string, Value>) | Null | OtherValue

  type Attributes = map<string, Value>

  /** `Map.get`: a missing key reads as `null`. */
  function Get(attributes: Attributes, key: string): Value {
    if key in attributes then attributes[key] else Null
  }

  /** `getStringAttribute`: the value under the key when it is a string,
      `null` (None) otherwise, a missing key included. */
  function GetStringAttribute(attributes: Attributes, name: string): (r: Option<string>)
    ensures r.Some? <==> name in attributes && attributes[name].Str?
    ensures r.Some? ==> r.value == attributes[name].s
  {
    match Get(attributes, name)
    case Str(s) => Some(s)
    case _ => None
  }

  /** The loop of `getNestedStringAttribute`: each segment descends into the
      current map; reaching a segment while the current value is not a map
      returns `null` at once (None). */
  function Walk(current: Value, path: seq<string>): (r: Option<Value>)
    ensures |path| > 0 && !current.Obj? ==> r == None
    ensures |path| == 0 ==> r == Some(current)
    decreases |path|
  {
    if |path| == 0 then Some(current)
    else match current
      case Obj(fields) => Walk(Get(fields, path[0]), path[1..])
      case _ => None
  }

  /** `getNestedStringAttribute`: split the name at every '.', walk the
      segments from the attribute map, and keep the final value only if it is
      a string. */
  function GetNestedStringAttribute(attributes: Attributes, nestedName: string): (r: Option<string>)
    ensures var end := Walk(Obj(attributes), JavaLang.Split(nestedName, '.'));
      r.Some? <==> end.Some? && end.value.Str?
    ensures r.Some? ==> Walk(Obj(attributes), JavaLang.Split(nestedName, '.')) == Some(Str(r.value))
  {
    match Walk(Obj(attributes), JavaLang.Split(nestedName, '.'))
    case Some(Str(s)) => Some(s)
    case _ => None
  }

  /** Walking a path in two parts is walking the first part and then the
      second from wherever the first ended: the segments are followed left
      to right. */
  lemma {:induction false} WalkConcat(current: Value, p: seq<string>, q: seq<string>)
    ensures Walk(current, p + q) == (match Walk(current, p) case Some(v) => Walk(v, q) case None => None)
    decreases |p|
  {
    if |p| == 0 {
      assert p + q == q;
    } else {
      assert (p + q)[0] == p[0] && (p + q)[1..] == p[1..] + q;
      if current.Obj? {
        WalkConcat(Get(current.fields, p[0]), p[1..], q);
      }
    }
  }

  /** A name with no '.' is one segment, so the nested lookup is the plain
      one. */
  lemma NestedWithoutDotIsPlain(attributes: Attributes, name: string)
    requires '.' !in name
    ensures GetNestedStringAttribute(attributes, name) == GetStringAttribute(attributes, name)
  {
    assert JavaLang.Split(name, '.') == [name];
    assert Walk(Obj(attributes), [name]) == Walk(Get(attributes, name), []);
  }

  /** When the walk meets a value that is not a map before the last segment,
      whatever follows, the nested lookup is `null`. */
  lemma NonMapIntermediateGivesNull(attributes: Attributes, nestedName: string, k: nat)
    requires var path := JavaLang.Split(nestedName, '.');
      && k < |path|
      && var reached := Walk(Obj(attributes), path[..k]);
         reached.Some? && !reached.value.Obj?
    ensures GetNestedStringAttribute(attributes, nestedName).None?
  {
    var path := JavaLang.Split(nestedName, '.');
    assert path == path[..k] + path[k..];
    WalkConcat(Obj(attributes), path[..k], path[k..]);
  }

  // ------------------------------------------------------------- Facebook

  /** The profile fields every provider's user info answers. */
  datatype Profile = Profile(id: Option<string>, name: Option<string>, firstName: Option<string>,
                             lastName: Option<string>, email: Option<string>, imageUrl: Option<string>)

  predicate HasString(attributes: Attributes, key: string, field: Option<string>) {
    && (field.Some? <==> key in attributes && attributes[key].Str?)
    && (field.Some? ==> field.value == attributes[key].s)
  }

  const FACEBOOK_IMAGE_URL_PATH := "picture.data.url"

  /** `FacebookOAuth2UserInfo`: each getter reads its own top-level key; the
      image URL sits three maps deep. */
  function FacebookProfile(attributes: Attributes): (r: Profile)
    ensures HasString(attributes, "id", r.id)
    ensures HasString(attributes, "name", r.name)
    ensures HasString(attributes, "first_name", r.firstName)
    ensures HasString(attributes, "last_name", r.lastName)
    ensures HasString(attributes, "email", r.email)
    ensures r.imageUrl == GetNestedStringAttribute(attributes, FACEBOOK_IMAGE_URL_PATH)
  {
    Profile(GetStringAttribute(attributes, "id"), GetStringAttribute(attributes, "name"),
            GetStringAttribute(attributes, "first_name"), GetStringAttribute(attributes, "last_name"),
            GetStringAttribute(attributes, "email"),
            GetNestedStringAttribute(attributes, FACEBOOK_IMAGE_URL_PATH))
  }

  lemma FacebookImagePathPieces()
    ensures JavaLang.RawSplit(FACEBOOK_IMAGE_URL_PATH, '.') == ["picture", "data", "url"]
  {
    var tail := "data" + ['.'] + "url";
    assert FACEBOOK_IMAGE_URL_PATH == "picture" + ['.'] + tail;
    JavaLang.RawSplitWithoutSeparator("url", '.');
    JavaLang.RawSplitAtFirstSeparator("data", "url", '.');
    JavaLang.RawSplitAtFirstSeparator("picture", tail, '.');
  }

  lemma FacebookImagePathSegments()
    ensures JavaLang.Split(FACEBOOK_IMAGE_URL_PATH, '.') == ["picture", "data", "url"]
  {
    FacebookImagePathPieces();
    var pieces := JavaLang.RawSplit(FACEBOOK_IMAGE_URL_PATH, '.');
    assert '.' in FACEBOOK_IMAGE_URL_PATH by {
      assert FACEBOOK_IMAGE_URL_PATH[7] == '.';
    }
    assert JavaLang.DropTrailingEmpty(pieces) == pieces by {
      assert pieces[|pieces| - 1] != "";
    }
  }

  /** The image URL is the string at `picture` / `data` / `url`, and is
      `null` as soon as `picture` or `data` is not a map. */
  lemma FacebookImageUrlIsNested(attributes: Attributes)
    ensures FacebookProfile(attributes).imageUrl.Some? <==>
              && "picture" in attributes && attributes["picture"].Obj?
              && "data" in attributes["picture"].fields && attributes["picture"].fields["data"].Obj?
              && "url" in attributes["picture"].fields["data"].fields
              && attributes["picture"].fields["data"].fields["url"].Str?
    ensures FacebookProfile(attributes).imageUrl.Some? ==>
              FacebookProfile(attributes).imageUrl.value == attributes["picture"].fields["data"].fields["url"].s
  {
    FacebookImagePathSegments();
    var path := ["picture", "data", "url"];
    var picture := Get(attributes, "picture");
    assert Walk(Obj(attributes), path) == Walk(picture, path[1..]);
    if picture.Obj? {
      var data := Get(picture.fields, "data");
      assert Walk(picture, path[1..]) == Walk(data, path[2..]);
      if data.Obj? {
        assert Walk(data, path[2..]) == Walk(Get(data.fields, "url"), []);
      }
    }
  }

  // -------------------------------------------------------------- factory

  /** The provider enum: the two providers the factory knows and any other
      constant, by its name. */
  datatype AuthProviderType = Google | Facebook | Unlisted(name: string)

  function ProviderName(p: AuthProviderType): string {
    match p
    case Google => "GOOGLE"
    case Facebook => "FACEBOOK"
    case Unlisted(name) => name
  }

  /** Which reader the factory built, and the attributes it was given. */
  datatype UserInfoKind = GoogleUserInfo | FacebookUserInfo
  datatype UserInfo = UserInfo(kind: UserInfoKind, attributes: Attributes)

  datatype OAuth2AuthenticationError = OAuth2AuthenticationError(message: string)

  function UnsupportedMessage(p: AuthProviderType): string {
    "Sorry! Login with " + ProviderName(p) + " is not supported yet."
  }

  /** `getOAuth2UserInfo`: look the provider up in the strategy table; a
      provider without an entry fails with the unsupported-provider message;
      the chosen reader gets the attribute map unchanged. */
  function GetOAuth2UserInfo(provider: AuthProviderType, attributes: Attributes): (r: Result<UserInfo, OAuth2AuthenticationError>)
    ensures provider == Google ==> r == Success(UserInfo(GoogleUserInfo, attributes))
    ensures provider == Facebook ==> r == Success(UserInfo(FacebookUserInfo, attributes))
    ensures r.Success? <==> !provider.Unlisted?
    ensures r.Success? ==> r.value.attributes == attributes
    ensures r.Failure? ==> r.error.message == "Sorry! Login with " + provider.name + " is not supported yet."
  {
    match provider
    case Google => Success(UserInfo(GoogleUserInfo, attributes))
    case Facebook => Success(UserInfo(FacebookUserInfo, attributes))
    case Unlisted(_) => Failure(OAuth2AuthenticationError(UnsupportedMessage(provider)))
  }

  /** The Facebook reader the factory builds reads the attributes it was
      handed. */
  lemma FactoryFacebookReadsGivenAttributes(attributes: Attributes)
    ensures GetOAuth2UserInfo(Facebook, attributes).Success?
    ensures FacebookProfile(GetOAuth2UserInfo(Facebook, attributes).value.attributes) == FacebookProfile(attributes)
  {
  }
}

=== FILE: otp.dfy ===
/** `SecureRandomTokenGeneratorImpl.generateOTP`: a code of `length` decimal
    digits, one per call of `nextInt(10)`. The random source is the sequence
    `draws` of the values those calls return. */
module Otp {

  predicate IsDigit(c: char) {
    '0' <= c <= '9'
  }

  /** `StringBuilder.append(int)` of a value in [0, 10): its one digit. */
  function DigitChar(d: int): (c: char)
    requires 0 <= d < 10
    ensures IsDigit(c)
    ensures c as int - '0' as int == d
  {
    ('0' as int + d) as char
  }

  function Max0(n: int): nat {
    if n < 0 then 0 else n
  }

  /** The loop appends one digit per iteration, so after `i` iterations the
      builder holds the first `i` draws. */
  method GenerateOtp(length: int, draws: seq<int>) returns (code: string)
    requires Max0(length) <= |draws|
    requires forall i :: 0 <= i < |draws| ==> 0 <= draws[i] < 10
    ensures |code| == Max0(length)
    ensures length <= 0 ==> code == ""
    ensures forall i :: 0 <= i < |code| ==> IsDigit(code[i])
    ensures forall i :: 0 <= i < |code| ==> code[i] as int - '0' as int == draws[i]
  {
    code := "";
    var i := 0;
    while i < length
      invariant 0 <= i <= Max0(length)
      invariant |code| == i
      invariant forall k :: 0 <= k < i ==> code[k] == DigitChar(draws[k])
    {
      code := code + [DigitChar(draws[i])];
      i := i + 1;
    }
  }

  /** The code determines the draws it used: two runs give the same code
      exactly when their first `length` draws agree. */
  method GenerateOtpIsInjective(length: int, a: seq<int>, b: seq<int>) returns (same: bool)
    requires Max0(length) <= |a| && Max0(length) <= |b|
    requires forall i :: 0 <= i < |a| ==> 0 <= a[i] < 10
    requires forall i :: 0 <= i < |b| ==> 0 <= b[i] < 10
    ensures same <==> a[..Max0(length)] == b[..Max0(length)]
  {
    var x := GenerateOtp(length, a);
    var y := GenerateOtp(length, b);
    same := x == y;
    if same {
      assert forall i :: 0 <= i < Max0(length) ==> a[i] == b[i] by {
        forall i | 0 <= i < Max0(length) ensures a[i] == b[i] {
          assert x[i] == y[i];
        }
      }
    } else {
      var k :| 0 <= k < |x| && x[k] != y[k];
      assert a[k] != b[k];
      assert a[..Max0(length)][k] != b[..Max0(length)][k];
    }
  }
}

=== FILE: redirect.dfy ===
/** The decision logic of the OAuth2 login success handler: which URL the
    browser is sent back to, and whether a client-chosen redirect URI is on
    the allow-list.

    URIs arrive already parsed (`URI.create` is not part of this model); a
    component the URI lacks is absent (`host`) or -1 (`port`), as in
    `java.net.URI`. */
module Redirect {
  import opened Wrappers
  import opened JavaLang

  datatype Uri = Uri(text: string, scheme: Option<string>, host: Option<string>, port: int, path: string, query: Option<string>)

  /** `getHost().equalsIgnoreCase(...)` on an allow-listed URI without a host
      dereferences null. */
  datatype HandlerError =
    | NullHost(authorized: Uri)
    | BadRequest(message: string)

  /** One allow-list entry accepts the client URI: hosts equal ignoring ASCII
      case (`equalsIgnoreCase(null)` is false) and ports equal. */
  predicate Accepts(authorized: Uri, client: Uri)
    requires authorized.host.Some?
  {
    && client.host.Some?
    && EqualsIgnoreCase(authorized.host.value, client.host.value)
    && authorized.port == client.port
  }

  /** `isAuthorizedRedirectUri`: `anyMatch` over the allow-list in order. It
      stops at the first accepting entry; an entry without a host reached
      before that throws. */
  function IsAuthorizedRedirectUri(client: Uri, allowList: seq<Uri>): (r: Result<bool, HandlerError>)
    ensures (forall i :: 0 <= i < |allowList| ==> allowList[i].host.Some?) ==>
              r.Success? && (r.value <==> exists i :: 0 <= i < |allowList| && Accepts(allowList[i], client))
    ensures r.Failure? ==> exists i :: 0 <= i < |allowList| && allowList[i].host.None? && r.error == NullHost(allowList[i])
    ensures r == Success(true) ==> exists i :: 0 <= i < |allowList| && allowList[i].host.Some? && Accepts(allowList[i], client)
    // a host-less entry reached before any accepting one throws
    ensures forall i :: 0 <= i < |allowList| && allowList[i].host.None?
                          && (forall j :: 0 <= j < i ==> allowList[j].host.Some? && !Accepts(allowList[j], client))
                        ==> r == Failure(NullHost(allowList[i]))
    decreases |allowList|
  {
    if |allowList| == 0 then Success(false)
    else
      var head := allowList[0];
      assert forall i :: 0 <= i < |allowList[1..]| ==> allowList[1..][i] == allowList[i + 1];
      if head.host.None? then Failure(NullHost(head))
      else if Accepts(head, client) then Success(true)
      else IsAuthorizedRedirectUri(client, allowList[1..])
  }

  /** Only host (up to case) and port take part: two client URIs that agree
      on those get the same answer, whatever their scheme, path or query. */
  lemma {:induction false} OnlyHostAndPortMatter(a: Uri, b: Uri, allowList: seq<Uri>)
    requires a.host.Some? && b.host.Some? && EqualsIgnoreCase(a.host.value, b.host.value) && a.port == b.port
    ensures IsAuthorizedRedirectUri(a, allowList) == IsAuthorizedRedirectUri(b, allowList)
    decreases |allowList|
  {
    EqualsIgnoreCaseIsLowerEquality(a.host.value, b.host.value);
    if |allowList| > 0 {
      var head := allowList[0];
      if head.host.Some? {
        EqualsIgnoreCaseIsLowerEquality(head.host.value, a.host.value);
        EqualsIgnoreCaseIsLowerEquality(head.host.value, b.host.value);
      }
      OnlyHostAndPortMatter(a, b, allowList[1..]);
    }
  }

  const INVALID_REDIRECT_MESSAGE := "Invalid redirect URI detected. Unable to proceed with authentication process"

  /** The URL to send the browser to: `base` with the created token as the
      `token` query parameter (the rendering of the query string is not part
      of this model). */
  datatype Target = Target(base: string, token: string)

  /** `determineTargetUrl`: a redirect URI from the cookie that is not on the
      allow-list is a BAD_REQUEST; without a cookie the default target is
      used; the token rides along as a query parameter. */
  function DetermineTargetUrl(redirectUri: Option<Uri>, allowList: seq<Uri>, defaultTarget: string, token: string): (r: Result<Target, HandlerError>)
    ensures redirectUri.None? ==> r == Success(Target(defaultTarget, token))
    ensures redirectUri.Some? && IsAuthorizedRedirectUri(redirectUri.value, allowList) == Success(false) ==>
              r == Failure(BadRequest(INVALID_REDIRECT_MESSAGE))
    ensures redirectUri.Some? && IsAuthorizedRedirectUri(redirectUri.value, allowList) == Success(true) ==>
              r == Success(Target(redirectUri.value.text, token))
    ensures redirectUri.Some? && IsAuthorizedRedirectUri(redirectUri.value, allowList).Failure? ==>
              r == Failure(IsAuthorizedRedirectUri(redirectUri.value, allowList).error)
    ensures r.Success? ==> r.value.token == token
    ensures r.Success? && redirectUri.Some? ==>
              exists i :: 0 <= i < |allowList| && allowList[i].host.Some? && Accepts(allowList[i], redirectUri.value)
  {
    if redirectUri.Some? then
      var authorized :- IsAuthorizedRedirectUri(redirectUri.value, allowList);
      if !authorized then Failure(BadRequest(INVALID_REDIRECT_MESSAGE))
      else Success(Target(redirectUri.value.text, token))
    else Success(Target(defaultTarget, token))
  }

  /** `onAuthenticationSuccess`: the target is worked out first (so a bad
      redirect URI fails even on a committed response); a committed response
      is left alone, otherwise the browser is redirected to the target. */
  function OnAuthenticationSuccess(committed: bool, redirectUri: Option<Uri>, allowList: seq<Uri>,
                                   defaultTarget: string, token: string): (r: Result<Option<Target>, HandlerError>)
    ensures r.Failure? <==> DetermineTargetUrl(redirectUri, allowList, defaultTarget, token).Failure?
    ensures committed && r.Success? ==> r.value == None
    ensures !committed && r.Success? ==> r.value == Some(DetermineTargetUrl(redirectUri, allowList, defaultTarget, token).value)
  {
    var target :- DetermineTargetUrl(redirectUri, allowList, defaultTarget, token);
    if committed then Success(None) else Success(Some(target))
  }

  /** Host comparison ignores case: an allow-listed `LocalHost:4200` accepts
      `http://localhost:4200/oauth2/redirect`. */
  lemma HostCaseIsIgnored()
    ensures IsAuthorizedRedirectUri(
              Uri("http://localhost:4200/oauth2/redirect", Some("http"), Some("localhost"), 4200, "/oauth2/redirect", None),
              [Uri("https://LocalHost:4200", Some("https"), Some("LocalHost"), 4200, "", None)]) == Success(true)
  {
    assert LowerChar('L') == 'l' && LowerChar('H') == 'h';
    EqualsIgnoreCaseIsLowerEquality("LocalHost", "localhost");
    assert ToLowerCase("LocalHost") == "localhost";
    assert ToLowerCase("localhost") == "localhost";
  }

  /** A different port is refused even on the same host. */
  lemma PortMustMatch(client: Uri, authorized: Uri)
    requires authorized.host.Some? && client.port != authorized.port
    ensures IsAuthorizedRedirectUri(client, [authorized]) == Success(false)
    ensures DetermineTargetUrl(Some(client), [authorized], "/", "t") == Failure(BadRequest(INVALID_REDIRECT_MESSAGE))
  {
  }
}

=== FILE: setup.dfy ===
/** The start-up seeding listener: on the first context refresh it makes
    sure the two roles and the admin account exist.

    The `Role` entity and the `SocialProvider` enum are not part of this
    model: role names are taken to be their constants' spelling and the
    LOCAL provider type is a parameter, as are the password encoder and the
    clock. */
module Setup {

  type RoleId = nat

  /** The role table: the row at position `i` is the role with id `i`. */
  type RoleTable = seq<string>

  datatype SeedUser = SeedUser(
    username: string, email: string, password: string, roles: set<RoleId>,
    provider: string, enabled: bool, created: int, modified: int)

  type UserTable = map<string, SeedUser>

  datatype SetupState = SetupState(alreadySetup: bool, roles: RoleTable, users: UserTable)

  const ROLE_USER := "ROLE_USER"
  const ROLE_ADMIN := "ROLE_ADMIN"
  const ADMIN_EMAIL := "admin@mail.com"
  const ADMIN_USERNAME := "Admin"
  const ADMIN_PASSWORD := "password"

  datatype RoleLookup = RoleLookup(roles: RoleTable, id: RoleId)

  /** The scan behind `roleRepository.findByName`: rows before `i` are known
      not to carry `name`; the first row from `i` on that does is the answer,
      and when none does a new row is saved for it. */
  function FindRoleFrom(roles: RoleTable, name: string, i: nat): (r: RoleLookup)
    requires i <= |roles|
    requires forall j :: 0 <= j < i ==> roles[j] != name
    ensures r.id < |r.roles| && r.roles[r.id] == name
    ensures r.id <= |roles| && forall j :: 0 <= j < r.id ==> roles[j] != name
    ensures name in roles ==> r.roles == roles
    ensures name !in roles ==> r.roles == roles + [name] && r.id == |roles|
    decreases |roles| - i
  {
    if i == |roles| then RoleLookup(roles + [name], |roles|)
    else if roles[i] == name then RoleLookup(roles, i)
    else FindRoleFrom(roles, name, i + 1)
  }

  /** `createRoleIfNotFound`: the first role of that name, or a new row saved
      for it. */
  function CreateRoleIfNotFound(roles: RoleTable, name: string): (r: RoleLookup)
    ensures r.id < |r.roles| && r.roles[r.id] == name
    ensures r.id <= |roles| && forall j :: 0 <= j < r.id ==> roles[j] != name
    ensures name in roles ==> r.roles == roles
    ensures name !in roles ==> r.roles == roles + [name] && r.id == |roles|
  {
    FindRoleFrom(roles, name, 0)
  }

  /** A second lookup finds the row the first one returned and saves
      nothing. */
  lemma CreateRoleIsIdempotent(roles: RoleTable, name: string)
    ensures var once := CreateRoleIfNotFound(roles, name);
      CreateRoleIfNotFound(once.roles, name) == once
  {
  }

  datatype UserLookup = UserLookup(users: UserTable, user: SeedUser)

  /** `createUserIfNotFound`: the user stored under the email, untouched, or
      a new enabled local user with the given roles, the admin username, the
      encoded default password and both timestamps set to `now`. */
  function CreateUserIfNotFound(users: UserTable, email: string, roles: set<RoleId>,
                                encode: string -> string, localProvider: string, now: int): (r: UserLookup)
    ensures email in users ==> r == UserLookup(users, users[email])
    ensures email !in users ==>
              && r.user == SeedUser(ADMIN_USERNAME, email, encode(ADMIN_PASSWORD), roles, localProvider, true, now, now)
              && r.users == users[email := r.user]
    ensures email in r.users && r.users[email] == r.user
    ensures forall e :: e in users ==> e in r.users && r.users[e] == users[e]
  {
    if email in users then UserLookup(users, users[email])
    else
      var user := SeedUser(ADMIN_USERNAME, email, encode(ADMIN_PASSWORD), roles, localProvider, true, now, now);
      UserLookup(users[email := user], user)
  }

  /** `onApplicationEvent`: nothing once the flag is set; otherwise both roles,
      then the admin account holding both, then the flag. */
  function OnApplicationEvent(st: SetupState, encode: string -> string, localProvider: string, now: int): (r: SetupState)
    ensures st.alreadySetup ==> r == st
    ensures r.alreadySetup
    ensures !st.alreadySetup ==>
              && ROLE_USER in r.roles && ROLE_ADMIN in r.roles
              && ADMIN_EMAIL in r.users
              && |st.roles| <= |r.roles| <= |st.roles| + 2
              && (forall j :: 0 <= j < |st.roles| ==> r.roles[j] == st.roles[j])
              && (forall e :: e in st.users ==> e in r.users && r.users[e] == st.users[e])
              && r.users.Keys == st.users.Keys + {ADMIN_EMAIL}
    // a role is saved only when no row has its name, ROLE_USER first
    ensures !st.alreadySetup ==>
              r.roles == st.roles + (if ROLE_USER in st.roles then [] else [ROLE_USER])
                                  + (if ROLE_ADMIN in st.roles then [] else [ROLE_ADMIN])
    // an existing admin account is left as it is
    ensures !st.alreadySetup && ADMIN_EMAIL in st.users ==> r.users == st.users
    // a newly seeded admin is the enabled local "Admin" account with the
    // encoded default password, created and modified now, holding exactly
    // the first ROLE_USER and the first ROLE_ADMIN rows
    ensures !st.alreadySetup && ADMIN_EMAIL !in st.users ==>
              exists u: nat, a: nat ::
                && u < |r.roles| && r.roles[u] == ROLE_USER && (forall j :: 0 <= j < u ==> r.roles[j] != ROLE_USER)
                && a < |r.roles| && r.roles[a] == ROLE_ADMIN && (forall j :: 0 <= j < a ==> r.roles[j] != ROLE_ADMIN)
                && r.users[ADMIN_EMAIL]
                   == SeedUser(ADMIN_USERNAME, ADMIN_EMAIL, encode(ADMIN_PASSWORD), {u, a}, localProvider, true, now, now)
  {
    if st.alreadySetup then st
    else
      assert ROLE_USER != ROLE_ADMIN by {
        assert ROLE_USER[5] != ROLE_ADMIN[5];
      }
      var userRole := CreateRoleIfNotFound(st.roles, ROLE_USER);
      var adminRole := CreateRoleIfNotFound(userRole.roles, ROLE_ADMIN);
      var admin := CreateUserIfNotFound(st.users, ADMIN_EMAIL, {userRole.id, adminRole.id}, encode, localProvider, now);
      SetupState(true, adminRole.roles, admin.users)
  }

  /** On an empty database the seeded admin holds exactly the two roles just
      created, and is an enabled local account created and modified at
      `now`. */
  lemma SeededAdminHasBothRoles(encode: string -> string, localProvider: string, now: int)
    ensures var r := OnApplicationEvent(SetupState(false, [], map[]), encode, localProvider, now);
      && r.roles == [ROLE_USER, ROLE_ADMIN]
      && r.users == map[ADMIN_EMAIL := SeedUser(ADMIN_USERNAME, ADMIN_EMAIL, encode(ADMIN_PASSWORD), {0, 1},
                                               localProvider, true, now, now)]
  {
    assert ROLE_USER != ROLE_ADMIN by {
      assert ROLE_USER[5] != ROLE_ADMIN[5];
    }
  }

  /** Seeding an already seeded database (a fresh listener after a restart,
      flag cleared) changes nothing but the flag: the helpers find what the
      first run saved. */
  lemma SeedingTwiceChangesNothing(st: SetupState, encode: string -> string, localProvider: string, now: int, later: int)
    requires !st.alreadySetup
    ensures var once := OnApplicationEvent(st, encode, localProvider, now);
      OnApplicationEvent(once.(alreadySetup := false), encode, localProvider, later) == once
  {
    var userRole := CreateRoleIfNotFound(st.roles, ROLE_USER);
    var adminRole := CreateRoleIfNotFound(userRole.roles, ROLE_ADMIN);
    var once := OnApplicationEvent(st, encode, localProvider, now);
    assert once.roles == adminRole.roles;
    assert ROLE_USER in once.roles;
    var userRole2 := CreateRoleIfNotFound(once.roles, ROLE_USER);
    assert userRole2.roles == once.roles;
    CreateRoleIsIdempotent(userRole.roles, ROLE_ADMIN);
  }
}

=== FILE: suggestions.dfy ===
/** Card suggestions: one user proposes one of their cards to another, who
    accepts (getting a copy of the card) or declines.

    The suggestion table keeps rows in insertion order, which is the order
    `getByRecipient` is taken to return them in. The service implementation
    is not part of this model; the operations below do what its unit tests
    require of them. */
module Suggestions {
  import opened Wrappers

  type UserId = nat
  type CardId = nat

  datatype Suggestion = Suggestion(sender: UserId, recipient: UserId, card: CardId)

  type SuggestionTable = seq<Suggestion>

  /** At most one row per (sender, recipient, card): the single-result lookup
      `getBySenderAndRecipientAndCard` relies on it. */
  predicate NoDuplicates(t: SuggestionTable) {
    forall i, j :: 0 <= i < j < |t| ==> t[i] != t[j]
  }

  function Count(t: SuggestionTable, s: Suggestion): nat {
    |set i | 0 <= i < |t| && t[i] == s|
  }

  // ------------------------------------------------------------ suggestCard

  datatype SuggestOutcome = SuggestOutcome(saved: bool, table: SuggestionTable)

  /** `suggestCard`: save the triple and answer true, unless it is already
      there, in which case answer false and save nothing. */
  function SuggestCard(t: SuggestionTable, sender: UserId, recipient: UserId, card: CardId): (r: SuggestOutcome)
    ensures r.saved <==> Suggestion(sender, recipient, card) !in t
    ensures r.saved ==> r.table == t + [Suggestion(sender, recipient, card)]
    ensures !r.saved ==> r.table == t
    ensures Suggestion(sender, recipient, card) in r.table
    ensures NoDuplicates(t) ==> NoDuplicates(r.table)
  {
    var s := Suggestion(sender, recipient, card);
    if s in t then SuggestOutcome(false, t) else SuggestOutcome(true, t + [s])
  }

  /** Suggesting the same card twice saves one row: the second call answers
      false. */
  lemma SuggestTwiceSavesOnce(t: SuggestionTable, sender: UserId, recipient: UserId, card: CardId)
    requires Suggestion(sender, recipient, card) !in t
    ensures var first := SuggestCard(t, sender, recipient, card);
      && first.saved
      && !SuggestCard(first.table, sender, recipient, card).saved
      && SuggestCard(first.table, sender, recipient, card).table == first.table
      && Count(first.table, Suggestion(sender, recipient, card)) == 1
  {
    var s := Suggestion(sender, recipient, card);
    var t' := t + [s];
    assert (set i | 0 <= i < |t'| && t'[i] == s) == {|t|};
  }

  // ------------------------------------------------------- declineSuggestion

  /** The table without any row equal to `s`, order kept. */
  function Without(t: SuggestionTable, s: Suggestion): (r: SuggestionTable)
    ensures s !in r
    ensures forall x :: x in r <==> x in t && x != s
    ensures |r| <= |t|
    ensures s !in t ==> r == t
    decreases |t|
  {
    if |t| == 0 then t
    else if t[0] == s then Without(t[1..], s)
    else [t[0]] + Without(t[1..], s)
  }

  /** `declineSuggestion`: the derived `deleteBySenderIdAndRecipientIdAndCardId`
      with the recipient's own id; a missing row is not an error. */
  function DeclineSuggestion(t: SuggestionTable, senderId: UserId, recipient: UserId, cardId: CardId): (r: SuggestionTable)
    ensures Suggestion(senderId, recipient, cardId) !in r
    ensures forall x :: x in t && x != Suggestion(senderId, recipient, cardId) ==> x in r
    ensures forall x :: x in r ==> x in t
    ensures NoDuplicates(t) ==> NoDuplicates(r)
  {
    var s := Suggestion(senderId, recipient, cardId);
    WithoutKeepsDistinct(t, s);
    Without(t, s)
  }

  lemma {:induction false} WithoutKeepsDistinct(t: SuggestionTable, s: Suggestion)
    ensures NoDuplicates(t) ==> NoDuplicates(Without(t, s))
    decreases |t|
  {
    if |t| > 0 {
      WithoutKeepsDistinct(t[1..], s);
      if NoDuplicates(t) {
        assert NoDuplicates(t[1..]) by {
          forall i, j | 0 <= i < j < |t[1..]|
            ensures t[1..][i] != t[1..][j]
          {
            assert t[1..][i] == t[i + 1] && t[1..][j] == t[j + 1];
          }
        }
        assert t[0] !in t[1..] by {
          forall i | 0 <= i < |t[1..]|
            ensures t[1..][i] != t[0]
          {
            assert t[1..][i] == t[i + 1];
          }
        }
      }
    }
  }

  /** Declining what was just suggested restores the table. */
  lemma DeclineUndoesSuggest(t: SuggestionTable, sender: UserId, recipient: UserId, card: CardId)
    requires Suggestion(sender, recipient, card) !in t
    ensures DeclineSuggestion(SuggestCard(t, sender, recipient, card).table, sender, recipient, card) == t
  {
    WithoutAppended(t, Suggestion(sender, recipient, card));
  }

  lemma {:induction false} WithoutAppended(t: SuggestionTable, s: Suggestion)
    requires s !in t
    ensures Without(t + [s], s) == t
    decreases |t|
  {
    if |t| == 0 {
      assert t + [s] == [s];
    } else {
      assert (t + [s])[1..] == t[1..] + [s];
      WithoutAppended(t[1..], s);
    }
  }

  // ------------------------------------------------------- getSuggestedCards

  /** `getByRecipient`: the rows addressed to `user`, in table order. */
  function ForRecipient(t: SuggestionTable, user: UserId): (r: SuggestionTable)
    ensures forall x :: x in r <==> x in t && x.recipient == user
    ensures |r| <= |t|
    decreases |t|
  {
    if |t| == 0 then []
    else if t[0].recipient == user then [t[0]] + ForRecipient(t[1..], user)
    else ForRecipient(t[1..], user)
  }

  /** `getSuggestedCards`: each suggested card of `user` through the card
      mapper (`toDto`), in order. */
  function GetSuggestedCards<D>(t: SuggestionTable, user: UserId, toDto: CardId -> D): (r: seq<D>)
    ensures |r| == |ForRecipient(t, user)|
    ensures forall i :: 0 <= i < |r| ==> r[i] == toDto(ForRecipient(t, user)[i].card)
  {
    var rows := ForRecipient(t, user);
    seq(|rows|, i requires 0 <= i < |rows| => toDto(rows[i].card))
  }

  lemma {:induction false} ForRecipientAppend(t: SuggestionTable, s: Suggestion, user: UserId)
    ensures ForRecipient(t + [s], user) == ForRecipient(t, user) + (if s.recipient == user then [s] else [])
    decreases |t|
  {
    if |t| == 0 {
      assert t + [s] == [s];
    } else {
      assert (t + [s])[1..] == t[1..] + [s];
      ForRecipientAppend(t[1..], s, user);
    }
  }

  /** A saved suggestion shows up last in the recipient's list and nowhere
      else. */
  lemma SuggestedCardAppearsForRecipient<D>(t: SuggestionTable, sender: UserId, recipient: UserId, card: CardId,
                                            user: UserId, toDto: CardId -> D)
    requires SuggestCard(t, sender, recipient, card).saved
    ensures GetSuggestedCards(SuggestCard(t, sender, recipient, card).table, user, toDto)
         == GetSuggestedCards(t, user, toDto) + (if user == recipient then [toDto(card)] else [])
  {
    ForRecipientAppend(t, Suggestion(sender, recipient, card), user);
  }

  // -------------------------------------------------- cloneCard, acceptSuggestion

  datatype ExampleData = ExampleData(example: string, translation: string)

  /** What a card copy carries over. */
  datatype CardContent = CardContent(entry: string, examples: seq<ExampleData>, translations: seq<string>, owner: UserId)

  datatype SuggestionDb = SuggestionDb(
    cards: map<CardId, CardContent>,
    nextCardId: CardId,
    userCards: map<UserId, set<CardId>>,
    suggestions: SuggestionTable)

  predicate DbValid(db: SuggestionDb) {
    forall c :: c in db.cards ==> c < db.nextCardId
  }

  function CardsOf(db: SuggestionDb, u: UserId): set<CardId> {
    if u in db.userCards then db.userCards[u] else {}
  }

  /** `cloneCard`: save a copy of `source` with the same entry, examples and
      translations under a fresh id, owned by and added to `recipient`. */
  function CloneCard(db: SuggestionDb, source: CardContent, recipient: UserId): (r: SuggestionDb)
    requires DbValid(db)
    ensures DbValid(r)
    ensures db.nextCardId !in db.cards
    ensures r.cards == db.cards[db.nextCardId := source.(owner := recipient)]
    ensures r.nextCardId == db.nextCardId + 1
    ensures CardsOf(r, recipient) == CardsOf(db, recipient) + {db.nextCardId}
    ensures forall u :: u != recipient ==> CardsOf(r, u) == CardsOf(db, u)
    ensures r.suggestions == db.suggestions
  {
    var id := db.nextCardId;
    SuggestionDb(db.cards[id := source.(owner := recipient)], id + 1,
                 db.userCards[recipient := CardsOf(db, recipient) + {id}], db.suggestions)
  }

  datatype SuggestionError = SuggestionNotFound | CardNotFound(card: CardId)

  /** `acceptSuggestion`: look up the suggestion of `cardId` from `senderId`
      to `recipient`; clone the card for the recipient and delete the
      suggestion. A missing card or suggestion fails and changes nothing. */
  function AcceptSuggestion(db: SuggestionDb, senderId: UserId, cardId: CardId, recipient: UserId): (r: Result<SuggestionDb, SuggestionError>)
    requires DbValid(db)
    ensures cardId !in db.cards ==> r == Failure(CardNotFound(cardId))
    ensures cardId in db.cards && Suggestion(senderId, recipient, cardId) !in db.suggestions ==> r == Failure(SuggestionNotFound)
    ensures r.Success? <==> cardId in db.cards && Suggestion(senderId, recipient, cardId) in db.suggestions
    ensures r.Success? ==>
              && DbValid(r.value)
              && Suggestion(senderId, recipient, cardId) !in r.value.suggestions
              && db.nextCardId in r.value.cards && r.value.cards[db.nextCardId] == db.cards[cardId].(owner := recipient)
              && db.nextCardId in CardsOf(r.value, recipient)
              && (forall c :: c in db.cards ==> c in r.value.cards && r.value.cards[c] == db.cards[c])
    // only the clone is added, and only to the recipient's cards
    ensures r.Success? ==>
              && r.value.cards.Keys == db.cards.Keys + {db.nextCardId}
              && CardsOf(r.value, recipient) == CardsOf(db, recipient) + {db.nextCardId}
              && forall u :: u != recipient ==> CardsOf(r.value, u) == CardsOf(db, u)
    // only the accepted suggestion is deleted
    ensures r.Success? ==>
              forall x :: x in r.value.suggestions <==> x in db.suggestions && x != Suggestion(senderId, recipient, cardId)
  {
    if cardId !in db.cards then Failure(CardNotFound(cardId))
    else
      var s := Suggestion(senderId, recipient, cardId);
      if s !in db.suggestions then Failure(SuggestionNotFound)
      else
        var cloned := CloneCard(db, db.cards[cardId], recipient);
        Success(cloned.(suggestions := Without(cloned.suggestions, s)))
  }

  /** Accepting consumes the suggestion: a second acceptance of it fails. */
  lemma AcceptIsSingleUse(db: SuggestionDb, senderId: UserId, cardId: CardId, recipient: UserId)
    requires DbValid(db)
    requires AcceptSuggestion(db, senderId, cardId, recipient).Success?
    ensures AcceptSuggestion(AcceptSuggestion(db, senderId, cardId, recipient).value, senderId, cardId, recipient)
         == Failure(SuggestionNotFound)
  {
  }
}

=== FILE: tag_rename.dfy ===
/** `renameTagForUser`: move every CardTag a user has on one tag to the tag
    whose text is the proposed name, found by exact text or created once.

    CardTag rows are keyed by `(cardId, tagId)`, so moving a row re-keys it.
    Saving a moved row onto a key that already has a row merges into that
    row, which then belongs to the renaming user. */
module TagRename {
  import opened Tags

  /** The cards on which `user` has a CardTag on `tag`: `getByUserAndTag`. */
  function UserCardsOn(ct: CardTagTable, user: UserId, tag: TagId): set<CardId> {
    set k | k in ct && k.tagId == tag && ct[k] == user :: k.cardId
  }

  /** The rows `getByUserAndTag` does not return. */
  function Unmoved(ct: CardTagTable, user: UserId, tag: TagId): CardTagTable {
    map k | k in ct && !(k.tagId == tag && ct[k] == user) :: ct[k]
  }

  /** The moved rows at their new keys. */
  function Landed(cards: set<CardId>, target: TagId, user: UserId): CardTagTable {
    map c | c in cards :: CardTagPK(c, target) := user
  }

  /** The rename is skipped when the tag's text already is the normalised
      proposal, or when the user has nothing tagged with it. */
  predicate Skipped(tags: TagTable, ct: CardTagTable, normalize: string -> string,
                    user: UserId, tag: TagId, proposedName: string)
    requires tag < |tags|
  {
    tags[tag] == normalize(proposedName) || UserCardsOn(ct, user, tag) == {}
  }

  /** The CardTag table after the user's rows on `tag` are moved to `target`. */
  function Moved(ct: CardTagTable, user: UserId, tag: TagId, target: TagId): CardTagTable {
    Unmoved(ct, user, tag) + Landed(UserCardsOn(ct, user, tag), target, user)
  }

  /** What moving the rows does to the CardTag table. */
  lemma MovedRows(tags: TagTable, ct: CardTagTable, user: UserId, tag: TagId, target: TagId)
    requires RefsValid(tags, ct) && target < |tags|
    ensures RefsValid(tags, Moved(ct, user, tag, target))
    ensures forall c :: c in UserCardsOn(ct, user, tag) ==>
              CardTagPK(c, target) in Moved(ct, user, tag, target) && Moved(ct, user, tag, target)[CardTagPK(c, target)] == user
    ensures target != tag ==> UserCardsOn(Moved(ct, user, tag, target), user, tag) == {}
    ensures forall k :: k in ct && !(k.tagId == tag && ct[k] == user)
              && !(k.tagId == target && k.cardId in UserCardsOn(ct, user, tag))
              ==> k in Moved(ct, user, tag, target) && Moved(ct, user, tag, target)[k] == ct[k]
    ensures forall k :: k in Moved(ct, user, tag, target) && k !in ct ==>
              k.tagId == target && k.cardId in UserCardsOn(ct, user, tag)
  {
    var cards := UserCardsOn(ct, user, tag);
    var moved := Moved(ct, user, tag, target);
    if target != tag {
      forall k | k in moved && k.tagId == tag
        ensures moved[k] != user
      {
        assert k !in Landed(cards, target, user);
      }
    }
  }

  function RenameTagForUser(tags: TagTable, ct: CardTagTable, normalize: string -> string,
                            user: UserId, tag: TagId, proposedName: string): (r: TagState)
    requires Valid(tags, ct) && tag < |tags|
    ensures Valid(r.tags, r.cardTags)
    ensures Skipped(tags, ct, normalize, user, tag, proposedName) ==> r == TagState(tags, ct)
    ensures !Skipped(tags, ct, normalize, user, tag, proposedName) ==>
              var target := FindOrCreateTag(tags, proposedName);
              && r.tags == target.tags
              && (forall c :: c in UserCardsOn(ct, user, tag) ==>
                    CardTagPK(c, target.id) in r.cardTags && r.cardTags[CardTagPK(c, target.id)] == user)
              && (target.id != tag ==> UserCardsOn(r.cardTags, user, tag) == {})
              && (forall k :: k in ct && !(k.tagId == tag && ct[k] == user)
                    && !(k.tagId == target.id && k.cardId in UserCardsOn(ct, user, tag))
                    ==> k in r.cardTags && r.cardTags[k] == ct[k])
              && (forall k :: k in r.cardTags && k !in ct ==>
                    k.tagId == target.id && k.cardId in UserCardsOn(ct, user, tag))
    ensures Extends(tags, r.tags)
  {
    if Skipped(tags, ct, normalize, user, tag, proposedName) then TagState(tags, ct)
    else
      var target := FindOrCreateTag(tags, proposedName);
      MovedRows(target.tags, ct, user, tag, target.id);
      TagState(target.tags, Moved(ct, user, tag, target.id))
  }

  /** Renaming to a name the tag already answers to exactly (but not after
      normalisation) moves every row onto itself and so changes nothing. */
  lemma RenameOntoItselfChangesNothing(tags: TagTable, ct: CardTagTable, normalize: string -> string,
                                       user: UserId, tag: TagId, proposedName: string)
    requires Valid(tags, ct) && tag < |tags|
    requires FindOrCreateTag(tags, proposedName).id == tag
    ensures RenameTagForUser(tags, ct, normalize, user, tag, proposedName) == TagState(tags, ct)
  {
    if !Skipped(tags, ct, normalize, user, tag, proposedName) {
      var cards := UserCardsOn(ct, user, tag);
      var ct' := Unmoved(ct, user, tag) + Landed(cards, tag, user);
      assert ct'.Keys == ct.Keys by {
        forall k | k in ct
          ensures k in ct'
        {
          if k.tagId == tag && ct[k] == user {
            assert k.cardId in cards;
          }
        }
      }
      assert ct' == ct;
    }
  }

  /** Renaming twice with the same arguments is renaming once. */
  lemma RenameIsIdempotent(tags: TagTable, ct: CardTagTable, normalize: string -> string,
                           user: UserId, tag: TagId, proposedName: string)
    requires Valid(tags, ct) && tag < |tags|
    ensures var once := RenameTagForUser(tags, ct, normalize, user, tag, proposedName);
      RenameTagForUser(once.tags, once.cardTags, normalize, user, tag, proposedName) == once
  {
    var once := RenameTagForUser(tags, ct, normalize, user, tag, proposedName);
    assert once.tags[tag] == tags[tag] by {
      assert once.tags[..|tags|][tag] == once.tags[tag];
    }
    if !Skipped(tags, ct, normalize, user, tag, proposedName) {
      if FindOrCreateTag(tags, proposedName).id == tag {
        RenameOntoItselfChangesNothing(tags, ct, normalize, user, tag, proposedName);
      }
    }
  }

  /** All CardTags on one card belong to one learner. `createCardTags` gives
      every row the card's owner, and `updateTags` the learner editing the
      card, so the invariant holds while only a card's owner edits its tags. */
  predicate OneLearnerPerCard(ct: CardTagTable) {
    forall k1, k2 :: k1 in ct && k2 in ct && k1.cardId == k2.cardId ==> ct[k1] == ct[k2]
  }

  /** With one learner per card, a rename never touches a row of another
      user, hands no row to the renaming user that was not already theirs,
      and keeps one learner per card. */
  lemma RenameKeepsOtherUsersRows(tags: TagTable, ct: CardTagTable, normalize: string -> string,
                                  user: UserId, tag: TagId, proposedName: string)
    requires Valid(tags, ct) && tag < |tags|
    requires OneLearnerPerCard(ct)
    ensures OneLearnerPerCard(RenameTagForUser(tags, ct, normalize, user, tag, proposedName).cardTags)
    ensures forall k :: k in ct && ct[k] != user ==>
              && k in RenameTagForUser(tags, ct, normalize, user, tag, proposedName).cardTags
              && RenameTagForUser(tags, ct, normalize, user, tag, proposedName).cardTags[k] == ct[k]
    ensures forall k :: k in RenameTagForUser(tags, ct, normalize, user, tag, proposedName).cardTags
              && RenameTagForUser(tags, ct, normalize, user, tag, proposedName).cardTags[k] != user
              ==> k in ct && ct[k] == RenameTagForUser(tags, ct, normalize, user, tag, proposedName).cardTags[k]
  {
    if !Skipped(tags, ct, normalize, user, tag, proposedName) {
      var target := FindOrCreateTag(tags, proposedName);
      var cards := UserCardsOn(ct, user, tag);
      var m := Moved(ct, user, tag, target.id);
      assert RenameTagForUser(tags, ct, normalize, user, tag, proposedName).cardTags == m;
      // every row of a moved card already belongs to the user
      forall k | k in ct && k.cardId in cards
        ensures ct[k] == user
      {
        var k' :| k' in ct && k'.tagId == tag && ct[k'] == user && k'.cardId == k.cardId;
      }
      // so after the move a card's rows belong to the user if it moved, and
      // are its old rows otherwise
      forall k | k in m
        ensures k.cardId in cards ==> m[k] == user
        ensures k.cardId !in cards ==> k in ct && m[k] == ct[k]
      {
        if k in Landed(cards, target.id, user) {
          assert m[k] == user;
        } else {
          assert k in Unmoved(ct, user, tag);
        }
      }
      forall k | k in ct && ct[k] != user
        ensures k in m && m[k] == ct[k]
      {
        assert k.cardId !in cards;
        assert k in Unmoved(ct, user, tag);
        assert k !in Landed(cards, target.id, user);
      }
    }
  }
}

=== FILE: tags.dfy ===
/** The Tag table, the CardTag association table keyed by `CardTagPK`, and
    the two find-or-create lookups the card and user services use.

    The Tag table is append-only in every modelled operation, so it is a
    sequence whose index is the tag id. `Tag.normalizeText` is not part of
    this model: it is the `normalize` parameter, about which only determinism
    (being a function) is assumed. A new `Tag(text)` is taken to store `text`
    as given. */
module Tags {
  import opened Wrappers
  import JavaLang

  type CardId = nat
  type TagId = nat
  type UserId = nat

  /** Row `i` of the Tag table has text `tags[i]`. */
  type TagTable = seq<string>

  /** `CardTagPK(cardId, tagId)`, the composite identity of a CardTag row. */
  datatype CardTagPK = CardTagPK(cardId: CardId, tagId: TagId)

  /** The CardTag table: each key maps to the learner who made the association. */
  type CardTagTable = map<CardTagPK, UserId>

  /** One CardTag entity: its key and its learner. */
  datatype CardTag = CardTag(id: CardTagPK, learner: UserId)

  /** A Tag table and a CardTag table together. */
  datatype TagState = TagState(tags: TagTable, cardTags: CardTagTable)

  // ------------------------------------------------------- CardTagPK equality

  /** The argument of `CardTagPK.equals(Object)`. */
  datatype JavaObject = NullRef | KeyRef(key: CardTagPK) | ForeignRef

  /** `CardTagPK.equals`: the identity short-cut `this == o` is subsumed, as the
      same object has the same fields. */
  predicate KeyEquals(self: CardTagPK, o: JavaObject) {
    match o
    case NullRef => false
    case ForeignRef => false
    case KeyRef(that) => self.cardId == that.cardId && self.tagId == that.tagId
  }

  /** `CardTagPK.hashCode`: `Objects.hash(cardId, tagId)`. */
  function KeyHashCode(k: CardTagPK): (h: int)
    requires JavaLang.IsLong(k.cardId) && JavaLang.IsLong(k.tagId)
    ensures JavaLang.IsInt(h)
  {
    JavaLang.ObjectsHash([k.cardId, k.tagId])
  }

  lemma KeyEqualsContract(a: CardTagPK, b: CardTagPK)
    ensures KeyEquals(a, KeyRef(a))
    ensures KeyEquals(a, KeyRef(b)) <==> a == b
    ensures KeyEquals(a, KeyRef(b)) <==> KeyEquals(b, KeyRef(a))
    ensures !KeyEquals(a, NullRef) && !KeyEquals(a, ForeignRef)
    ensures KeyEquals(a, KeyRef(b)) && JavaLang.IsLong(a.cardId) && JavaLang.IsLong(a.tagId)
            ==> KeyHashCode(a) == KeyHashCode(b)
  {
  }

  // --------------------------------------------------------------- invariant

  /** No two Tag rows have the same text. */
  predicate DistinctTexts(tags: TagTable) {
    forall i, j :: 0 <= i < j < |tags| ==> tags[i] != tags[j]
  }

  /** No two Tag rows have the same normalised text. */
  predicate DistinctNormalized(tags: TagTable, normalize: string -> string) {
    forall i, j :: 0 <= i < j < |tags| ==> normalize(tags[i]) != normalize(tags[j])
  }

  /** Every CardTag refers to an existing Tag row. */
  predicate RefsValid(tags: TagTable, ct: CardTagTable) {
    forall k :: k in ct ==> k.tagId < |tags|
  }

  predicate Valid(tags: TagTable, ct: CardTagTable) {
    DistinctTexts(tags) && RefsValid(tags, ct)
  }

  /** The texts of the tags a card carries. */
  function TextsOf(tags: TagTable, ct: CardTagTable, card: CardId): set<string> {
    set k | k in ct && k.cardId == card && k.tagId < |tags| :: tags[k.tagId]
  }

  // ----------------------------------------------------------------- lookups

  /** `tagRepository.findByText(text)`: the tag whose text is exactly `text`. */
  function FindByText(tags: TagTable, text: string): (r: Option<TagId>)
    ensures r.Some? <==> text in tags
    ensures r.Some? ==> r.value < |tags| && tags[r.value] == text
    ensures r.Some? && DistinctTexts(tags) ==> forall i :: 0 <= i < |tags| && tags[i] == text ==> i == r.value
    decreases |tags|
  {
    if |tags| == 0 then None
    else if tags[|tags| - 1] == text then Some(|tags| - 1)
    else FindByText(tags[..|tags| - 1], text)
  }

  predicate HasNormalized(tags: TagTable, normalize: string -> string, text: string) {
    exists i :: 0 <= i < |tags| && normalize(tags[i]) == normalize(text)
  }

  /** `tagRepository.findByTextWithNormalization(text)`; its query is not part
      of this model and is taken to compare normalised texts. In a table whose
      normalised texts are distinct the match is unique; when several rows
      match, the most recently created one is returned. */
  function FindByTextNormalized(tags: TagTable, normalize: string -> string, text: string): (r: Option<TagId>)
    ensures r.Some? <==> HasNormalized(tags, normalize, text)
    ensures r.Some? ==> r.value < |tags| && normalize(tags[r.value]) == normalize(text)
    ensures r.Some? ==> forall i :: r.value < i < |tags| ==> normalize(tags[i]) != normalize(text)
    ensures r.Some? && DistinctNormalized(tags, normalize) ==>
              forall i :: 0 <= i < |tags| && normalize(tags[i]) == normalize(text) ==> i == r.value
    decreases |tags|
  {
    if |tags| == 0 then None
    else if normalize(tags[|tags| - 1]) == normalize(text) then Some(|tags| - 1)
    else FindByTextNormalized(tags[..|tags| - 1], normalize, text)
  }

  /** A normalised text an extended table lacks, the original table lacked
      too. */
  lemma LacksNormalizedInPrefix(tags: TagTable, more: TagTable, normalize: string -> string, text: string)
    requires |tags| <= |more| && more[..|tags|] == tags
    requires !HasNormalized(more, normalize, text)
    ensures !HasNormalized(tags, normalize, text)
  {
    forall i | 0 <= i < |tags|
      ensures normalize(tags[i]) != normalize(text)
    {
      assert more[i] == tags[i];
    }
  }

  /** `more` is `tags` with rows appended: the Tag table only ever grows. */
  predicate Extends(tags: TagTable, more: TagTable) {
    |tags| <= |more| && more[..|tags|] == tags
  }

  /** A tag table after a lookup that may have created a row, and the id found. */
  datatype TagLookup = TagLookup(tags: TagTable, id: TagId)

  /** Reuse the tag with exactly this text, else save a new one: the pattern of
      `updateTags` and `renameTagForUser`. */
  function FindOrCreateTag(tags: TagTable, text: string): (r: TagLookup)
    ensures r.id < |r.tags| && r.tags[r.id] == text
    ensures |tags| <= |r.tags| && r.tags[..|tags|] == tags
    ensures text in tags ==> r.tags == tags
    ensures text !in tags ==> r.tags == tags + [text] && r.id == |tags|
    ensures DistinctTexts(tags) ==> DistinctTexts(r.tags)
  {
    match FindByText(tags, text)
    case Some(id) => TagLookup(tags, id)
    case None => TagLookup(tags + [text], |tags|)
  }

  /** `findOrCreateTag`: reuse a tag with the same normalised text, else save a
      new one. */
  function FindOrCreateTagNormalized(tags: TagTable, normalize: string -> string, text: string): (r: TagLookup)
    ensures r.id < |r.tags| && normalize(r.tags[r.id]) == normalize(text)
    ensures |tags| <= |r.tags| && r.tags[..|tags|] == tags
    ensures HasNormalized(tags, normalize, text) ==> r.tags == tags
    ensures !HasNormalized(tags, normalize, text) ==> r.tags == tags + [text] && r.id == |tags|
    ensures DistinctTexts(tags) ==> DistinctTexts(r.tags)
    ensures DistinctNormalized(tags, normalize) ==> DistinctNormalized(r.tags, normalize)
  {
    match FindByTextNormalized(tags, normalize, text)
    case Some(id) => TagLookup(tags, id)
    case None => TagLookup(tags + [text], |tags|)
  }

  // ------------------------------------------------- facts about TextsOf

  lemma TextsOfGrowTable(tags: TagTable, more: TagTable, ct: CardTagTable, card: CardId)
    requires RefsValid(tags, ct)
    requires |tags| <= |more| && more[..|tags|] == tags
    ensures TextsOf(more, ct, card) == TextsOf(tags, ct, card)
  {
    forall t | t in TextsOf(more, ct, card)
      ensures t in TextsOf(tags, ct, card)
    {
      var k :| k in ct && k.cardId == card && k.tagId < |more| && more[k.tagId] == t;
      assert more[k.tagId] == tags[k.tagId];
    }
    forall t | t in TextsOf(tags, ct, card)
      ensures t in TextsOf(more, ct, card)
    {
      var k :| k in ct && k.cardId == card && k.tagId < |tags| && tags[k.tagId] == t;
      assert more[k.tagId] == tags[k.tagId];
    }
  }

  lemma TextsOfInsert(tags: TagTable, ct: CardTagTable, card: CardId, id: TagId, learner: UserId)
    requires id < |tags|
    ensures TextsOf(tags, ct[CardTagPK(card, id) := learner], card) == TextsOf(tags, ct, card) + {tags[id]}
  {
    var ct' := ct[CardTagPK(card, id) := learner];
    forall t | t in TextsOf(tags, ct', card)
      ensures t in TextsOf(tags, ct, card) + {tags[id]}
    {
      var k :| k in ct' && k.cardId == card && k.tagId < |tags| && tags[k.tagId] == t;
      if k != CardTagPK(card, id) {
        assert k in ct;
      }
    }
    forall t | t in TextsOf(tags, ct, card)
      ensures t in TextsOf(tags, ct', card)
    {
      var k :| k in ct && k.cardId == card && k.tagId < |tags| && tags[k.tagId] == t;
      assert k in ct';
    }
    assert CardTagPK(card, id) in ct';
  }

  lemma TextsOfRemove(tags: TagTable, ct: CardTagTable, card: CardId, id: TagId)
    requires DistinctTexts(tags) && id < |tags|
    ensures TextsOf(tags, ct - {CardTagPK(card, id)}, card) == TextsOf(tags, ct, card) - {tags[id]}
  {
    var ct' := ct - {CardTagPK(card, id)};
    forall t | t in TextsOf(tags, ct', card)
      ensures t != tags[id]
    {
      var k :| k in ct' && k.cardId == card && k.tagId < |tags| && tags[k.tagId] == t;
      assert k.tagId != id;
    }
    forall t | t in TextsOf(tags, ct, card) && t != tags[id]
      ensures t in TextsOf(tags, ct', card)
    {
      var k :| k in ct && k.cardId == card && k.tagId < |tags| && tags[k.tagId] == t;
      assert k in ct';
    }
  }

  /** A text the card carries is carried through the row of the one tag that
      has this text. */
  lemma TextOfCardHasRow(tags: TagTable, ct: CardTagTable, card: CardId, text: string)
    requires DistinctTexts(tags)
    requires text in TextsOf(tags, ct, card)
    ensures FindByText(tags, text).Some?
    ensures CardTagPK(card, FindByText(tags, text).value) in ct
  {
    var k :| k in ct && k.cardId == card && k.tagId < |tags| && tags[k.tagId] == text;
    assert k == CardTagPK(card, FindByText(tags, text).value);
  }
}

=== FILE: wrappers.dfy ===
/** Option and Result, the two failure-compatible wrappers the model uses in
    place of Java's null and of thrown exceptions. */
module Wrappers {

  /** A value that may be absent; `None` stands for Java's `null`. */
  datatype Option<+T> = None | Some(value: T) {

    predicate IsFailure() {
      None?
    }

    function PropagateFailure<U>(): Option<U>
      requires None?
    {
      None
    }

    function Extract(): T
      requires Some?
    {
      value
    }

    function GetOr(default: T): T {
      match this
      case Some(v) => v
      case None => default
    }
  }

  /** The outcome of an operation that may throw: `Failure` carries the
      exception the source raises. */
  datatype Result<+R, +E> = Success(value: R) | Failure(error: E) {

    predicate IsFailure() {
      Failure?
    }

    function PropagateFailure<U>(): Result<U, E>
      requires Failure?
    {
      Failure(error)
    }

    function Extract(): R
      requires Success?
    {
      value
    }
  }
}
